=== FILE: README.md ===
# nodejs-lib core, modelled in Dafny

This project models the request and data logic of dioscouri/nodejs-lib, a
Node.js library for Express/Mongoose web applications, and proves properties
of it.

- **The list and CRUD controller** (`BaseCRUDController`): action URLs, the
  `'view'` fallback of `actionName`, `itemId`, the filter kept between list
  requests and the query string that carries it, and the actions `preLoad`,
  `create`, `edit`, `doDelete`, `bulkDelete` and `doBulkEdit`. These actions
  work on a class whose fields are the flash list, the terminated flag, the
  redirects issued, the events emitted, the chosen view, the loaded item and
  the page data. It also covers the row-to-item mapping of the spreadsheet
  import and the cell and range computation of the spreadsheet export.
- **The Mongoose model wrapper**:
  - the pagination object filled in by `preparePagination`;
  - the query shape built by `getListFiltered` (search condition, sort entry,
    skip/limit);
  - `findById`, `insert`, `save` and `removeById` over an id-to-record map,
    with a fault oracle standing for database driver failures;
  - the append-only `ValidationError`.
- **The session flash sink** (`FlashMessages`): type normalisation, append,
  and read-and-clear.
- **The JSON API controller**: page number, clamped page size, the filter
  built from the model's response fields, the API-key gate of `preLoad`, and
  how `load` chooses between one item and a list. `BaseAPIModel.refineForApi`
  projects a document onto the response fields.
- **E-mail**:
  - the `EmailMessage` builder;
  - how `SendgridProvider.send` assembles a mail (de-duplicated recipients,
    headers, content, attachments, reply-to) and its status check;
  - the `EmailFactory` provider selection and its per-name instance cache.
- **The `View`**: its type setter, `htmlView`/`jsonView`, and the
  error/content-type choice of `render`.
- **Route keys**: parsing of `"methods|url"` keys in
  `HTTPServer.loadRoutesFromFile`, one registration per method.
- **The example `User` document**: `fullName` and `isNotificationAllowed`.

The JavaScript builtins the code relies on are written out in `JsString`:
case mapping, `trim`, `split`, `parseInt`, number printing, `replace`,
`path.basename` and `encodeURIComponent`.

Imperative code is modelled with classes, loops and invariants. This covers
the controller actions, `preparePagination`, `ValidationError`, the flash
sink, the message builder, the Sendgrid loops, the provider cache, the view
setter, the route loops and the spreadsheet loops. Pure selections are
functions. Most loop methods are specified by a function, and the properties
are proved as lemmas about that function; a few short searches and
projections (`IsNotificationAllowed`, `RefineForApi`, the API controller's
`ViewFilters`) state their result directly in their postconditions.

Each `async` pipeline is straight-line code in the model, and each
`async.each`/`eachLimit`/`eachSeries` is a sequential loop. A callback that
continues an action is a method of its own (`OnCreateValidated`,
`OnItemLookedUp`, `OnRemoved`, ...), and the action calls it.

`emit` calls the listeners of an event synchronously, in the order they were
added. So a successful `edit` both emits ITEM_UPDATE, whose listener
`init` registered as `onItemHasBeenSaved`, and calls `onItemHasBeenSaved`
directly. The success flash and the redirect are therefore issued twice, as
the code does it. `Edit`'s contract states this.

## Model

| member | source | states |
|---|---|---|
| Pagination.Pagination.constructor | lib/controllers/crudcontroller.js:291-298 | the `{currentPage, pageSize}` object a controller hands over, with nothing derived yet |
| Pagination.Pagination.Prepare | lib/mongoosemodel.js:159-198 | page count, `firstPage` only past page 3, `lastPage` or false, the window and the summary (written unless first item and count are both 0), with the inputs unchanged |
| Pagination.TotalPagesIsCeiling | lib/mongoosemodel.js:160 | the page count is the least number of pages of `pageSize` that holds every item |
| Pagination.PageRangeMembers | lib/mongoosemodel.js:172-183 | a page is in the window iff it is within two of the current page, at least 1 and at most the page count |
| Pagination.PageRangeShape | lib/mongoosemodel.js:172-183 | the window is consecutive, at most five long, from the low to the high bound, and empty iff the bounds cross |
| Pagination.CounterWithinPage | lib/mongoosemodel.js:186-197 | on an existing page the summary shows a non-empty run of at most one page, ending at or before the item count |
| Pagination.FirstPageExample | lib/mongoosemodel.js:159-198 | page 1 of 25 items in pages of 10: 3 pages, window [1,2,3], no lastPage, "Showing 1 to 10 of 25 entries" |
| Pagination.ClippedWindowExample | lib/mongoosemodel.js:172-183 | page 5 of 3 pages gives the window [3] |
| ListQuery.SearchRegex | lib/mongoosemodel.js:217 | the expression is `.*` + trimmed text + `.*` with flags `gi` |
| ListQuery.NormaliseOrder | lib/mongoosemodel.js:234 | 'asc' and 'desc' are kept, any other order becomes 'asc' |
| ListQuery.SortEntry | lib/mongoosemodel.js:232-236 | a sort entry exists iff both field and order are given, and then carries the normalised order |
| ListQuery.SearchFilterShape | lib/mongoosemodel.js:215-229 | no condition without a non-empty value and a field; one field gives one condition; several give an `$or` with one condition per field, in order |
| ListQuery.SearchSelectsSomeField | lib/mongoosemodel.js:219-228 | whatever the number of fields, the selector admits exactly the documents where some searched field matches |
| ListQuery.WindowsTile | lib/mongoosemodel.js:258-259 | page 1 skips nothing, the limit is the page size, and each page starts where the previous one ends |
| MongooseModel.AcceptAll | lib/mongoosemodel.js:341-343 | the base `validate` accepts every item |
| MongooseModel.Model.FindById | lib/mongoosemodel.js:286-290 | the driver's error, or the stored document iff the id is known |
| MongooseModel.Model.RemoveById | lib/mongoosemodel.js:298-319 | a lookup error is passed on; an unknown id gives neither error nor item; a found item is stamped with the actor, removed unless removal fails, and returned |
| MongooseModel.Model.Insert | lib/mongoosemodel.js:324-333 | on success the new document is stored under its new id; on failure nothing changes |
| MongooseModel.Model.Save | lib/controllers/crudcontroller.js:680-687 | a document's `save` replaces the stored one unless the driver fails |
| MongooseModel.Model.GetListFiltered | lib/mongoosemodel.js:203-268 | throws iff a search is applied and its expression is not a valid pattern, and then leaves the pagination as it was and hands over nothing; otherwise builds the query, sets the count and the derived pagination even when the count fails, and hands over the items iff neither step failed |
| MongooseModel.NonNullMembers | lib/mongoosemodel.js:413-422 | the kept messages are exactly the non-null ones, never more than the input |
| MongooseModel.NonNullIdentity | lib/mongoosemodel.js:413-422 | without nulls the kept messages equal the input, in order |
| MongooseModel.ValidationError.constructor | lib/mongoosemodel.js:356-365 | a new error holds its message unless the message is null |
| MongooseModel.ValidationError.AddMessage | lib/mongoosemodel.js:381-385 | appends a non-null message and ignores null |
| MongooseModel.ValidationError.AttachError | lib/mongoosemodel.js:395-405 | null gives a fresh error holding the message; an error gets the message appended and is returned itself |
| MongooseModel.ValidationError.Create | lib/mongoosemodel.js:413-422 | null for a missing or empty list, otherwise a fresh error holding the non-null messages in order |
| FlashMessages.NormaliseType | lib/flashmessages.js:49-77 | an omitted or unknown type becomes INFO; the known types are stored as given |
| FlashMessages.NormaliseTypeStable | lib/flashmessages.js:63-77 | a stored type normalises to itself |
| FlashMessages.FlashMessages.constructor | lib/flashmessages.js:29-36 | a sink over a session, with or without a request |
| FlashMessages.FlashMessages.AddMessage | lib/flashmessages.js:44-78 | without a request nothing changes; otherwise exactly one message with the normalised type is appended, creating the list if needed |
| FlashMessages.FlashMessages.AddMessages | lib/controllers/crudcontroller.js:640 | each text is appended in order with the one normalised type |
| FlashMessages.FlashMessages.GetMessages | lib/flashmessages.js:87-113 | null without a request or list; otherwise the list, emptied unless flush is given and false |
| FlashMessages.FlashWorkflow | test/flashmessage.js:24-36 | reading without flush keeps the message, a flushing read empties the list, and a second read gives none; the `addMessages` step runs against the stub, where the library itself has no such method |
| View.NextViewType | lib/view.js:65-78 | HTML, JSON and XML are stored; any other value sets HTML only when no type is set yet |
| View.NextViewTypeStable | lib/view.js:65-78 | after the setter the type is one of the three, and assigning the same value again changes nothing |
| View.ContentType | lib/view.js:192-217 | text/html for HTML, application/json for JSON, none otherwise |
| View.View.constructor | lib/view.js:36-49 | data, template and error as given, with the type passed through the setter |
| View.View.SetViewType | lib/view.js:65-78 | the new type is what `NextViewType` gives; nothing else changes |
| View.View.HtmlView | lib/view.js:160-164 | an HTML view with the given template, data and error |
| View.View.JsonView | lib/view.js:173-177 | a JSON view without a template |
| View.View.Render | lib/view.js:184-235 | the result is null iff there is an error (status 500); otherwise the compiled template or the serialised data is written with status 200 and the matching content type |
| Messaging.ProviderClassOf | lib/messaging.js:52-64 | SENDGRID and MANDRILL (after upper-casing) select their classes; any other type is an error naming it |
| Messaging.ProviderClassIgnoresCase | lib/messaging.js:54 | spellings that differ only in case select the same class |
| Messaging.Provider.constructor | lib/messaging.js:76 | an instance of the selected class |
| Messaging.EmailFactory.constructor | lib/messaging.js:89 | the cache starts empty |
| Messaging.EmailFactory.ProviderFor | lib/messaging.js:72-80 | an unknown type fails before the cache is touched; a cached instance is returned as it is; otherwise a fresh instance is cached under the type exactly as spelled |
| Messaging.CacheScenario | lib/messaging.js:72-80 | the same spelling twice gives one instance; a second spelling of the same class gives a second instance of that class; an unknown type fails |
| Messaging.ScenarioSpellings | lib/messaging.js:54-61 | 'sendgrid' and 'SENDGRID' both select SendGrid, and 'smtp' is unknown |
| HttpServer.ParseRouteKey | lib/httpserver.js:213-221 | a parsed key has at least one method |
| HttpServer.MethodRegistrations | lib/httpserver.js:222-230 | one registration of the URL per method, in order |
| HttpServer.HttpServer.LoadRoutes | lib/httpserver.js:205-232 | appends every route's registrations and every invalid key's warning, route by route |
| HttpServer.LoadRoute | lib/httpserver.js:213-231 | a warning for a key without two parts, otherwise one registration per listed method |
| HttpServer.RouteKeyValid | lib/httpserver.js:213-216 | a key is accepted iff it contains '\|' |
| HttpServer.RouteKeyParts | lib/httpserver.js:213-221 | for `m\|u` the methods are lower-cased `m` split on ',' and the URL is `u` up to any further '\|' |
| HttpServer.TwoMethodRoute | lib/httpserver.js:219-229 | `a,b\|u` registers `u` for `a` and then for `b`, as in the example application's routes |
| BaseApiModel.BaseApiModel.constructor | lib/baseapimodel.js:20-30 | a base model exposes no response fields |
| BaseApiModel.BaseApiModel.RefineForApi | lib/baseapimodel.js:45-54 | the keys are exactly the response fields, each value copied from the item, and the error is null |
| BaseApiModel.DefaultRefinesToEmpty | lib/baseapimodel.js:29-53 | with the default response fields the result is `{}` |
| User.FullName | examples/nodejs-module-example/app/models/dbo/user.js:67-69 | the printed first name, one space, the printed last name, where an absent part prints as "undefined" |
| User.FullNameSplits | examples/nodejs-module-example/app/models/dbo/user.js:67-69 | names without spaces are read back from the full name |
| User.IsNotificationAllowed | examples/nodejs-module-example/app/models/dbo/user.js:74-88 | true iff type and list are present and some entry equals the type ignoring case |
| EmailMessage.OrElse | lib/email/emailmessage.js:33-34 | `a \|\| b`: a non-empty `a` wins, otherwise `b` |
| EmailMessage.NonEmpty | lib/email/emailmessage.js:39-40 | `a \|\| null`: a non-empty string or null |
| EmailMessage.FromRaw | lib/email/emailmessage.js:30-44 | snake-case sender keys win; missing lists are empty, missing html/text null, missing subject '', missing reply-to `{}` |
| EmailMessage.FileAttachment | lib/email/emailmessage.js:249-260 | MIME type defaults to application/octet-stream and the name to the file's base name |
| EmailMessage.EmailMessage.constructor | lib/email/emailmessage.js:30-44 | a new message has the properties `FromRaw` gives |
| EmailMessage.EmailMessage.AddTo | lib/email/emailmessage.js:98-102 | one recipient appended iff the address is non-null; everything else unchanged |
| EmailMessage.EmailMessage.AddCC | lib/email/emailmessage.js:117-121 | as `AddTo`, for cc |
| EmailMessage.EmailMessage.AddBCC | lib/email/emailmessage.js:136-140 | as `AddTo`, for bcc |
| EmailMessage.EmailMessage.AddHeader | lib/email/emailmessage.js:154-158 | appends non-null headers only |
| EmailMessage.EmailMessage.AddAttachment | lib/email/emailmessage.js:224-237 | always appends; disposition and content id are kept only when non-empty |
| EmailMessage.EmailMessage.AddFileAttachment | lib/email/emailmessage.js:249-269 | as intended: appends the defaulted attachment and yields true iff the file can be read, otherwise changes nothing and yields false |
| EmailMessage.EmailMessage.AddFileAttachmentAsWritten | lib/email/emailmessage.js:249-269 | as written: a readable file is attached and yields true; an unreadable one changes nothing and throws a TypeError, so false is never returned |
| SendgridProvider.KeptAreFirstOccurrences | lib/email/sendgridprovider.js:87-94 | the kept entries are exactly the first occurrences of unseen addresses, in their original order |
| SendgridProvider.KeptUnique | lib/email/sendgridprovider.js:87-110 | kept addresses are unseen, distinct, and cover every unseen address of the list |
| SendgridProvider.RecipientsUnique | lib/email/sendgridprovider.js:80-110 | across to, cc and bcc every address of the message appears exactly once |
| SendgridProvider.HeaderEntries | lib/email/sendgridprovider.js:112-123 | one entry per complete form, in the order name/value, key/value, [0]/[1], each carrying that form's name and value |
| SendgridProvider.AllHeaderEntries | lib/email/sendgridprovider.js:112-123 | at most three entries per header |
| SendgridProvider.Contents | lib/email/sendgridprovider.js:127-132 | text/plain before text/html, each only when non-empty |
| SendgridProvider.ToSendgrid | lib/email/sendgridprovider.js:134-147 | type, name and content carried over; disposition and content id carried over when non-empty and unset otherwise |
| SendgridProvider.AttachmentsFor | lib/email/sendgridprovider.js:133-148 | each attachment converted, in order |
| SendgridProvider.ReplyTarget | lib/email/sendgridprovider.js:150-152 | reply-to is set iff it has a non-empty address |
| SendgridProvider.SendOutcome | lib/email/sendgridprovider.js:165-175 | no error iff 200 ≤ status < 300; otherwise an error naming the status |
| SendgridProvider.AddUnique | lib/email/sendgridprovider.js:87-94 | the recipient loop keeps exactly `Kept` and marks every address of the list as taken |
| SendgridProvider.HeaderStep | lib/email/sendgridprovider.js:113-122 | the entries one header pushes are `HeaderEntries` |
| SendgridProvider.AddHeaders | lib/email/sendgridprovider.js:112-123 | the header loop yields the entries of all headers in order |
| SendgridProvider.BuildMail | lib/email/sendgridprovider.js:74-152 | the assembled mail is the one `MailFor` describes |
| SendgridProvider.Send | lib/email/sendgridprovider.js:65-176 | raw input is wrapped into a message first; the outcome follows the status |
| ApiController.ViewPageCurrent | lib/controllers/apicontroller.js:123-128 | the parsed page, or 1 without one |
| ApiController.PageCurrentRoundTrip | lib/controllers/apicontroller.js:123-128 | a page written in decimal is read back as that number |
| ApiController.ViewPageSize | lib/controllers/apicontroller.js:135-150 | 10 without a limit; above 100 becomes 100, 0 becomes 1, NaN stays NaN |
| ApiController.PageSizePassesThrough | lib/controllers/apicontroller.js:135-150 | a limit in 1..100 is used as given |
| ApiController.MatchingMembers | lib/controllers/apicontroller.js:176-184 | exactly the response fields named in the filter are searched |
| ApiController.ViewFilters | lib/controllers/apicontroller.js:169-186 | no fields and no value without response fields or filter; otherwise the matching fields in order, with the last one's value |
| ApiController.PreLoadError | lib/controllers/apicontroller.js:193-218 | a missing key fails before the store is asked; otherwise the store's error, 'Invalid or non-active API key!' for a key it does not accept, and success iff it accepts |
| ApiController.ItemKey | lib/controllers/apicontroller.js:234 | the id cut to its first 24 characters |
| ApiController.Load | lib/controllers/apicontroller.js:225-231 | one item iff the route has an id, looked up by its first 24 characters; otherwise the list over the query's page and filter |
| ApiController.LoadItemResponse | lib/controllers/apicontroller.js:233-245 | an internal-error document iff the driver fails, otherwise the stored document or null |
| ApiController.LoadItems | lib/controllers/apicontroller.js:247-256 | throws iff the filter text is not a valid pattern, handing over nothing; otherwise the unsorted list query over the requested page, and the items are handed over iff no error |
| CrudRequest.ActionUrl | lib/controllers/crudcontroller.js:355-383 | list and unknown actions give the base URL; create/import/export/bulk actions add `/action`; edit/doEdit/delete add `/id/action`; view adds `/id` |
| CrudRequest.ListUrl | lib/controllers/crudcontroller.js:376-379 | the list URL is the base URL |
| CrudRequest.ActionUrlsExtendList | lib/controllers/crudcontroller.js:355-383 | every action URL extends the list URL, and distinct item-less actions have distinct URLs |
| CrudRequest.SingleValue | lib/controllers/crudcontroller.js:462-471 | a single value as it is, the first of several ('' for none), undefined stays undefined |
| CrudRequest.SingleValueOfFirst | lib/controllers/crudcontroller.js:462-471 | a repeated parameter reads as its first value given once |
| CrudRequest.Remembered | lib/controllers/crudcontroller.js:430-451 | a truthy page is remembered; a filter query replaces the search, the page size when given, and the sorting when field and order are both given |
| CrudRequest.RememberedIdempotent | lib/controllers/crudcontroller.js:424-455 | repeating a list request leaves the remembered filter as it was |
| CrudRequest.FilterParts | lib/controllers/crudcontroller.js:389-404 | one part per present value (search, page size, two for sorting) |
| CrudRequest.QueryStringFilterPart | lib/controllers/crudcontroller.js:406-411 | empty iff there are no parts |
| CrudRequest.EncodedHasNoAmpersand | lib/controllers/crudcontroller.js:394 | an encoded value never contains '&' |
| CrudRequest.FilterPartsSeparable | lib/controllers/crudcontroller.js:391-404 | no part contains '&' |
| CrudRequest.QueryStringRoundTrip | lib/controllers/crudcontroller.js:389-412 | the query string starts with '?', and splitting the rest on '&' gives back the parts in order |
| CrudRequest.FilteredListUrlShape | lib/controllers/crudcontroller.js:489-498 | the list URL, then '/page/N' for a remembered page, then the query string; the list URL itself for an empty filter |
| CrudRequest.ItemFromRequest | lib/controllers/crudcontroller.js:595-603 | the item's fields with every body field copied over them (the body wins) |
| CrudController.RegisterTable | lib/controllers/crudcontroller.js:220-234 | after registration the table has its old actions and the registered ones; the last registration of an action decides its method, and others keep theirs |
| CrudController.RegisterActions | lib/controllers/crudcontroller.js:220-234 | the registration loop yields `Register` |
| CrudController.WithListener | lib/controllers/crudcontroller.js:237-238 | a listener is added after those the event already has; other events keep theirs |
| CrudController.InitListenersFresh | lib/controllers/crudcontroller.js:237-238 | after `init`, create and update have one handler each and delete none |
| CrudController.HandlerFlash | lib/controllers/crudcontroller.js:655-659 | both handlers flash SUCCESS |
| CrudController.SavedTarget | lib/controllers/crudcontroller.js:723-731 | the create page iff saveAction is 'save&CreateAnother', the list otherwise |
| CrudController.HandlerFlashes | lib/controllers/crudcontroller.js:655-659 | one flash per handler, in order |
| CrudController.HandlerRedirects | lib/controllers/crudcontroller.js:719-732 | one redirect per handler, in order |
| CrudController.BodyValue | lib/controllers/crudcontroller.js:995 | a value iff the body has the field |
| CrudController.PreviewMembers | lib/controllers/crudcontroller.js:981-1008 | the preview holds exactly the fields whose checkbox is 'on', with the body's value at their path, and no more rows than fields |
| CrudController.Coerce | lib/controllers/crudcontroller.js:1057-1061 | 'true' and 'false' become booleans, everything else is kept, and no such string is left |
| CrudController.BulkPatchesSpec | lib/controllers/crudcontroller.js:1054-1068 | exactly one patch per bulk field whose name the body has, in the fields' order, with the field's path and the coerced body value |
| CrudController.CoercedBodyValues | lib/controllers/crudcontroller.js:1054-1062 | coercion keeps the body's fields and coerces exactly the ones a bulk field names |
| CrudController.CollectPatches | lib/controllers/crudcontroller.js:1052-1068 | the first loop of `doBulkEdit` yields the coerced body and the patches |
| CrudController.PatchedValues | lib/controllers/crudcontroller.js:1082-1084 | the id is kept; the fields are the old ones plus the patched paths; each patched path holds its last patch's value and every other field is unchanged |
| CrudController.SaveAllStores | lib/controllers/crudcontroller.js:1080-1091 | as intended (a failed save is skipped): saving loses no document and changes only listed ones; without failures every listed one is stored, and an id's last listed document is stored there patched |
| CrudController.SaveEach | lib/controllers/crudcontroller.js:1080-1091 | as intended: the save loop leaves the store as `SaveAll` says, logging a failed save and going on |
| CrudController.SavedPrefix | lib/controllers/crudcontroller.js:1080-1089 | the number of leading documents that save before the first failing save: all of them save, and the next one fails |
| CrudController.SaveEachAsWritten | lib/controllers/crudcontroller.js:1080-1089 | as written: the loop stops with a thrown error at the first failing save, so the store holds only the documents saved before it |
| CrudController.SaveAsWrittenWithoutFailure | lib/controllers/crudcontroller.js:1080-1091 | without a failing save the loop as written and the intended one leave the same store |
| CrudController.SaveAsWrittenStopsEarly | lib/controllers/crudcontroller.js:1086-1089 | a failing first save followed by a new document that would save: the intended loop stores it, the loop as written does not |
| CrudController.SelectedItems | lib/controllers/crudcontroller.js:1144-1147 | an array as it is, a scalar truthy value as one element, nothing otherwise |
| CrudController.RemoveAllRemoves | lib/controllers/crudcontroller.js:1149-1158 | bulk deletion only removes, and without failures every selected id is gone |
| CrudController.RemoveEach | lib/controllers/crudcontroller.js:1149-1158 | the removal loop leaves the store as `RemoveAll` says |
| CrudController.DeleteFlash | lib/controllers/crudcontroller.js:1115-1128 | SUCCESS iff no error and a document was found |
| CrudController.Controller.constructor | lib/controllers/crudcontroller.js:70-135 | the request, the configuration and an empty outcome |
| CrudController.Controller.Init | lib/controllers/crudcontroller.js:219-242 | registers the fifteen actions and the create and update listeners, changing nothing else |
| CrudController.Controller.ActionName | lib/controllers/crudcontroller.js:182-193 | 'view' when the inherited name is not registered and the route has `:action`; the inherited name otherwise |
| CrudController.Controller.ItemId | lib/controllers/crudcontroller.js:162-166 | a non-empty `id` parameter, else the `action` parameter |
| CrudController.Controller.CacheRequestFilter | lib/controllers/crudcontroller.js:424-455 | a list request updates the remembered filter as `Remembered` says; nothing else changes |
| CrudController.Controller.ViewFilters | lib/controllers/crudcontroller.js:249-257 | the search is over the searchable fields with the remembered non-empty search text, or no text |
| CrudController.Controller.Lookup | lib/controllers/crudcontroller.js:513 | a lookup that fails finds nothing |
| CrudController.Controller.OnItemLookedUp | lib/controllers/crudcontroller.js:513-534 | an error flashes ERROR, terminates, redirects and is passed on; a missing item terminates and redirects with an error flash; a found item is loaded |
| CrudController.Controller.PreLoad | lib/controllers/crudcontroller.js:505-538 | remembers the filter; loads an item only for edit, doEdit and view, as `OnItemLookedUp` says |
| CrudController.Controller.OnItemInserted | lib/controllers/crudcontroller.js:655-659 | SUCCESS, terminate, redirect to the list |
| CrudController.Controller.OnItemSaved | lib/controllers/crudcontroller.js:719-732 | SUCCESS, terminate, redirect to the create page iff 'save&CreateAnother', else to the list |
| CrudController.Controller.RunHandler | lib/controllers/crudcontroller.js:237-238 | a registered handler flashes and redirects as its function says |
| CrudController.Controller.Emit | lib/controllers/crudcontroller.js:633 | records the event and runs its listeners in order: their flashes and redirects are appended |
| CrudController.Controller.CreatePageData | lib/controllers/crudcontroller.js:611-612 | the create action URL and, as cancel URL, the filtered list URL, which extends the list URL |
| CrudController.Controller.OnCreateInserted | lib/controllers/crudcontroller.js:623-637 | an error flashes ERROR, terminates, redirects and never emits; success emits ITEM_CREATE |
| CrudController.Controller.OnCreateValidated | lib/controllers/crudcontroller.js:619-645 | invalid details insert nothing and re-show the form with the messages as ERROR; valid ones are stamped and inserted |
| CrudController.Controller.Create | lib/controllers/crudcontroller.js:610-648 | GET shows the form; POST stores the stamped body iff it validates and the insert succeeds, with the flashes, redirect and event of each path |
| CrudController.Controller.OnEditSaved | lib/controllers/crudcontroller.js:680-694 | an error flashes ERROR and redirects; success emits ITEM_UPDATE and then runs `onItemHasBeenSaved` again |
| CrudController.Controller.OnEditValidated | lib/controllers/crudcontroller.js:676-702 | the item becomes the merged one; invalid re-shows the form with ERROR flashes; valid is stamped and saved |
| CrudController.Controller.EditPageData | lib/controllers/crudcontroller.js:667-670 | edit mode, the edit action URL and the cancel URL to the item's page |
| CrudController.Controller.Edit | lib/controllers/crudcontroller.js:666-704 | GET shows the form; POST merges the body into the item and saves it iff valid; a successful save flashes and redirects once per update listener and once more directly |
| CrudController.Controller.DeleteOutcome | lib/controllers/crudcontroller.js:1110 | a document is reported found only if it was stored under the item id |
| CrudController.Controller.OnRemoved | lib/controllers/crudcontroller.js:1110-1136 | ITEM_DELETE is emitted first; an error flashes ERROR, a removal SUCCESS, a missing item ERROR; every path terminates and redirects |
| CrudController.Controller.DoDelete | lib/controllers/crudcontroller.js:1109-1137 | the last flash is SUCCESS iff a document left the store |
| CrudController.Controller.BulkDelete | lib/controllers/crudcontroller.js:1143-1170 | removes each selected id, drops every error, and always ends with the INFO flash, terminate and redirect |
| CrudController.Controller.OnBulkListed | lib/controllers/crudcontroller.js:1075-1101 | as intended: a list error is passed on with nothing flashed; otherwise every document is patched and saved (a failed save is skipped), then SUCCESS and redirect |
| CrudController.Controller.OnBulkListedAsWritten | lib/controllers/crudcontroller.js:1075-1101 | as written: a list error is passed on; a failing save throws, leaving only the documents saved before it and no flash, termination or redirect; otherwise SUCCESS and redirect |
| CrudController.Controller.ListEverything | lib/controllers/crudcontroller.js:1070-1075 | the listing of a bulk edit throws iff the remembered search is not a valid pattern; otherwise it is page 1 of 10000 unsorted, fails as the count or fetch does, and hands over the fetched documents only when nothing failed |
| CrudController.Controller.DoBulkEdit | lib/controllers/crudcontroller.js:1050-1102 | as intended: coerces the body; a remembered search that is not a valid pattern throws, saving nothing and with no flash or redirect; otherwise lists page 1 of 10000 unsorted and saves every listed document with the patches, skipping failed saves |
| CrudSheet.CellAt | lib/controllers/crudcontroller.js:776 | the cell, or undefined past the end of a short row |
| CrudSheet.ColumnKeys | lib/controllers/crudcontroller.js:774-777 | one key per column, none for an empty header |
| CrudSheet.ItemKeys | lib/controllers/crudcontroller.js:772-778 | an item's keys are exactly its columns' keys |
| CrudSheet.ItemLastWins | lib/controllers/crudcontroller.js:774-778 | a column whose key no later column repeats supplies that key's value |
| CrudSheet.RowItemKeys | lib/controllers/crudcontroller.js:768-778 | an imported item's keys are the keys of the non-empty headers |
| CrudSheet.RowItemLastWins | lib/controllers/crudcontroller.js:768-778 | the last column with a header key supplies its value |
| CrudSheet.ImportRow | lib/controllers/crudcontroller.js:772-780 | one row becomes `RowItem` |
| CrudSheet.ImportItems | lib/controllers/crudcontroller.js:768-781 | one item per data row, in order, keyed by the first row |
| CrudSheet.OnlyFirstLineBreakReplaced | lib/controllers/crudcontroller.js:776 | only a header's first line break turns into a space |
| CrudSheet.CellType | lib/controllers/crudcontroller.js:944-946 | 'n' for numbers, 'b' for booleans, 's' otherwise |
| CrudSheet.SheetRow | lib/controllers/crudcontroller.js:935-949 | one row's non-null values become typed cells, and a non-empty row widens the range to it |
| CrudSheet.SheetFromArrays | lib/controllers/crudcontroller.js:931-954 | one typed cell per non-null value, nothing else; the range exists iff some row has a cell and is the smallest box holding every cell position |
| JsString.ToUpperOfToLower | lib/messaging.js:54 | upper-casing forgets an earlier lower-casing |
| JsString.JoinSplit | lib/httpserver.js:213 | joining a split gives the string back |
| JsString.SplitJoin | lib/controllers/crudcontroller.js:404 | splitting a join of separator-free parts gives the parts back |
| JsString.SplitSeveral | lib/httpserver.js:213-215 | a string splits into several parts iff it holds the separator |
| JsString.ParseIntOfIntToString | lib/controllers/apicontroller.js:125 | `parseInt` reads back every printed integer |
| JsString.EncodeUriComponentSafe | lib/controllers/crudcontroller.js:394 | an encoded component has no '&', '=', '?', '/', '[' or ']' |
| JsString.EncodeUriComponentUnreserved | lib/controllers/crudcontroller.js:394 | a component of unreserved characters is encoded as itself |

## Left out

- SendgridProvider.Send: the BEFORE_SEND event, emitted with the assembled mail just before sending, is not modelled; a listener that changes the mail is not captured, and the mail sent is the one `BuildMail` assembles.
- CrudController.Controller.ViewFilters: the view filter's `basePath` (the list URL, `CrudRequest.ListUrl`) is not carried, since only the page template reads it.
- User.FullName: a name part stored as null prints "null" in the code; the model distinguishes only present and absent parts.

- Runtime work is not modelled:
  - I/O, the file system, Express, sessions stores, swig compilation and `JSON.stringify`. Template compilation and serialisation are function parameters of `View.View.Render`.
  - Multipart and Excel parsing, and `XLSX.writeFile`/`sendFile` in the import and export actions. Only the row-to-item mapping and the cell/range computation are modelled.
  - The network. The Sendgrid client is replaced by the status it answers with; the API-key store by an `authenticate` parameter; database ids and answers by parameters and a fault oracle.
- Concurrency: `async.each`/`eachLimit`/`eachSeries` are sequential loops in list order. Interleavings of the driver callbacks are not modelled.
- Regular expressions: how the database evaluates `$regex` is a parameter (`matches`) of `ListQuery.Selects`, and which search expressions `new RegExp` accepts is a parameter (`validPattern`) of `ListQuery.SearchThrows`. The search text is not escaped, as in the code.
- MongooseModel.Model.GetListFiltered: a search value that is not a string (a repeated `filter[x]` in the query string of the API arrives as an array) makes `.trim()` throw a TypeError in the code. `ApiController.ApiQuery` holds each filter value as one string, so this case, and what it does to ApiController.LoadItems, is not modelled.
- A thrown SyntaxError or TypeError is modelled as the `thrown` outcome of GetListFiltered, LoadItems, ListEverything and DoBulkEdit; what the web framework then answers is not modelled.
- Floating point: JavaScript numbers are unbounded integers, and NaN is `None`.
  - Pagination.Pagination.Prepare: requires a non-zero page size. Division by zero (an Infinity page count) is not modelled.
  - ApiController.LoadItems: requires a non-NaN page and page size.
  - A cached page size of NaN is treated like an absent one, since the code only tests its truthiness.
- Case mapping changes only ASCII letters (`JsString.LowerChar`/`UpperChar`).
- `objectPath.set` with a dotted path is modelled as setting a top-level field (`CrudController.Patched`).
- The two-argument form of `removeById`, where the second argument is the callback, is not modelled; every caller in the controllers passes three.
- `addMessages` is called by the controllers but not defined in lib/flashmessages.js. FlashMessages.FlashMessages.AddMessages takes it to add each text, in order, with the given type.
- The test's `addMessage({message, type})` object form is modelled by its text and type; its object payload is not.
- Mongoose document identity is not modelled: `data.item` and the loaded item are the same object in the code, and the model re-assigns both.
- `EmailFactory._providersCache` is static in the code and an instance field here. Providers carry only their class, not their transport.
- `EmailFactory.defaultProvider` (reads the environment) and the Mandrill adapter (lib/email/mandrillprovider.js) are not modelled.
- The base controller classes are not part of this model. `registerAction`, `actionName`, `terminate`, `emit`/`addListener`, `currentState` and `data` are plain fields and methods of `CrudController.Controller`.
- CrudController.Controller.CacheRequestFilter: when the controller state has no filter object, the code writes into a fresh `{}` that nothing keeps; the model leaves the state as it is.
- CrudController.Controller.Lookup: a request without an item id finds nothing, rather than querying the driver with `undefined`.
- Bulk deletion skips selected values that are not strings; the driver would reject them, and every error is dropped anyway.
- The `load` action (the HTML list page), `doView`, and the page data of `bulkEdit`/`bulkEditPreview` are not modelled. Their list query and URLs are covered through `GetListFiltered`, `ActionUrl` and `PrepareBulkEditData`.
- The import action's store updates are not modelled: the find-or-insert per item and its flashes. Only the row mapping is.
- Controller file resolution and logging in `loadRoutesFromFile` are not modelled. The controller is kept by name.
- `encode_cell`/`encode_range` are abstracted: cells are keyed by (column, row), and the `'!ref'` range is returned as bounds.
- MongooseModel.Model.Validate has no contract: subclasses define it, and the base class accepts everything (`MongooseModel.AcceptAll`).
- The bcrypt pre-save hook, `comparePassword` and `Date.now` in the example user model are not modelled.

## Findings

| source | as written | input that shows it | evidently intended | confidence | as-written member | corrected member |
|---|---|---|---|---|---|---|
| lib/email/emailmessage.js:263-266 | the handler of a failed read calls `this._logger.error(...)`, but `EmailMessage` never sets `_logger` and has no base class, so the handler throws a TypeError | `addFileAttachment` of a file that does not exist | log the failure and return false | high (not executed) | EmailMessage.EmailMessage.AddFileAttachmentAsWritten | EmailMessage.EmailMessage.AddFileAttachment |
| lib/controllers/crudcontroller.js:1086-1089 | the save callback of `doBulkEdit` is the only callback there not bound to the controller, so on a failed save `this._logger` is not the controller's logger and the callback throws before `callback()`; the loop stops, later documents are not saved, and no flash, termination or redirect follows | a bulk edit where saving one listed document fails | log the error and go on with the next document, then flash SUCCESS and redirect | medium (not executed) | CrudController.Controller.OnBulkListedAsWritten | CrudController.Controller.OnBulkListed |

=== FILE: apicontroller.dfy ===
/**
 * The paging, filter and lookup rules of the JSON API controller
 * (lib/controllers/apicontroller.js): page number and clamped page size from
 * the query string, the filter built from the model's response fields, the
 * API-key gate of `preLoad`, and the choice `load` makes between one item and
 * a list. The key store and the database are parameters.
 */
module ApiController {
  import opened Wrappers
  import opened Records
  import JsString
  import ListQuery
  import Pagination
  import MongooseModel

  const DefaultPageSize: int := 10
  const MaxPageSize: int := 100

  /** Database ids are 24 characters long; longer ids are cut to this length. */
  const IdLength: nat := 24

  /** The query-string parameters the controller reads; `filter` is the `filter[...]` object. */
  datatype ApiQuery = ApiQuery(page: Option<string>, limit: Option<string>,
                               filter: Option<map<string, string>>, apiKey: Option<string>)

  // ------------------------------------------------------------ paging

  /** `getViewPageCurrent`: the parsed `page` (`None` for NaN), or 1 when no page is given. */
  function ViewPageCurrent(query: ApiQuery): (r: Option<int>)
    ensures !Present(query.page) ==> r == Some(1)
    ensures Present(query.page) ==> r == JsString.ParseInt(query.page.value)
  {
    if Present(query.page) then JsString.ParseInt(query.page.value) else Some(1)
  }

  /** A page number written in decimal is read back as that number. */
  lemma PageCurrentRoundTrip(query: ApiQuery, n: int)
    requires query.page == Some(JsString.IntToString(n))
    ensures ViewPageCurrent(query) == Some(n)
  {
    JsString.ParseIntOfIntToString(n);
  }

  /**
   * `getViewPageSize`: 10 without a limit; otherwise the parsed limit, with
   * anything above 100 lowered to 100 and 0 raised to 1 (NaN stays NaN).
   */
  function ViewPageSize(query: ApiQuery): (r: Option<int>)
    ensures !Present(query.limit) ==> r == Some(DefaultPageSize)
    ensures Present(query.limit) ==> (r.None? <==> JsString.ParseInt(query.limit.value).None?)
    ensures r.Some? ==> r.value != 0 && r.value <= MaxPageSize
    ensures Present(query.limit) && r.Some? ==>
              var n := JsString.ParseInt(query.limit.value).value;
              r.value == (if n > MaxPageSize then MaxPageSize else if n == 0 then 1 else n)
  {
    if Present(query.limit) then
      match JsString.ParseInt(query.limit.value)
      case None => None
      case Some(n) =>
        var limit := if n > MaxPageSize then MaxPageSize else n;
        Some(if limit == 0 then 1 else limit)
    else Some(DefaultPageSize)
  }

  /** A limit within 1..100 written in decimal is used as given. */
  lemma PageSizePassesThrough(query: ApiQuery, n: int)
    requires query.limit == Some(JsString.IntToString(n)) && 1 <= n <= MaxPageSize
    ensures ViewPageSize(query) == Some(n)
  {
    JsString.ParseIntOfIntToString(n);
  }

  // ------------------------------------------------------------ filters

  /** The response fields named in the filter, in the order of the response fields. */
  function Matching(fields: seq<string>, filter: map<string, string>): seq<string>
  {
    if fields == [] then []
    else Matching(fields[..|fields| - 1], filter)
         + (if fields[|fields| - 1] in filter then [fields[|fields| - 1]] else [])
  }

  /** Exactly the response fields the filter mentions are searched, each at most as often as listed. */
  lemma {:induction false} MatchingMembers(fields: seq<string>, filter: map<string, string>)
    ensures forall f :: f in Matching(fields, filter) <==> f in fields && f in filter
    ensures |Matching(fields, filter)| <= |fields|
    ensures (forall f :: f in fields ==> f !in filter) ==> Matching(fields, filter) == []
  {
    if fields != [] {
      var init := fields[..|fields| - 1];
      MatchingMembers(init, filter);
      assert fields == init + [fields[|fields| - 1]];
      forall f
        ensures f in fields <==> f in init || f == fields[|fields| - 1]
      {
      }
    }
  }

  /**
   * `getViewFilters`: every response field present in `query.filter` is
   * searched, and the search value is the value of the last of them; without
   * response fields or without a filter nothing is searched.
   */
  method ViewFilters(responseFields: Option<seq<string>>, filter: Option<map<string, string>>)
    returns (search: ListQuery.Search)
    ensures responseFields.None? || filter.None? ==> search == ListQuery.Search([], None)
    ensures responseFields.Some? && filter.Some? ==>
              search.searchFields == Matching(responseFields.value, filter.value)
    ensures search.searchFields == [] <==> search.searchValue.None?
    ensures search.searchFields != [] ==>
              filter.Some? && search.searchFields[|search.searchFields| - 1] in filter.value
              && search.searchValue == Some(filter.value[search.searchFields[|search.searchFields| - 1]])
  {
    var fields: seq<string> := [];
    var value: Option<string> := None;
    if responseFields.Some? {
      var rf := responseFields.value;
      var i := 0;
      while i < |rf|
        invariant 0 <= i <= |rf|
        invariant filter.None? ==> fields == []
        invariant filter.Some? ==> fields == Matching(rf[..i], filter.value)
        invariant fields == [] <==> value.None?
        invariant fields != [] ==> filter.Some? && fields[|fields| - 1] in filter.value
                                   && value == Some(filter.value[fields[|fields| - 1]])
      {
        assert rf[..i + 1][..i] == rf[..i];
        if filter.Some? && rf[i] in filter.value {
          fields := fields + [rf[i]];
          value := Some(filter.value[rf[i]]);
        }
        i := i + 1;
      }
      assert rf[..i] == rf;
    }
    search := ListQuery.Search(fields, value);
  }

  // ------------------------------------------------------------ the key gate

  /**
   * `preLoad`: a missing or empty `api_key` fails before the key store is
   * asked; otherwise the store's error, or 'Invalid or non-active API key!'
   * for a key it does not accept. `authenticate` answers (error, accepted).
   */
  function PreLoadError(apiKey: Option<string>, authenticate: string -> (Option<string>, bool)): (err: Option<string>)
    ensures !Present(apiKey) ==> err == Some("No API key provided")
    ensures Present(apiKey) ==> (err.None? <==> authenticate(apiKey.value).0.None? && authenticate(apiKey.value).1)
    ensures Present(apiKey) && authenticate(apiKey.value).0.Some? ==> err == authenticate(apiKey.value).0
    ensures Present(apiKey) && authenticate(apiKey.value).0.None? && !authenticate(apiKey.value).1 ==>
              err == Some("Invalid or non-active API key!")
  {
    if !Present(apiKey) then Some("No API key provided")
    else
      var (error, accepted) := authenticate(apiKey.value);
      if error.Some? then error
      else if !accepted then Some("Invalid or non-active API key!")
      else None
  }

  // ------------------------------------------------------------ loading

  /** `id.substring(0, 24)`. */
  function ItemKey(id: string): (r: string)
    ensures r <= id && |r| <= IdLength
    ensures |id| <= IdLength ==> r == id
    ensures |id| > IdLength ==> |r| == IdLength
  {
    if |id| <= IdLength then id else id[..IdLength]
  }

  /** What `load` does: one item for a request with an id, otherwise the filtered list. */
  datatype LoadPlan =
    | OneItem(lookupId: Id)
    | ItemList(currentPage: Option<int>, pageSize: Option<int>, search: ListQuery.Search)

  /** `load`: `loadItem` if and only if the route has an `id`; the item is looked up by the id's first 24 characters. */
  method Load(id: Option<string>, query: ApiQuery, responseFields: Option<seq<string>>) returns (plan: LoadPlan)
    ensures plan.OneItem? <==> Present(id)
    ensures plan.OneItem? ==> plan.lookupId == ItemKey(id.value)
    ensures plan.ItemList? ==> plan.currentPage == ViewPageCurrent(query) && plan.pageSize == ViewPageSize(query)
    ensures plan.ItemList? && responseFields.Some? && query.filter.Some? ==>
              plan.search.searchFields == Matching(responseFields.value, query.filter.value)
  {
    if Present(id) {
      return OneItem(ItemKey(id.value));
    }
    var search := ViewFilters(responseFields, query.filter);
    return ItemList(ViewPageCurrent(query), ViewPageSize(query), search);
  }

  /** The JSON document `loadItem` answers with. */
  datatype ItemJson = InternalError | ItemDocument(item: Option<Record>)

  /** `loadItem`: an 'Internal error' document with the driver's error, or the stored document (null when unknown). */
  function LoadItemResponse(model: MongooseModel.Model, id: string): (r: (ItemJson, Option<StoreError>))
    reads model
    ensures r.1 == model.fault(MongooseModel.FindOp(ItemKey(id)))
    ensures r.1.Some? <==> r.0.InternalError?
    ensures r.1.None? ==> r.0 == ItemDocument(MongooseModel.Lookup(model.records, ItemKey(id)))
  {
    var (err, item) := model.FindById(ItemKey(id));
    if err.Some? then (InternalError, err) else (ItemDocument(item), None)
  }

  /**
   * `loadItems`: the list query over the page the query string asks for,
   * with no sorting; the list is handed over only when the database reports
   * no error, and never when the search text throws as a pattern.
   */
  method LoadItems(model: MongooseModel.Model, query: ApiQuery, responseFields: Option<seq<string>>,
                   countAnswer: MongooseModel.CountAnswer, fetchAnswer: MongooseModel.FetchAnswer,
                   validPattern: string -> bool)
    returns (search: ListQuery.Search, listQuery: ListQuery.Query, err: Option<StoreError>,
             result: Option<MongooseModel.ListResult>, thrown: bool)
    requires ViewPageCurrent(query).Some? && ViewPageSize(query).Some?
    ensures responseFields.Some? && query.filter.Some? ==>
              search.searchFields == Matching(responseFields.value, query.filter.value)
    ensures responseFields.None? || query.filter.None? ==> search == ListQuery.Search([], None)
    ensures thrown <==> ListQuery.SearchThrows(ListQuery.Filters(Some(search)), validPattern)
    ensures thrown ==> err.None? && result.None?
    ensures !thrown ==>
              listQuery == ListQuery.BuildQuery(ListQuery.Filters(Some(search)), ListQuery.Sorting(None, None),
                                                ViewPageCurrent(query).value, ViewPageSize(query).value)
    ensures !thrown ==> listQuery.sort == ListQuery.Unsorted
    ensures !thrown ==> err == if countAnswer.countError.Some? then countAnswer.countError else fetchAnswer.fetchError
    ensures !thrown ==> (result.Some? <==> err.None?)
    ensures result.Some? ==> result.value.items == fetchAnswer.items
  {
    search := ViewFilters(responseFields, query.filter);
    var pagination := new Pagination.Pagination(ViewPageCurrent(query).value, ViewPageSize(query).value);
    listQuery, err, result, thrown := model.GetListFiltered(ListQuery.Filters(Some(search)), pagination,
                                                            ListQuery.Sorting(None, None), countAnswer, fetchAnswer,
                                                            validPattern);
  }
}

=== FILE: baseapimodel.dfy ===
/**
 * Projection of a document onto the fields an API exposes (`refineForApi` in
 * lib/baseapimodel.js).
 */
module BaseApiModel {
  import opened Wrappers
  import opened Records

  /** `item[field]`: the field's value, `None` standing for `undefined`. */
  function FieldOf(item: map<string, Value>, field: string): Option<Value> {
    if field in item then Some(item[field]) else None
  }

  class BaseApiModel {
    /** `_responseFields`: empty in the base class, filled in by concrete API models. */
    var responseFields: seq<string>

    constructor ()
      ensures responseFields == []
    {
      responseFields := [];
    }

    /**
     * `refineForApi(item, callback)`: a new object with exactly the response
     * fields as keys, each holding the item's value (or `undefined`); the
     * callback's error is always null.
     */
    method RefineForApi(item: map<string, Value>) returns (err: Option<string>, responseItem: map<string, Option<Value>>)
      ensures err == None
      ensures responseItem.Keys == set f | f in responseFields
      ensures forall f :: f in responseItem ==> responseItem[f] == FieldOf(item, f)
    {
      responseItem := map[];
      var i := 0;
      while i < |responseFields|
        invariant 0 <= i <= |responseFields|
        invariant responseItem.Keys == set f | f in responseFields[..i]
        invariant forall f :: f in responseItem ==> responseItem[f] == FieldOf(item, f)
      {
        assert responseFields[..i + 1] == responseFields[..i] + [responseFields[i]];
        responseItem := responseItem[responseFields[i] := FieldOf(item, responseFields[i])];
        i := i + 1;
      }
      assert responseFields[..i] == responseFields;
      err := None;
    }
  }

  /** A fresh model exposes nothing: the refined item is `{}`. */
  method DefaultRefinesToEmpty(item: map<string, Value>) returns (responseItem: map<string, Option<Value>>)
    ensures responseItem == map[]
  {
    var model := new BaseApiModel();
    var _, r := model.RefineForApi(item);
    responseItem := r;
  }
}

=== FILE: crudcontroller.dfy ===
/**
 * The CRUD controller (`BaseCRUDController` in
 * lib/controllers/crudcontroller.js) as a state machine over the flash list,
 * the terminated flag, the redirects issued, the chosen view, the loaded item
 * and the page data. What the base classes provide (`registerAction`,
 * `actionName`, `terminate`, `emit`/`addListener`, `currentState`, `data`,
 * `flash`) is modelled as plain fields; `emit` calls the listeners of the
 * event synchronously, in the order they were added. The store is a
 * `MongooseModel.Model`; ids the database assigns are parameters.
 */
module CrudController {
  import opened Wrappers
  import opened Records
  import FM = FlashMessages
  import MongooseModel
  import ListQuery
  import Pagination
  import CrudRequest

  /** `BaseCRUDController.CRUDEvents` */
  const ItemCreate: string := "create"
  const ItemUpdate: string := "update"
  const ItemDelete: string := "delete"

  const InsertedText: string := "Item successfully inserted to the database!"
  const UpdatedText: string := "Item successfully updated in the database!"
  const RemovedText: string := "Item successfully removed from the database!"
  const NotExistsText: string := "Failed to delete Item. Item is not exists in the database!"
  const EditMissingText: string := "Failed to edit Item. Item is not exists in the database!"
  const BulkRemovedText: string := "Items successfully removed from the database!"
  const BulkUpdatedText: string := "Items successfully updated in the database!"
  const SaveAndCreateAnother: string := "save&CreateAnother"

  /** The `registerAction` calls of `init`, in order: an action and the method that serves it. */
  const Registrations: seq<(string, string)> :=
    [("list", "load"), ("new", "create"), ("create", "create"), ("doCreate", "doCreate"),
     ("view", "doView"), ("edit", "edit"), ("doEdit", "doEdit"), ("delete", "doDelete"),
     ("doDelete", "doDelete"), ("import", "xlsImport"), ("export", "xlsExport"),
     ("bulkEdit", "bulkEdit"), ("bulkEditPreview", "bulkEditPreview"),
     ("doBulkEdit", "doBulkEdit"), ("bulkDelete", "bulkDelete")]

  /** `registerAction` for each entry in turn on a table: a later registration of an action wins. */
  function Register(table: map<string, string>, entries: seq<(string, string)>): map<string, string>
  {
    if entries == [] then table
    else Register(table, entries[..|entries| - 1])[entries[|entries| - 1].0 := entries[|entries| - 1].1]
  }

  /**
   * After the registrations the table has exactly the actions it had and
   * the registered ones; the last registration of an action decides its
   * method, and actions not registered keep theirs.
   */
  lemma {:induction false} RegisterTable(table: map<string, string>, entries: seq<(string, string)>)
    ensures forall a :: a in Register(table, entries) <==> a in table || exists i :: 0 <= i < |entries| && entries[i].0 == a
    ensures |entries| > 0 ==> Register(table, entries)[entries[|entries| - 1].0] == entries[|entries| - 1].1
    ensures forall a :: a in table && (forall i :: 0 <= i < |entries| ==> entries[i].0 != a) ==>
              Register(table, entries)[a] == table[a]
  {
    if entries != [] {
      var init := entries[..|entries| - 1];
      RegisterTable(table, init);
      assert forall i :: 0 <= i < |init| ==> init[i] == entries[i];
    }
  }

  /** The `registerAction` calls of `init`, one after another. */
  method RegisterActions(table: map<string, string>, entries: seq<(string, string)>) returns (r: map<string, string>)
    ensures r == Register(table, entries)
  {
    r := table;
    var i := 0;
    while i < |entries|
      invariant 0 <= i <= |entries|
      invariant r == Register(table, entries[..i])
    {
      assert entries[..i + 1][..i] == entries[..i];
      r := r[entries[i].0 := entries[i].1];
      i := i + 1;
    }
    assert entries[..i] == entries;
  }

  /** The handlers `init` adds as listeners. */
  datatype Handler = OnItemHasBeenInserted | OnItemHasBeenSaved

  /** `addListener(event, handler)`: the handler is added after those the event already has. */
  function WithListener(listeners: map<string, seq<Handler>>, event: string, h: Handler): (r: map<string, seq<Handler>>)
    ensures r.Keys == listeners.Keys + {event}
    ensures r[event] == (if event in listeners then listeners[event] else []) + [h]
    ensures forall e :: e in listeners && e != event ==> r[e] == listeners[e]
  {
    listeners[event := (if event in listeners then listeners[event] else []) + [h]]
  }

  /** The listeners after `init`. */
  function InitListeners(listeners: map<string, seq<Handler>>): map<string, seq<Handler>>
  {
    WithListener(WithListener(listeners, ItemCreate, OnItemHasBeenInserted), ItemUpdate, OnItemHasBeenSaved)
  }

  /** The handlers an event calls. */
  function HandlersOf(listeners: map<string, seq<Handler>>, event: string): seq<Handler>
  {
    if event in listeners then listeners[event] else []
  }

  /** On a controller without listeners, `init` gives create and update one handler each and delete none. */
  lemma InitListenersFresh()
    ensures HandlersOf(InitListeners(map[]), ItemCreate) == [OnItemHasBeenInserted]
    ensures HandlersOf(InitListeners(map[]), ItemUpdate) == [OnItemHasBeenSaved]
    ensures HandlersOf(InitListeners(map[]), ItemDelete) == []
  {
  }

  /** The flash each handler adds. */
  function HandlerFlash(h: Handler): (m: FM.FlashMessage)
    ensures m.msgType == FM.Success
  {
    match h
    case OnItemHasBeenInserted => FM.FlashMessage(InsertedText, FM.Success)
    case OnItemHasBeenSaved => FM.FlashMessage(UpdatedText, FM.Success)
  }

  /** Where `onItemHasBeenSaved` redirects: the create page for 'save&CreateAnother', the list otherwise. */
  function SavedTarget(baseUrl: string, body: map<string, Value>): (url: string)
    ensures "saveAction" in body && body["saveAction"] == VStr(SaveAndCreateAnother) ==> url == baseUrl + "/create"
    ensures !("saveAction" in body && body["saveAction"] == VStr(SaveAndCreateAnother)) ==> url == CrudRequest.ListUrl(baseUrl)
  {
    if "saveAction" in body && body["saveAction"] == VStr(SaveAndCreateAnother)
    then CrudRequest.ActionUrl(baseUrl, "create", None).value
    else CrudRequest.ListUrl(baseUrl)
  }

  /** The redirect each handler issues. */
  function HandlerRedirect(h: Handler, baseUrl: string, body: map<string, Value>): string
  {
    match h
    case OnItemHasBeenInserted => CrudRequest.ListUrl(baseUrl)
    case OnItemHasBeenSaved => SavedTarget(baseUrl, body)
  }

  function HandlerFlashes(hs: seq<Handler>): (r: seq<FM.FlashMessage>)
    ensures |r| == |hs| && forall i :: 0 <= i < |hs| ==> r[i] == HandlerFlash(hs[i])
  {
    if hs == [] then [] else HandlerFlashes(hs[..|hs| - 1]) + [HandlerFlash(hs[|hs| - 1])]
  }

  function HandlerRedirects(hs: seq<Handler>, baseUrl: string, body: map<string, Value>): (r: seq<string>)
    ensures |r| == |hs| && forall i :: 0 <= i < |hs| ==> r[i] == HandlerRedirect(hs[i], baseUrl, body)
  {
    if hs == [] then [] else HandlerRedirects(hs[..|hs| - 1], baseUrl, body) + [HandlerRedirect(hs[|hs| - 1], baseUrl, body)]
  }

  /** What `this.data` holds: URLs, flags and items. */
  datatype Datum = Text(s: string) | Flag(b: bool) | Fields(fields: map<string, Value>)

  /** `error.messages`, or else the second argument of the validation callback. */
  function ValidationMessages(v: MongooseModel.Verdict): seq<string>
    requires v.Failed?
  {
    if v.error.Some? then v.error.value else v.messages.GetOr([])
  }

  // ------------------------------------------------------------ bulk editing

  /** A field the model offers for bulk editing. */
  datatype BulkField = BulkField(fieldType: string, name: string, path: string)

  /** One row of the bulk-edit preview. */
  datatype Preview = Preview(fieldType: string, name: string, path: string, value: Option<Value>)

  /** The body field a preview row reads, if present. */
  function BodyValue(body: map<string, Value>, key: string): (r: Option<Value>)
    ensures r.Some? <==> key in body
  {
    if key in body then Some(body[key]) else None
  }

  /** A field is chosen for the preview when its `<path>_checkbox` body field is exactly 'on'. */
  predicate Checked(f: BulkField, body: map<string, Value>) {
    f.path + "_checkbox" in body && body[f.path + "_checkbox"] == VStr("on")
  }

  /** `prepareBulkEditData`: the checked fields, in order, each with the body's value at its path. */
  function PrepareBulkEditData(fields: seq<BulkField>, body: map<string, Value>): seq<Preview>
  {
    if fields == [] then []
    else
      var f := fields[|fields| - 1];
      PrepareBulkEditData(fields[..|fields| - 1], body)
      + (if Checked(f, body) then [Preview(f.fieldType, f.name, f.path, BodyValue(body, f.path))] else [])
  }

  /** Exactly the checked fields appear in the preview, and no more rows than fields. */
  lemma {:induction false} PreviewMembers(fields: seq<BulkField>, body: map<string, Value>)
    ensures |PrepareBulkEditData(fields, body)| <= |fields|
    ensures forall p :: p in PrepareBulkEditData(fields, body) <==>
              exists f :: f in fields && Checked(f, body) && p == Preview(f.fieldType, f.name, f.path, BodyValue(body, f.path))
  {
    if fields != [] {
      var init := fields[..|fields| - 1];
      PreviewMembers(init, body);
      assert fields == init + [fields[|fields| - 1]];
    }
  }

  /** `doBulkEdit` turns the strings 'true' and 'false' into booleans. */
  function Coerce(v: Value): (r: Value)
    ensures v == VStr("true") ==> r == VBool(true)
    ensures v == VStr("false") ==> r == VBool(false)
    ensures v != VStr("true") && v != VStr("false") ==> r == v
    ensures r != VStr("true") && r != VStr("false")
  {
    if v == VStr("true") then VBool(true) else if v == VStr("false") then VBool(false) else v
  }

  /** One patch of `doBulkEdit`: a path and the value to put there. */
  datatype Patch = Patch(path: string, value: Value)

  /** The patches of `doBulkEdit`: one per field whose name the body has, with the coerced value. */
  function BulkPatches(fields: seq<BulkField>, body: map<string, Value>): (r: seq<Patch>)
    ensures |r| <= |fields|
  {
    if fields == [] then []
    else
      var f := fields[|fields| - 1];
      BulkPatches(fields[..|fields| - 1], body) + (if f.name in body then [Patch(f.path, Coerce(body[f.name]))] else [])
  }

  /** The positions, in order, of the fields whose name the body has: the fields that yield a patch. */
  function NamedIndexes(fields: seq<BulkField>, body: map<string, Value>): seq<int>
  {
    if fields == [] then []
    else NamedIndexes(fields[..|fields| - 1], body) + (if fields[|fields| - 1].name in body then [|fields| - 1] else [])
  }

  /**
   * The patches are exactly one per field the body names, in the fields'
   * order, each with the field's path and the body's value coerced.
   */
  lemma {:induction false} BulkPatchesSpec(fields: seq<BulkField>, body: map<string, Value>)
    ensures |BulkPatches(fields, body)| == |NamedIndexes(fields, body)|
    ensures forall k :: 0 <= k < |NamedIndexes(fields, body)| ==>
              var j := NamedIndexes(fields, body)[k];
              0 <= j < |fields| && fields[j].name in body
              && BulkPatches(fields, body)[k] == Patch(fields[j].path, Coerce(body[fields[j].name]))
    ensures forall k, l :: 0 <= k < l < |NamedIndexes(fields, body)| ==>
              NamedIndexes(fields, body)[k] < NamedIndexes(fields, body)[l]
    ensures forall j :: 0 <= j < |fields| && fields[j].name in body ==> j in NamedIndexes(fields, body)
  {
    if fields != [] {
      var init := fields[..|fields| - 1];
      BulkPatchesSpec(init, body);
      assert forall j :: 0 <= j < |init| ==> init[j] == fields[j];
    }
  }

  /** The request body after `doBulkEdit` has coerced the values of the listed fields, one field after another. */
  function CoercedBody(fields: seq<BulkField>, body: map<string, Value>): map<string, Value>
  {
    if fields == [] then body
    else
      var before := CoercedBody(fields[..|fields| - 1], body);
      var name := fields[|fields| - 1].name;
      if name in before then before[name := Coerce(before[name])] else before
  }

  /** Coercing keeps the body's fields; a field some bulk field names is coerced, any other is left as it was. */
  lemma {:induction false} CoercedBodyValues(fields: seq<BulkField>, body: map<string, Value>)
    ensures CoercedBody(fields, body).Keys == body.Keys
    ensures forall k :: k in body ==>
              CoercedBody(fields, body)[k] == if exists j :: 0 <= j < |fields| && fields[j].name == k then Coerce(body[k]) else body[k]
  {
    if fields != [] {
      var init := fields[..|fields| - 1];
      CoercedBodyValues(init, body);
      assert forall j :: 0 <= j < |init| ==> init[j] == fields[j];
    }
  }

  /** `doBulkEdit`'s first loop: coerces the body and collects one patch per field the body names. */
  method CollectPatches(fields: seq<BulkField>, body: map<string, Value>)
    returns (coerced: map<string, Value>, patches: seq<Patch>)
    ensures coerced == CoercedBody(fields, body)
    ensures patches == BulkPatches(fields, body)
  {
    coerced := body;
    patches := [];
    var i := 0;
    while i < |fields|
      invariant 0 <= i <= |fields|
      invariant coerced == CoercedBody(fields[..i], body)
      invariant patches == BulkPatches(fields[..i], body)
    {
      assert fields[..i + 1][..i] == fields[..i];
      var f := fields[i];
      CoercedBodyValues(fields[..i], body);
      if f.name in coerced {
        assert coerced[f.name] == body[f.name] || coerced[f.name] == Coerce(body[f.name]);
        var v := Coerce(coerced[f.name]);
        coerced := coerced[f.name := v];
        patches := patches + [Patch(f.path, v)];
      }
      i := i + 1;
    }
    assert fields[..i] == fields;
  }

  /** A document with the patches applied in order (a later patch of the same path wins). */
  function Patched(item: Record, patches: seq<Patch>): (r: Record)
    ensures r.id == item.id
    ensures forall p :: p in patches ==> p.path in r.fields
    ensures forall k :: k in item.fields ==> k in r.fields
  {
    if patches == [] then item
    else
      var p := patches[|patches| - 1];
      MongooseModel.SetField(Patched(item, patches[..|patches| - 1]), p.path, p.value)
  }

  /**
   * Applying the patches sets each patched path to the value of its last
   * patch, adds no other field, and leaves every field no patch names as it was.
   */
  lemma {:induction false} PatchedValues(item: Record, patches: seq<Patch>)
    ensures Patched(item, patches).id == item.id
    ensures forall k :: k in Patched(item, patches).fields <==>
              k in item.fields || exists p :: p in patches && p.path == k
    ensures forall k :: k in item.fields && (forall p :: p in patches ==> p.path != k) ==>
              Patched(item, patches).fields[k] == item.fields[k]
    ensures forall i :: 0 <= i < |patches| && (forall j :: i < j < |patches| ==> patches[j].path != patches[i].path) ==>
              Patched(item, patches).fields[patches[i].path] == patches[i].value
  {
    if patches != [] {
      var init := patches[..|patches| - 1];
      var last := patches[|patches| - 1];
      PatchedValues(item, init);
      assert patches == init + [last];
      forall i | 0 <= i < |patches| && (forall j :: i < j < |patches| ==> patches[j].path != patches[i].path)
        ensures Patched(item, patches).fields[patches[i].path] == patches[i].value
      {
        if i < |init| {
          assert init[i] == patches[i];
          assert forall j :: i < j < |init| ==> init[j] == patches[j];
        }
      }
    }
  }

  /** The store after saving each listed document, patched, in order; a failed save changes nothing. */
  function SaveAll(records: map<Id, Record>, items: seq<Record>, patches: seq<Patch>,
                   fault: MongooseModel.StoreOp -> Option<StoreError>): map<Id, Record>
  {
    if items == [] then records
    else
      var before := SaveAll(records, items[..|items| - 1], patches, fault);
      var item := items[|items| - 1];
      if fault(MongooseModel.SaveOp(item.id)).None? then before[item.id := Patched(item, patches)] else before
  }

  /**
   * Saving never loses a document and changes only listed ones; with no
   * failure every listed document is stored, and the last document saved
   * under an id is the one stored there, patched.
   */
  lemma {:induction false} SaveAllStores(records: map<Id, Record>, items: seq<Record>, patches: seq<Patch>,
                                         fault: MongooseModel.StoreOp -> Option<StoreError>)
    ensures records.Keys <= SaveAll(records, items, patches, fault).Keys
    ensures (forall i :: 0 <= i < |items| ==> fault(MongooseModel.SaveOp(items[i].id)).None?) ==>
              forall i :: 0 <= i < |items| ==> items[i].id in SaveAll(records, items, patches, fault)
    ensures forall k :: k in SaveAll(records, items, patches, fault) && k in records ==>
              SaveAll(records, items, patches, fault)[k] == records[k]
              || exists i :: 0 <= i < |items| && items[i].id == k
    ensures forall i :: 0 <= i < |items| && fault(MongooseModel.SaveOp(items[i].id)).None?
                        && (forall j :: i < j < |items| ==> items[j].id != items[i].id) ==>
              items[i].id in SaveAll(records, items, patches, fault)
              && SaveAll(records, items, patches, fault)[items[i].id] == Patched(items[i], patches)
  {
    if items != [] {
      var init := items[..|items| - 1];
      SaveAllStores(records, init, patches, fault);
      forall i | 0 <= i < |items| && fault(MongooseModel.SaveOp(items[i].id)).None?
                 && (forall j :: i < j < |items| ==> items[j].id != items[i].id)
        ensures items[i].id in SaveAll(records, items, patches, fault)
                && SaveAll(records, items, patches, fault)[items[i].id] == Patched(items[i], patches)
      {
        if i < |init| {
          assert init[i] == items[i];
          assert forall j :: i < j < |init| ==> init[j] == items[j];
        }
      }
      if forall i :: 0 <= i < |items| ==> fault(MongooseModel.SaveOp(items[i].id)).None? {
        forall i | 0 <= i < |items|
          ensures items[i].id in SaveAll(records, items, patches, fault)
        {
          if i < |init| {
            assert init[i] == items[i];
          }
        }
      }
      forall k | k in SaveAll(records, items, patches, fault) && k in records
        ensures SaveAll(records, items, patches, fault)[k] == records[k]
                || exists i :: 0 <= i < |items| && items[i].id == k
      {
        if k != items[|items| - 1].id && SaveAll(records, init, patches, fault)[k] != records[k] {
          var i :| 0 <= i < |init| && init[i].id == k;
          assert items[i].id == k;
        }
      }
    }
  }

  /**
   * `doBulkEdit`'s save loop as its authors intended it: each document
   * patched and saved in turn; a failed save is only logged.
   */
  method SaveEach(model: MongooseModel.Model, items: seq<Record>, patches: seq<Patch>)
    requires model.Valid()
    modifies model
    ensures model.Valid()
    ensures model.records == SaveAll(old(model.records), items, patches, model.fault)
  {
    var i := 0;
    while i < |items|
      invariant 0 <= i <= |items|
      invariant model.Valid()
      invariant model.records == SaveAll(old(model.records), items[..i], patches, model.fault)
    {
      assert items[..i + 1][..i] == items[..i];
      var saveError := model.Save(Patched(items[i], patches));
      i := i + 1;
    }
    assert items[..i] == items;
  }

  /** How many documents, from the first, save without failing before the first save that fails. */
  function SavedPrefix(items: seq<Record>, fault: MongooseModel.StoreOp -> Option<StoreError>): (n: nat)
    ensures n <= |items|
    ensures forall i :: 0 <= i < n ==> fault(MongooseModel.SaveOp(items[i].id)).None?
    ensures n < |items| ==> fault(MongooseModel.SaveOp(items[n].id)).Some?
  {
    if items == [] || fault(MongooseModel.SaveOp(items[0].id)).Some? then 0
    else 1 + SavedPrefix(items[1..], fault)
  }

  /**
   * `doBulkEdit`'s save loop as written: the save callback is not bound to
   * the controller, so on a failed save its `this._logger` throws, and no
   * later document is saved. `thrown` tells whether that happened.
   */
  method SaveEachAsWritten(model: MongooseModel.Model, items: seq<Record>, patches: seq<Patch>) returns (thrown: bool)
    requires model.Valid()
    modifies model
    ensures model.Valid()
    ensures thrown <==> SavedPrefix(items, model.fault) < |items|
    ensures model.records == SaveAll(old(model.records), items[..SavedPrefix(items, model.fault)], patches, model.fault)
  {
    var i := 0;
    while i < |items|
      invariant 0 <= i <= |items|
      invariant model.Valid()
      invariant forall j :: 0 <= j < i ==> model.fault(MongooseModel.SaveOp(items[j].id)).None?
      invariant model.records == SaveAll(old(model.records), items[..i], patches, model.fault)
    {
      assert items[..i + 1][..i] == items[..i];
      var saveError := model.Save(Patched(items[i], patches));
      if saveError.Some? {
        assert SavedPrefix(items, model.fault) == i;
        return true;
      }
      i := i + 1;
    }
    assert items[..i] == items;
    return false;
  }

  /** Without a failed save, the loop as written stores what the intended one does. */
  lemma SaveAsWrittenWithoutFailure(records: map<Id, Record>, items: seq<Record>, patches: seq<Patch>,
                                    fault: MongooseModel.StoreOp -> Option<StoreError>)
    requires forall i :: 0 <= i < |items| ==> fault(MongooseModel.SaveOp(items[i].id)).None?
    ensures SavedPrefix(items, fault) == |items|
    ensures SaveAll(records, items[..SavedPrefix(items, fault)], patches, fault) == SaveAll(records, items, patches, fault)
  {
    assert items[..|items|] == items;
  }

  /**
   * The two loops part ways: when the first document fails to save and a new
   * second one would save, the intended loop stores the second document and
   * the loop as written stores nothing.
   */
  lemma SaveAsWrittenStopsEarly(records: map<Id, Record>, a: Record, b: Record, patches: seq<Patch>,
                                fault: MongooseModel.StoreOp -> Option<StoreError>)
    requires fault(MongooseModel.SaveOp(a.id)).Some? && fault(MongooseModel.SaveOp(b.id)).None?
    requires b.id !in records
    ensures SavedPrefix([a, b], fault) == 0
    ensures SaveAll(records, [a, b][..SavedPrefix([a, b], fault)], patches, fault) == records
    ensures b.id in SaveAll(records, [a, b], patches, fault)
    ensures SaveAll(records, [a, b], patches, fault) != SaveAll(records, [a, b][..SavedPrefix([a, b], fault)], patches, fault)
  {
    assert [a, b][..1] == [a];
    assert [a][..0] == [];
  }

  // ------------------------------------------------------------ bulk deleting

  /** `selectedItems`: an array as it is, any other truthy value as a one-element list, nothing otherwise. */
  function SelectedItems(body: map<string, Value>): (r: seq<Value>)
    ensures "selectedItems" !in body || !Truthy(body["selectedItems"]) ==> r == []
    ensures "selectedItems" in body && body["selectedItems"].VList? ==> r == body["selectedItems"].items
    ensures "selectedItems" in body && Truthy(body["selectedItems"]) && !body["selectedItems"].VList? ==>
              r == [body["selectedItems"]]
  {
    if "selectedItems" in body && Truthy(body["selectedItems"]) then
      var v := body["selectedItems"];
      if v.VList? then v.items else [v]
    else []
  }

  /** The id a selected value names: only strings name documents; the driver rejects anything else. */
  function IdOf(v: Value): Option<Id> {
    if v.VStr? then Some(v.s) else None
  }

  /** The store after `removeById` for each selected value, in order; failures change nothing. */
  function RemoveAll(records: map<Id, Record>, selected: seq<Value>,
                     fault: MongooseModel.StoreOp -> Option<StoreError>): map<Id, Record>
  {
    if selected == [] then records
    else
      var before := RemoveAll(records, selected[..|selected| - 1], fault);
      match IdOf(selected[|selected| - 1])
      case None => before
      case Some(id) =>
        if fault(MongooseModel.FindOp(id)).None? && id in before && fault(MongooseModel.RemoveOp(id)).None?
        then before - {id} else before
  }

  /**
   * Bulk deletion only removes: what is left was there before, unchanged;
   * and without driver failures every selected id is gone.
   */
  lemma {:induction false} RemoveAllRemoves(records: map<Id, Record>, selected: seq<Value>,
                                            fault: MongooseModel.StoreOp -> Option<StoreError>)
    ensures forall k :: k in RemoveAll(records, selected, fault) ==> k in records && RemoveAll(records, selected, fault)[k] == records[k]
    ensures (forall op :: fault(op).None?) ==>
              forall v :: v in selected && v.VStr? ==> v.s !in RemoveAll(records, selected, fault)
  {
    if selected != [] {
      var init := selected[..|selected| - 1];
      RemoveAllRemoves(records, init, fault);
      if forall op :: fault(op).None? {
        forall v | v in selected && v.VStr?
          ensures v.s !in RemoveAll(records, selected, fault)
        {
          if v != selected[|selected| - 1] {
            assert v in init;
          }
        }
      }
    }
  }

  /** The removal loop of `bulkDelete`: the per-item callback swallows every error. */
  method RemoveEach(model: MongooseModel.Model, selected: seq<Value>, actor: Value)
    requires model.Valid()
    modifies model
    ensures model.Valid()
    ensures model.records == RemoveAll(old(model.records), selected, model.fault)
  {
    var i := 0;
    while i < |selected|
      invariant 0 <= i <= |selected|
      invariant model.Valid()
      invariant model.records == RemoveAll(old(model.records), selected[..i], model.fault)
    {
      assert selected[..i + 1][..i] == selected[..i];
      var id := IdOf(selected[i]);
      if id.Some? {
        var removeError, removed := model.RemoveById(id.value, actor);
      }
      i := i + 1;
    }
    assert selected[..i] == selected;
  }

  /** What `removeById(itemId)` reports to `doDelete`: the error, and whether a document was found. */
  datatype DeleteAnswer = DeleteAnswer(error: Option<StoreError>, found: bool)

  /** The flash `doDelete` adds once the listeners have run. */
  function DeleteFlash(answer: DeleteAnswer): (m: FM.FlashMessage)
    ensures m.msgType == FM.Success <==> answer.error.None? && answer.found
  {
    if answer.error.Some? then FM.FlashMessage("Failed to delete item! " + answer.error.value.message, FM.Error)
    else if answer.found then FM.FlashMessage(RemovedText, FM.Success)
    else FM.FlashMessage(NotExistsText, FM.Error)
  }

  /** The error `getListFiltered` reports: the count's, else the fetch's. */
  function ListError(countAnswer: MongooseModel.CountAnswer, fetchAnswer: MongooseModel.FetchAnswer): Option<StoreError>
  {
    if countAnswer.countError.Some? then countAnswer.countError else fetchAnswer.fetchError
  }

  // ------------------------------------------------------------ the controller

  class Controller {
    // the request
    const httpMethod: string
    const url: string
    const params: map<string, string>
    const filterQuery: Option<CrudRequest.FilterQuery>
    const userId: Value
    var body: map<string, Value>
    /** The action name the base controller derives from the route. */
    const inheritedAction: Option<string>

    // the controller's configuration
    const baseUrl: string
    const model: MongooseModel.Model
    const bulkEditFields: seq<BulkField>
    const searchableFields: seq<string>

    // state kept by the base classes
    var allowedActions: map<string, string>
    var listeners: map<string, seq<Handler>>
    var emitted: seq<string>
    var stateFilter: Option<CrudRequest.CachedFilter>

    // what the action produces
    var item: Option<Record>
    var data: map<string, Datum>
    var flashes: seq<FM.FlashMessage>
    var requestFlashes: seq<(string, string)>
    var terminated: bool
    var redirects: seq<string>
    var view: Option<string>

    constructor (httpMethod: string, url: string, params: map<string, string>,
                 filterQuery: Option<CrudRequest.FilterQuery>, body: map<string, Value>, userId: Value,
                 inheritedAction: Option<string>, baseUrl: string, model: MongooseModel.Model,
                 bulkEditFields: seq<BulkField>, searchableFields: seq<string>,
                 stateFilter: Option<CrudRequest.CachedFilter>)
      ensures this.httpMethod == httpMethod && this.url == url && this.params == params
      ensures this.filterQuery == filterQuery && this.body == body && this.userId == userId
      ensures this.inheritedAction == inheritedAction && this.baseUrl == baseUrl && this.model == model
      ensures this.bulkEditFields == bulkEditFields && this.searchableFields == searchableFields
      ensures this.stateFilter == stateFilter
      ensures allowedActions == map[] && listeners == map[] && emitted == []
      ensures item == None && data == map[] && flashes == [] && requestFlashes == []
      ensures !terminated && redirects == [] && view == None
    {
      this.httpMethod := httpMethod;
      this.url := url;
      this.params := params;
      this.filterQuery := filterQuery;
      this.body := body;
      this.userId := userId;
      this.inheritedAction := inheritedAction;
      this.baseUrl := baseUrl;
      this.model := model;
      this.bulkEditFields := bulkEditFields;
      this.searchableFields := searchableFields;
      this.stateFilter := stateFilter;
      allowedActions := map[];
      listeners := map[];
      emitted := [];
      item := None;
      data := map[];
      flashes := [];
      requestFlashes := [];
      terminated := false;
      redirects := [];
      view := None;
    }

    /** The state no action of this controller touches except through its own methods. */
    twostate predicate SetupKept()
      reads this
    {
      allowedActions == old(allowedActions) && listeners == old(listeners) && stateFilter == old(stateFilter)
    }

    /** The page the action prepares. */
    twostate predicate PageKept()
      reads this
    {
      item == old(item) && data == old(data) && view == old(view) && requestFlashes == old(requestFlashes)
    }

    /** The outcome signals: flashes, termination, redirects and emitted events. */
    twostate predicate SignalsKept()
      reads this
    {
      flashes == old(flashes) && terminated == old(terminated) && redirects == old(redirects) && emitted == old(emitted)
    }

    function ListUrl(): string {
      CrudRequest.ListUrl(baseUrl)
    }

    /** `init`: registers the fifteen actions and the create and update listeners. */
    method Init()
      modifies this
      ensures allowedActions == Register(old(allowedActions), Registrations)
      ensures listeners == InitListeners(old(listeners))
      ensures body == old(body) && stateFilter == old(stateFilter) && PageKept() && SignalsKept()
    {
      allowedActions := RegisterActions(allowedActions, Registrations);
      listeners := WithListener(listeners, ItemCreate, OnItemHasBeenInserted);
      listeners := WithListener(listeners, ItemUpdate, OnItemHasBeenSaved);
    }

    /** The `actionName` getter: 'view' when the inherited name is not a registered action and the route has an `:action` parameter. */
    function ActionName(): (r: Option<string>)
      reads this
      ensures (inheritedAction.None? || inheritedAction.value !in allowedActions) && "action" in params ==> r == Some("view")
      ensures inheritedAction.Some? && inheritedAction.value in allowedActions ==> r == inheritedAction
      ensures "action" !in params ==> r == inheritedAction
    {
      if (inheritedAction.None? || inheritedAction.value !in allowedActions) && "action" in params
      then Some("view") else inheritedAction
    }

    /** The `itemId` getter: a non-empty `id` parameter, else the `action` parameter. */
    function ItemId(): (r: Option<string>)
      ensures "id" in params && params["id"] != "" ==> r == Some(params["id"])
      ensures !("id" in params && params["id"] != "") ==> r == if "action" in params then Some(params["action"]) else None
    {
      if "id" in params && params["id"] != "" then Some(params["id"])
      else if "action" in params then Some(params["action"]) else None
    }

    /** `getCachedRequestFilter`: the remembered filter, or `{}`. */
    function CachedFilter(): CrudRequest.CachedFilter
      reads this
    {
      stateFilter.GetOr(CrudRequest.EmptyFilter)
    }

    /** Whether this request is a list request `cacheRequestFilter` remembers. */
    predicate ListRequest() {
      CrudRequest.IsListRequest(httpMethod, if "action" in params then Some(params["action"]) else None, url, baseUrl)
    }

    /** The `page` route parameter. */
    function PageParam(): Option<string> {
      if "page" in params then Some(params["page"]) else None
    }

    /**
     * `cacheRequestFilter`: a list request updates the remembered filter. A
     * controller state without a filter object is left as it is: the code
     * then writes into a fresh `{}` that nothing keeps.
     */
    method CacheRequestFilter()
      modifies this
      ensures stateFilter == if ListRequest() && old(stateFilter).Some?
                             then Some(CrudRequest.Remembered(old(stateFilter).value, PageParam(), filterQuery, baseUrl))
                             else old(stateFilter)
      ensures body == old(body) && allowedActions == old(allowedActions) && listeners == old(listeners)
      ensures PageKept() && SignalsKept()
    {
      if ListRequest() && stateFilter.Some? {
        stateFilter := Some(CrudRequest.Remembered(stateFilter.value, PageParam(), filterQuery, baseUrl));
      }
    }

    /** `getViewFilters`: the searchable fields and the remembered search. */
    function ViewFilters(): (f: ListQuery.Filters)
      reads this
      ensures f.search.Some? && f.search.value.searchFields == searchableFields
      ensures stateFilter.Some? && Present(stateFilter.value.search) ==> f.search.value.searchValue == stateFilter.value.search
      ensures !(stateFilter.Some? && Present(stateFilter.value.search)) ==> f.search.value.searchValue.None?
    {
      var searchValue := if stateFilter.Some? && Present(stateFilter.value.search) then stateFilter.value.search else None;
      ListQuery.Filters(Some(ListQuery.Search(searchableFields, searchValue)))
    }

    /** The actions `preLoad` loads an item for. */
    predicate LoadsItem()
      reads this
    {
      ActionName() == Some("edit") || ActionName() == Some("doEdit") || ActionName() == Some("view")
    }

    /** The answer of `findById(itemId)`; a request without an id finds nothing. */
    function Lookup(): (r: (Option<StoreError>, Option<Record>))
      reads this, model
      ensures r.0.Some? ==> r.1.None?
    {
      if ItemId().Some? then model.FindById(ItemId().value) else (None, None)
    }

    /**
     * The `findById` callback of `preLoad`: a driver error flashes ERROR,
     * terminates, redirects to the list and is passed on; a missing item
     * terminates and redirects to the list with an 'error' request flash; a
     * found item becomes the loaded item.
     */
    method OnItemLookedUp(error: Option<StoreError>, found: Option<Record>) returns (err: Option<StoreError>)
      requires error.Some? ==> found.None?
      modifies this
      ensures err == error
      ensures item == if found.Some? then found else old(item)
      ensures flashes == old(flashes) + if error.Some? then [FM.FlashMessage("Failed to edit item! " + error.value.message, FM.Error)] else []
      ensures terminated == (old(terminated) || found.None?)
      ensures redirects == old(redirects) + if found.None? then [ListUrl()] else []
      ensures requestFlashes == old(requestFlashes) + if error.None? && found.None? then [("error", EditMissingText)] else []
      ensures body == old(body) && SetupKept() && data == old(data) && view == old(view) && emitted == old(emitted)
    {
      if error.Some? {
        flashes := flashes + [FM.FlashMessage("Failed to edit item! " + error.value.message, FM.Error)];
        terminated := true;
        redirects := redirects + [ListUrl()];
        return error;
      }
      if found.Some? {
        item := found;
      } else {
        terminated := true;
        redirects := redirects + [ListUrl()];
        requestFlashes := requestFlashes + [("error", EditMissingText)];
      }
      return None;
    }

    /**
     * `preLoad`: remembers the filter; for edit, doEdit and view it looks the
     * item up and goes on as `OnItemLookedUp` says; other actions load
     * nothing.
     */
    method PreLoad() returns (err: Option<StoreError>)
      modifies this
      ensures stateFilter == if ListRequest() && old(stateFilter).Some?
                             then Some(CrudRequest.Remembered(old(stateFilter).value, PageParam(), filterQuery, baseUrl))
                             else old(stateFilter)
      ensures body == old(body) && allowedActions == old(allowedActions) && listeners == old(listeners)
      ensures data == old(data) && view == old(view) && emitted == old(emitted)
      ensures !LoadsItem() ==>
                err.None? && item == old(item) && requestFlashes == old(requestFlashes)
                && flashes == old(flashes) && terminated == old(terminated) && redirects == old(redirects)
      ensures LoadsItem() ==>
                err == Lookup().0
                && item == (if Lookup().1.Some? then Lookup().1 else old(item))
                && flashes == old(flashes) + (if Lookup().0.Some?
                                              then [FM.FlashMessage("Failed to edit item! " + Lookup().0.value.message, FM.Error)]
                                              else [])
                && terminated == (old(terminated) || Lookup().1.None?)
                && redirects == old(redirects) + (if Lookup().1.None? then [ListUrl()] else [])
                && requestFlashes == old(requestFlashes) + (if Lookup().0.None? && Lookup().1.None?
                                                            then [("error", EditMissingText)] else [])
    {
      CacheRequestFilter();
      if LoadsItem() {
        var (error, found) := Lookup();
        err := OnItemLookedUp(error, found);
      } else {
        err := None;
      }
    }

    /** `onItemHasBeenInserted`: SUCCESS, terminate, redirect to the list. */
    method OnItemInserted()
      modifies this
      ensures flashes == old(flashes) + [HandlerFlash(OnItemHasBeenInserted)]
      ensures terminated
      ensures redirects == old(redirects) + [HandlerRedirect(OnItemHasBeenInserted, baseUrl, body)]
      ensures emitted == old(emitted) && body == old(body) && SetupKept() && PageKept()
    {
      flashes := flashes + [FM.FlashMessage(InsertedText, FM.Success)];
      terminated := true;
      redirects := redirects + [ListUrl()];
    }

    /** `onItemHasBeenSaved`: SUCCESS, terminate, redirect to the create page for 'save&CreateAnother' and to the list otherwise. */
    method OnItemSaved()
      modifies this
      ensures flashes == old(flashes) + [HandlerFlash(OnItemHasBeenSaved)]
      ensures terminated
      ensures redirects == old(redirects) + [HandlerRedirect(OnItemHasBeenSaved, baseUrl, body)]
      ensures emitted == old(emitted) && body == old(body) && SetupKept() && PageKept()
    {
      flashes := flashes + [FM.FlashMessage(UpdatedText, FM.Success)];
      terminated := true;
      if "saveAction" in body && body["saveAction"] == VStr(SaveAndCreateAnother) {
        redirects := redirects + [CrudRequest.ActionUrl(baseUrl, "create", None).value];
      } else {
        redirects := redirects + [ListUrl()];
      }
    }

    /** Calls one registered handler. */
    method RunHandler(h: Handler)
      modifies this
      ensures flashes == old(flashes) + [HandlerFlash(h)]
      ensures terminated
      ensures redirects == old(redirects) + [HandlerRedirect(h, baseUrl, body)]
      ensures emitted == old(emitted) && body == old(body) && SetupKept() && PageKept()
    {
      match h {
        case OnItemHasBeenInserted => OnItemInserted();
        case OnItemHasBeenSaved => OnItemSaved();
      }
    }

    /** `emit(event)`: records the event and calls its listeners in order. */
    method Emit(event: string)
      modifies this
      ensures emitted == old(emitted) + [event]
      ensures flashes == old(flashes) + HandlerFlashes(HandlersOf(listeners, event))
      ensures redirects == old(redirects) + HandlerRedirects(HandlersOf(listeners, event), baseUrl, body)
      ensures terminated == (old(terminated) || HandlersOf(listeners, event) != [])
      ensures body == old(body) && SetupKept() && PageKept()
    {
      emitted := emitted + [event];
      var handlers := HandlersOf(listeners, event);
      var i := 0;
      while i < |handlers|
        invariant 0 <= i <= |handlers|
        invariant emitted == old(emitted) + [event]
        invariant flashes == old(flashes) + HandlerFlashes(handlers[..i])
        invariant redirects == old(redirects) + HandlerRedirects(handlers[..i], baseUrl, body)
        invariant terminated == (old(terminated) || i > 0)
        invariant body == old(body) && SetupKept() && PageKept()
      {
        assert handlers[..i + 1][..i] == handlers[..i];
        RunHandler(handlers[i]);
        i := i + 1;
      }
      assert handlers[..i] == handlers;
    }

    /** A request other than GET submits the form. */
    predicate Posted() {
      httpMethod != "GET"
    }

    /** The page data both branches of `create` set: the form's action URL and the cancel URL back to the filtered list. */
    function CreatePageData(d: map<string, Datum>, filter: CrudRequest.CachedFilter): (r: map<string, Datum>)
      ensures r.Keys == d.Keys + {"actionUrl", "cancelActionUrl"}
      ensures r["actionUrl"] == Text(CrudRequest.ActionUrl(baseUrl, "create", None).value)
      ensures r["cancelActionUrl"] == Text(CrudRequest.FilteredListUrl(baseUrl, filter))
      ensures CrudRequest.ListUrl(baseUrl) <= r["cancelActionUrl"].s
    {
      CrudRequest.FilteredListUrlShape(baseUrl, filter);
      d["actionUrl" := Text(CrudRequest.ActionUrl(baseUrl, "create", None).value)]
       ["cancelActionUrl" := Text(CrudRequest.FilteredListUrl(baseUrl, filter))]
    }

    /**
     * The `insert` callback of `create`: an error flashes ERROR, terminates,
     * redirects to the list and is passed on; otherwise ITEM_CREATE is
     * emitted.
     */
    method OnCreateInserted(error: Option<StoreError>) returns (err: Option<StoreError>)
      modifies this
      ensures err == error
      ensures error.Some? ==>
                flashes == old(flashes) + [FM.FlashMessage("Failed to save item! " + error.value.message, FM.Error)]
                && terminated && redirects == old(redirects) + [ListUrl()] && emitted == old(emitted)
      ensures error.None? ==>
                emitted == old(emitted) + [ItemCreate]
                && flashes == old(flashes) + HandlerFlashes(HandlersOf(listeners, ItemCreate))
                && redirects == old(redirects) + HandlerRedirects(HandlersOf(listeners, ItemCreate), baseUrl, body)
                && terminated == (old(terminated) || HandlersOf(listeners, ItemCreate) != [])
      ensures body == old(body) && SetupKept() && PageKept()
    {
      if error.Some? {
        flashes := flashes + [FM.FlashMessage("Failed to save item! " + error.value.message, FM.Error)];
        terminated := true;
        redirects := redirects + [ListUrl()];
        return error;
      }
      Emit(ItemCreate);
      return None;
    }

    /**
     * The `validate` callback of `create`: invalid details show the form
     * again with the validation messages as ERROR flashes; valid ones are
     * stamped with the user and inserted under `newId`.
     */
    method OnCreateValidated(details: map<string, Value>, verdict: MongooseModel.Verdict, newId: Id)
      returns (err: Option<StoreError>)
      requires model.Valid() && newId !in model.records
      modifies this, model
      ensures model.Valid()
      ensures body == old(body) && SetupKept() && item == old(item) && requestFlashes == old(requestFlashes)
      ensures verdict.Failed? ==>
                err.None? && data == old(data)["item" := Fields(details)] && view == Some("create")
                && model.records == old(model.records)
                && flashes == old(flashes) + FM.Tagged(ValidationMessages(verdict), FM.Error)
                && terminated == old(terminated) && redirects == old(redirects) && emitted == old(emitted)
      ensures verdict.Passed? ==>
                data == old(data) && view == old(view) && err == model.fault(MongooseModel.InsertOp)
                && model.records == if err.None? then old(model.records)[newId := Record(newId, details[LastModifiedBy := userId])]
                                    else old(model.records)
      ensures verdict.Passed? && err.Some? ==>
                flashes == old(flashes) + [FM.FlashMessage("Failed to save item! " + err.value.message, FM.Error)]
                && terminated && redirects == old(redirects) + [ListUrl()] && emitted == old(emitted)
      ensures verdict.Passed? && err.None? ==>
                emitted == old(emitted) + [ItemCreate]
                && flashes == old(flashes) + HandlerFlashes(HandlersOf(listeners, ItemCreate))
                && redirects == old(redirects) + HandlerRedirects(HandlersOf(listeners, ItemCreate), baseUrl, body)
                && terminated == (old(terminated) || HandlersOf(listeners, ItemCreate) != [])
    {
      if verdict.Failed? {
        flashes := flashes + FM.Tagged(ValidationMessages(verdict), FM.Error);
        data := data["item" := Fields(details)];
        view := Some("create");
        return None;
      }
      var stamped := details[LastModifiedBy := userId];
      var insertError, inserted := model.Insert(stamped, newId);
      err := OnCreateInserted(insertError);
    }

    /**
     * `create`: a GET shows the form. A POST validates the body and goes
     * on as `OnCreateValidated` says: an invalid body shows the form again
     * with ERROR flashes; a valid one is stamped and inserted, and the
     * insertion either fails (ERROR, terminate, redirect to the list, error
     * returned) or emits ITEM_CREATE.
     */
    method Create(newId: Id) returns (err: Option<StoreError>)
      requires model.Valid() && newId !in model.records
      modifies this, model
      ensures model.Valid()
      ensures body == old(body) && SetupKept() && item == old(item) && requestFlashes == old(requestFlashes)
      ensures !Posted() ==>
                err.None? && data == CreatePageData(old(data), old(CachedFilter())) && view == Some("create")
                && SignalsKept() && model.records == old(model.records)
      ensures Posted() && model.Validate(body).Failed? ==>
                err.None? && data == CreatePageData(old(data), old(CachedFilter()))["item" := Fields(body)] && view == Some("create")
                && model.records == old(model.records)
                && flashes == old(flashes) + FM.Tagged(ValidationMessages(model.Validate(body)), FM.Error)
                && terminated == old(terminated) && redirects == old(redirects) && emitted == old(emitted)
      ensures Posted() && model.Validate(body).Passed? ==>
                data == CreatePageData(old(data), old(CachedFilter())) && view == old(view) && err == model.fault(MongooseModel.InsertOp)
                && model.records == if err.None? then old(model.records)[newId := Record(newId, body[LastModifiedBy := userId])]
                                    else old(model.records)
      ensures Posted() && model.Validate(body).Passed? && err.Some? ==>
                flashes == old(flashes) + [FM.FlashMessage("Failed to save item! " + err.value.message, FM.Error)]
                && terminated && redirects == old(redirects) + [ListUrl()] && emitted == old(emitted)
      ensures Posted() && model.Validate(body).Passed? && err.None? ==>
                emitted == old(emitted) + [ItemCreate]
                && flashes == old(flashes) + HandlerFlashes(HandlersOf(listeners, ItemCreate))
                && redirects == old(redirects) + HandlerRedirects(HandlersOf(listeners, ItemCreate), baseUrl, body)
                && terminated == (old(terminated) || HandlersOf(listeners, ItemCreate) != [])
    {
      data := CreatePageData(data, CachedFilter());
      if !Posted() {
        view := Some("create");
        return None;
      }
      var details := CrudRequest.ItemFromRequest(map[], body);
      assert map[] + body == body;
      err := OnCreateValidated(details, model.Validate(details), newId);
    }

    /**
     * The `save` callback of `edit`: an error flashes ERROR, terminates,
     * redirects to the list and is passed on; otherwise ITEM_UPDATE is
     * emitted and `onItemHasBeenSaved` then runs as well.
     */
    method OnEditSaved(error: Option<StoreError>) returns (err: Option<StoreError>)
      modifies this
      ensures err == error
      ensures terminated
      ensures error.Some? ==>
                flashes == old(flashes) + [FM.FlashMessage("Failed to save item! " + error.value.message, FM.Error)]
                && redirects == old(redirects) + [ListUrl()] && emitted == old(emitted)
      ensures error.None? ==>
                emitted == old(emitted) + [ItemUpdate]
                && flashes == old(flashes) + HandlerFlashes(HandlersOf(listeners, ItemUpdate)) + [HandlerFlash(OnItemHasBeenSaved)]
                && redirects == old(redirects) + HandlerRedirects(HandlersOf(listeners, ItemUpdate), baseUrl, body)
                                + [SavedTarget(baseUrl, body)]
      ensures body == old(body) && SetupKept() && PageKept()
    {
      if error.Some? {
        flashes := flashes + [FM.FlashMessage("Failed to save item! " + error.value.message, FM.Error)];
        terminated := true;
        redirects := redirects + [ListUrl()];
        return error;
      }
      Emit(ItemUpdate);
      OnItemSaved();
      return None;
    }

    /**
     * The `validate` callback of `edit`, on `details`, the loaded item `id`
     * merged with the body: the item becomes the merged one; an invalid one
     * shows the form again with ERROR flashes; a valid one is stamped with
     * the user and saved. The page data shows the same item object, so it
     * follows the merge and the stamp.
     */
    method OnEditValidated(id: Id, details: map<string, Value>, verdict: MongooseModel.Verdict)
      returns (err: Option<StoreError>)
      requires model.Valid()
      modifies this, model
      ensures model.Valid()
      ensures body == old(body) && SetupKept() && requestFlashes == old(requestFlashes)
      ensures item == Some(Record(id, if verdict.Passed? then details[LastModifiedBy := userId] else details))
      ensures data == old(data)["item" := Fields(item.value.fields)]
      ensures verdict.Failed? ==>
                err.None? && view == Some("edit") && model.records == old(model.records)
                && flashes == old(flashes) + FM.Tagged(ValidationMessages(verdict), FM.Error)
                && terminated == old(terminated) && redirects == old(redirects) && emitted == old(emitted)
      ensures verdict.Passed? ==>
                view == old(view) && terminated && err == model.fault(MongooseModel.SaveOp(id))
                && model.records == if err.None? then old(model.records)[id := item.value] else old(model.records)
      ensures verdict.Passed? && err.Some? ==>
                flashes == old(flashes) + [FM.FlashMessage("Failed to save item! " + err.value.message, FM.Error)]
                && redirects == old(redirects) + [ListUrl()] && emitted == old(emitted)
      ensures verdict.Passed? && err.None? ==>
                emitted == old(emitted) + [ItemUpdate]
                && flashes == old(flashes) + HandlerFlashes(HandlersOf(listeners, ItemUpdate)) + [HandlerFlash(OnItemHasBeenSaved)]
                && redirects == old(redirects) + HandlerRedirects(HandlersOf(listeners, ItemUpdate), baseUrl, body)
                                + [SavedTarget(baseUrl, body)]
    {
      if verdict.Failed? {
        item := Some(Record(id, details));
        data := data["item" := Fields(details)];
        flashes := flashes + FM.Tagged(ValidationMessages(verdict), FM.Error);
        view := Some("edit");
        return None;
      }
      item := Some(Record(id, details[LastModifiedBy := userId]));
      data := data["item" := Fields(item.value.fields)];
      var saveError := model.Save(item.value);
      err := OnEditSaved(saveError);
    }

    /** The page data `edit` sets besides the item: edit mode, the form's action URL and the cancel URL to the item's page. */
    function EditPageData(d: map<string, Datum>, id: Id): (r: map<string, Datum>)
      ensures r.Keys == d.Keys + {"isEditMode", "actionUrl", "cancelActionUrl"}
      ensures r["isEditMode"] == Flag(true)
      ensures r["actionUrl"] == Text(baseUrl + "/" + id + "/" + "edit")
      ensures r["cancelActionUrl"] == Text(baseUrl + "/" + id)
    {
      d["isEditMode" := Flag(true)]
       ["actionUrl" := Text(CrudRequest.ActionUrl(baseUrl, "edit", Some(id)).value)]
       ["cancelActionUrl" := Text(CrudRequest.ActionUrl(baseUrl, "view", Some(id)).value)]
    }

    /**
     * `edit` on the item `preLoad` loaded: a GET shows the form. A POST
     * merges the body into the item (body fields win) and goes on as
     * `OnEditValidated` says; on a successful save ITEM_UPDATE is emitted
     * and `onItemHasBeenSaved` runs as well, so a registered update listener
     * flashes and redirects a second time.
     */
    method Edit() returns (err: Option<StoreError>)
      requires item.Some? && model.Valid()
      modifies this, model
      ensures model.Valid()
      ensures body == old(body) && SetupKept() && requestFlashes == old(requestFlashes)
      ensures item.Some? && item.value.id == old(item).value.id
      ensures data == EditPageData(old(data), old(item).value.id)["item" := Fields(item.value.fields)]
      ensures !Posted() ==>
                err.None? && view == Some("edit") && item == old(item) && SignalsKept() && model.records == old(model.records)
      ensures Posted() && model.Validate(old(item).value.fields + body).Failed? ==>
                err.None? && view == Some("edit") && model.records == old(model.records)
                && item.value.fields == old(item).value.fields + body
                && flashes == old(flashes) + FM.Tagged(ValidationMessages(model.Validate(old(item).value.fields + body)), FM.Error)
                && terminated == old(terminated) && redirects == old(redirects) && emitted == old(emitted)
      ensures Posted() && model.Validate(old(item).value.fields + body).Passed? ==>
                view == old(view) && terminated
                && item.value.fields == (old(item).value.fields + body)[LastModifiedBy := userId]
                && err == model.fault(MongooseModel.SaveOp(item.value.id))
                && model.records == if err.None? then old(model.records)[item.value.id := item.value] else old(model.records)
      ensures Posted() && model.Validate(old(item).value.fields + body).Passed? && err.Some? ==>
                flashes == old(flashes) + [FM.FlashMessage("Failed to save item! " + err.value.message, FM.Error)]
                && redirects == old(redirects) + [ListUrl()] && emitted == old(emitted)
      ensures Posted() && model.Validate(old(item).value.fields + body).Passed? && err.None? ==>
                emitted == old(emitted) + [ItemUpdate]
                && flashes == old(flashes) + HandlerFlashes(HandlersOf(listeners, ItemUpdate)) + [HandlerFlash(OnItemHasBeenSaved)]
                && redirects == old(redirects) + HandlerRedirects(HandlersOf(listeners, ItemUpdate), baseUrl, body)
                                + [SavedTarget(baseUrl, body)]
    {
      var id := item.value.id;
      var pageData := EditPageData(data, id);
      data := pageData["item" := Fields(item.value.fields)];
      if !Posted() {
        view := Some("edit");
        return None;
      }
      var details := CrudRequest.ItemFromRequest(item.value.fields, body);
      err := OnEditValidated(id, details, model.Validate(details));
    }

    /** What `removeById(itemId)` answers; a request without an id finds nothing. */
    function DeleteOutcome(): (r: DeleteAnswer)
      reads this, model
      ensures r.found ==> ItemId().Some? && ItemId().value in model.records
    {
      match ItemId()
      case None => DeleteAnswer(None, false)
      case Some(id) =>
        if model.fault(MongooseModel.FindOp(id)).Some? then DeleteAnswer(model.fault(MongooseModel.FindOp(id)), false)
        else if id !in model.records then DeleteAnswer(None, false)
        else DeleteAnswer(model.fault(MongooseModel.RemoveOp(id)), true)
    }

    /**
     * The `removeById` callback of `doDelete`: ITEM_DELETE is emitted before
     * the outcome is looked at; then an error flashes ERROR and is passed on,
     * a removed document flashes SUCCESS and a missing one ERROR; every path
     * terminates and redirects to the list.
     */
    method OnRemoved(error: Option<StoreError>, removed: Option<Record>) returns (err: Option<StoreError>)
      modifies this
      ensures err == error
      ensures emitted == old(emitted) + [ItemDelete]
      ensures flashes == old(flashes) + HandlerFlashes(HandlersOf(listeners, ItemDelete))
                         + [DeleteFlash(DeleteAnswer(error, removed.Some?))]
      ensures terminated
      ensures redirects == old(redirects) + HandlerRedirects(HandlersOf(listeners, ItemDelete), baseUrl, body) + [ListUrl()]
      ensures body == old(body) && SetupKept() && PageKept()
    {
      Emit(ItemDelete);
      if error.Some? {
        flashes := flashes + [FM.FlashMessage("Failed to delete item! " + error.value.message, FM.Error)];
        terminated := true;
        redirects := redirects + [ListUrl()];
        return error;
      }
      if removed.Some? {
        flashes := flashes + [FM.FlashMessage(RemovedText, FM.Success)];
      } else {
        flashes := flashes + [FM.FlashMessage(NotExistsText, FM.Error)];
      }
      terminated := true;
      redirects := redirects + [ListUrl()];
      return None;
    }

    /**
     * `doDelete`: removes the item and goes on as `OnRemoved` says; the
     * last flash is SUCCESS exactly when a document left the store.
     */
    method DoDelete() returns (err: Option<StoreError>)
      requires model.Valid()
      modifies this, model
      ensures model.Valid()
      ensures body == old(body) && SetupKept() && PageKept()
      ensures err == old(DeleteOutcome()).error
      ensures model.records == if old(DeleteOutcome()) == DeleteAnswer(None, true)
                               then old(model.records) - {ItemId().value} else old(model.records)
      ensures emitted == old(emitted) + [ItemDelete]
      ensures flashes == old(flashes) + HandlerFlashes(HandlersOf(listeners, ItemDelete)) + [DeleteFlash(old(DeleteOutcome()))]
      ensures flashes[|flashes| - 1].msgType == FM.Success <==> |model.records| < |old(model.records)|
      ensures terminated
      ensures redirects == old(redirects) + HandlerRedirects(HandlersOf(listeners, ItemDelete), baseUrl, body) + [ListUrl()]
    {
      ghost var answer := DeleteOutcome();
      var removeError: Option<StoreError>, removed: Option<Record> := None, None;
      if ItemId().Some? {
        removeError, removed := model.RemoveById(ItemId().value, userId);
      }
      assert DeleteAnswer(removeError, removed.Some?) == answer;
      err := OnRemoved(removeError, removed);
    }

    /**
     * `bulkDelete`: removes each selected id in turn; the per-item callback
     * drops every error, so the action always ends with the INFO flash,
     * terminates and redirects to the list.
     */
    method BulkDelete() returns (err: Option<StoreError>)
      requires model.Valid()
      modifies this, model
      ensures model.Valid()
      ensures err.None?
      ensures model.records == RemoveAll(old(model.records), SelectedItems(body), model.fault)
      ensures flashes == old(flashes) + [FM.FlashMessage(BulkRemovedText, FM.Info)]
      ensures terminated && redirects == old(redirects) + [ListUrl()]
      ensures body == old(body) && emitted == old(emitted) && SetupKept() && PageKept()
    {
      RemoveEach(model, SelectedItems(body), userId);
      flashes := flashes + [FM.FlashMessage(BulkRemovedText, FM.Info)];
      terminated := true;
      redirects := redirects + [ListUrl()];
      return None;
    }

    /**
     * The `getListFiltered` callback of `doBulkEdit`: an error is passed on
     * with nothing flashed; otherwise every listed document is patched and
     * saved in turn, then SUCCESS, terminate, redirect to the list.
     */
    method OnBulkListed(error: Option<StoreError>, items: seq<Record>, patches: seq<Patch>) returns (err: Option<StoreError>)
      requires model.Valid()
      modifies this, model
      ensures model.Valid()
      ensures err == error
      ensures error.Some? ==>
                model.records == old(model.records) && flashes == old(flashes)
                && terminated == old(terminated) && redirects == old(redirects)
      ensures error.None? ==>
                model.records == SaveAll(old(model.records), items, patches, model.fault)
                && flashes == old(flashes) + [FM.FlashMessage(BulkUpdatedText, FM.Success)]
                && terminated && redirects == old(redirects) + [ListUrl()]
      ensures body == old(body) && SetupKept() && PageKept() && emitted == old(emitted)
    {
      if error.Some? {
        return error;
      }
      SaveEach(model, items, patches);
      flashes := flashes + [FM.FlashMessage(BulkUpdatedText, FM.Success)];
      terminated := true;
      redirects := redirects + [ListUrl()];
      return None;
    }

    /**
     * The listing callback of `doBulkEdit` as written: a failed save throws
     * inside the save loop, so the documents after it are not saved and no
     * flash, termination or redirect follows.
     */
    method OnBulkListedAsWritten(error: Option<StoreError>, items: seq<Record>, patches: seq<Patch>)
      returns (err: Option<StoreError>, thrown: bool)
      requires model.Valid()
      modifies this, model
      ensures model.Valid()
      ensures err == error
      ensures thrown <==> error.None? && SavedPrefix(items, model.fault) < |items|
      ensures error.Some? ==> model.records == old(model.records)
      ensures error.None? ==>
                model.records == SaveAll(old(model.records), items[..SavedPrefix(items, model.fault)], patches, model.fault)
      ensures error.Some? || thrown ==>
                flashes == old(flashes) && terminated == old(terminated) && redirects == old(redirects)
      ensures error.None? && !thrown ==>
                flashes == old(flashes) + [FM.FlashMessage(BulkUpdatedText, FM.Success)]
                && terminated && redirects == old(redirects) + [ListUrl()]
      ensures body == old(body) && SetupKept() && PageKept() && emitted == old(emitted)
    {
      if error.Some? {
        return error, false;
      }
      thrown := SaveEachAsWritten(model, items, patches);
      if thrown {
        return None, true;
      }
      flashes := flashes + [FM.FlashMessage(BulkUpdatedText, FM.Success)];
      terminated := true;
      redirects := redirects + [ListUrl()];
      return None, false;
    }

    /**
     * The listing `doBulkEdit` asks for: every document `filters` selects,
     * as page 1 of 10000 with no sorting. `items` are the documents handed
     * over, none when the listing failed.
     */
    method ListEverything(filters: ListQuery.Filters, countAnswer: MongooseModel.CountAnswer,
                          fetchAnswer: MongooseModel.FetchAnswer, validPattern: string -> bool)
      returns (listQuery: ListQuery.Query, err: Option<StoreError>, items: seq<Record>, thrown: bool)
      ensures thrown <==> ListQuery.SearchThrows(filters, validPattern)
      ensures thrown ==> err.None? && items == []
      ensures !thrown ==> listQuery == ListQuery.BuildQuery(filters, ListQuery.Sorting(None, None), 1, 10000)
      ensures !thrown ==> err == ListError(countAnswer, fetchAnswer)
      ensures items == if !thrown && err.None? then fetchAnswer.items else []
    {
      var pagination := new Pagination.Pagination(1, 10000);
      var result;
      listQuery, err, result, thrown := model.GetListFiltered(filters, pagination, ListQuery.Sorting(None, None),
                                                              countAnswer, fetchAnswer, validPattern);
      items := if result.Some? then result.value.items else [];
    }

    /**
     * `doBulkEdit`: coerces 'true'/'false' in the body, collects the
     * patches, lists every document the remembered search selects (page 1
     * of 10000, unsorted) and goes on as `OnBulkListed` says. `listQuery` is
     * the query sent to the database. A remembered search text that is not
     * a valid pattern throws once the body is coerced (`thrown`): nothing
     * is listed or saved, and no message or redirect follows. The filters
     * do not depend on the body, so they are stated in the initial state.
     */
    method DoBulkEdit(countAnswer: MongooseModel.CountAnswer, fetchAnswer: MongooseModel.FetchAnswer,
                      validPattern: string -> bool)
      returns (listQuery: ListQuery.Query, err: Option<StoreError>, thrown: bool)
      requires model.Valid()
      modifies this, model
      ensures model.Valid()
      ensures body == CoercedBody(bulkEditFields, old(body))
      ensures SetupKept() && PageKept() && emitted == old(emitted)
      ensures thrown <==> ListQuery.SearchThrows(old(ViewFilters()), validPattern)
      ensures thrown ==> err.None?
      ensures !thrown ==> listQuery == ListQuery.BuildQuery(old(ViewFilters()), ListQuery.Sorting(None, None), 1, 10000)
      ensures !thrown ==> err == ListError(countAnswer, fetchAnswer)
      ensures thrown || err.Some? ==>
                model.records == old(model.records) && flashes == old(flashes)
                && terminated == old(terminated) && redirects == old(redirects)
      ensures !thrown && err.None? ==>
                model.records == SaveAll(old(model.records), fetchAnswer.items, BulkPatches(bulkEditFields, old(body)), model.fault)
                && flashes == old(flashes) + [FM.FlashMessage(BulkUpdatedText, FM.Success)]
                && terminated && redirects == old(redirects) + [ListUrl()]
    {
      var filters := ViewFilters();
      var coerced, patches := CollectPatches(bulkEditFields, body);
      body := coerced;
      var listError, items;
      listQuery, listError, items, thrown := ListEverything(filters, countAnswer, fetchAnswer, validPattern);
      if thrown {
        return listQuery, None, true;
      }
      err := OnBulkListed(listError, items, patches);
    }
  }
}

=== FILE: crudrequest.dfy ===
/**
 * The request-side helpers of the CRUD controller
 * (lib/controllers/crudcontroller.js): action URLs, the filter the
 * controller keeps in its state between list requests, the query string that
 * carries that filter, and the merge of a request body into an item.
 */
module CrudRequest {
  import opened Wrappers
  import opened Records
  import JsString

  /** `_baseUrl` of the base class. */
  const DefaultBaseUrl: string := "/admin/index"

  // ------------------------------------------------------------ action URLs

  /** The actions whose URL is the base URL followed by the action name. */
  predicate SuffixAction(action: string) {
    action in {"create", "import", "export", "bulkEdit", "bulkEditPreview", "doBulkEdit", "bulkDelete"}
  }

  /** The actions whose URL names the item and then the action. */
  predicate ItemAction(action: string) {
    action == "edit" || action == "doEdit" || action == "delete"
  }

  /**
   * `getActionUrl(action, item)`; `itemId` is the id of `item`. An item
   * action without an item has no URL (the code fails reading `item.id`).
   */
  function ActionUrl(baseUrl: string, action: string, itemId: Option<Id>): (r: Option<string>)
    ensures r.None? <==> (ItemAction(action) || action == "view") && itemId.None?
    ensures SuffixAction(action) ==> r == Some(baseUrl + "/" + action)
    ensures ItemAction(action) && itemId.Some? ==> r == Some(baseUrl + "/" + itemId.value + "/" + action)
    ensures action == "view" && itemId.Some? ==> r == Some(baseUrl + "/" + itemId.value)
    ensures !SuffixAction(action) && !ItemAction(action) && action != "view" ==> r == Some(baseUrl)
  {
    if SuffixAction(action) then Some(baseUrl + "/" + action)
    else if ItemAction(action) then
      if itemId.Some? then Some(baseUrl + "/" + itemId.value + "/" + action) else None
    else if action == "view" then
      if itemId.Some? then Some(baseUrl + "/" + itemId.value) else None
    else Some(baseUrl)
  }

  /** `getActionUrl('list')`. */
  function ListUrl(baseUrl: string): (r: string)
    ensures ActionUrl(baseUrl, "list", None) == Some(r)
  {
    baseUrl
  }

  /**
   * Every action URL extends the list URL, so a request to any of them
   * passes the list-request test of `cacheRequestFilter`; and two different
   * actions without an item never share a URL.
   */
  lemma ActionUrlsExtendList(baseUrl: string, a: string, b: string, itemId: Option<Id>)
    requires ActionUrl(baseUrl, a, itemId).Some?
    ensures ListUrl(baseUrl) <= ActionUrl(baseUrl, a, itemId).value
    ensures SuffixAction(a) && SuffixAction(b) && a != b ==>
              ActionUrl(baseUrl, a, itemId) != ActionUrl(baseUrl, b, itemId)
  {
    var prefix := baseUrl + "/";
    assert (prefix + a)[|prefix|..] == a;
    assert (prefix + b)[|prefix|..] == b;
  }

  // ------------------------------------------------------------ the cached filter

  /** A query-string parameter: given once, or repeated (Express then hands over an array). */
  datatype QueryParam = One(s: string) | Many(values: seq<string>)

  /** Truthiness of a parameter: a non-empty string, or any array. */
  predicate QueryTruthy(p: Option<QueryParam>) {
    match p
    case None => false
    case Some(One(s)) => s != ""
    case Some(Many(_)) => true
  }

  /** `getSingleValue`: the value itself, or the first of several ('' for none); `undefined` stays undefined. */
  function SingleValue(p: Option<QueryParam>): (r: Option<string>)
    ensures r.None? <==> p.None?
    ensures QueryTruthy(p) ==> r.Some?
    ensures p.Some? && p.value.One? ==> r == Some(p.value.s)
    ensures p.Some? && p.value.Many? ==> r.value == if p.value.values == [] then "" else p.value.values[0]
  {
    match p
    case None => None
    case Some(One(s)) => Some(s)
    case Some(Many(vs)) => if vs == [] then Some("") else Some(vs[0])
  }

  /** A repeated parameter reads as the parameter given once with its first value. */
  lemma SingleValueOfFirst(vs: seq<string>)
    requires vs != []
    ensures SingleValue(Some(Many(vs))) == SingleValue(Some(One(vs[0])))
    ensures SingleValue(Some(One(SingleValue(Some(Many(vs))).value))) == SingleValue(Some(Many(vs)))
  {
  }

  /** `query.filter`: `filter[search]`, `filter[pageSize]`, `filter[sortingField]`, `filter[sortingOrder]`. */
  datatype FilterQuery = FilterQuery(search: Option<QueryParam>, pageSize: Option<QueryParam>,
                                     sortingField: Option<QueryParam>, sortingOrder: Option<QueryParam>)

  /** The `sorting` object of the cached filter. */
  datatype SortState = SortState(field: string, order: string, basePath: string)

  /**
   * `currentState.filter`. `pageSize` is `None` when absent and also when the
   * parsed size was NaN: the code only ever tests its truthiness, which is
   * the same for both.
   */
  datatype CachedFilter = CachedFilter(page: Option<string>, search: Option<string>,
                                       pageSize: Option<int>, sorting: Option<SortState>)

  /** The empty filter `{}`. */
  const EmptyFilter: CachedFilter := CachedFilter(None, None, None, None)

  /** The request test of `cacheRequestFilter`: a GET of the list action or of a URL under the list URL. */
  predicate IsListRequest(httpMethod: string, actionParam: Option<string>, url: string, baseUrl: string) {
    httpMethod == "GET" && (actionParam == Some("list") || ListUrl(baseUrl) <= url)
  }

  /**
   * The filter after one list request: a truthy `page` route parameter is
   * remembered; a `filter` query replaces the search (even by undefined),
   * replaces the page size when one is given, and replaces the sorting when
   * both field and order are given.
   */
  function Remembered(filter: CachedFilter, page: Option<string>, query: Option<FilterQuery>, baseUrl: string): (r: CachedFilter)
    ensures r.page == if Present(page) then page else filter.page
    ensures query.None? ==> r.search == filter.search && r.pageSize == filter.pageSize && r.sorting == filter.sorting
    ensures query.Some? ==> r.search == SingleValue(query.value.search)
    ensures query.Some? && !QueryTruthy(query.value.pageSize) ==> r.pageSize == filter.pageSize
    ensures query.Some? && QueryTruthy(query.value.pageSize) ==>
              r.pageSize == JsString.ParseInt(SingleValue(query.value.pageSize).value)
    ensures query.Some? && QueryTruthy(query.value.sortingField) && QueryTruthy(query.value.sortingOrder) ==>
              r.sorting == Some(SortState(SingleValue(query.value.sortingField).value,
                                          SingleValue(query.value.sortingOrder).value, ListUrl(baseUrl)))
    ensures query.Some? && !(QueryTruthy(query.value.sortingField) && QueryTruthy(query.value.sortingOrder)) ==>
              r.sorting == filter.sorting
  {
    var withPage := if Present(page) then filter.(page := page) else filter;
    match query
    case None => withPage
    case Some(q) =>
      var withSearch := withPage.(search := SingleValue(q.search));
      var withSize := if QueryTruthy(q.pageSize)
                      then withSearch.(pageSize := JsString.ParseInt(SingleValue(q.pageSize).value))
                      else withSearch;
      if QueryTruthy(q.sortingField) && QueryTruthy(q.sortingOrder) then
        withSize.(sorting := Some(SortState(SingleValue(q.sortingField).value, SingleValue(q.sortingOrder).value,
                                            ListUrl(baseUrl))))
      else withSize
  }

  /** Repeating a list request leaves the remembered filter as the first one left it. */
  lemma RememberedIdempotent(filter: CachedFilter, page: Option<string>, query: Option<FilterQuery>, baseUrl: string)
    ensures Remembered(Remembered(filter, page, query, baseUrl), page, query, baseUrl)
            == Remembered(filter, page, query, baseUrl)
  {
  }

  // ------------------------------------------------------------ the query string

  /** Truthiness of the cached page size (0 and NaN are falsy). */
  predicate SizeTruthy(pageSize: Option<int>) {
    pageSize.Some? && pageSize.value != 0
  }

  /** The `name=value` parts of `getQueryStringFilterPart`, in order, each only for a value that is there. */
  function FilterParts(filter: CachedFilter): (r: seq<string>)
    ensures |r| == (if Present(filter.search) then 1 else 0) + (if SizeTruthy(filter.pageSize) then 1 else 0)
                   + (if filter.sorting.Some? then 2 else 0)
  {
    (if Present(filter.search) then ["filter[search]=" + JsString.EncodeUriComponent(filter.search.value)] else [])
    + (if SizeTruthy(filter.pageSize) then ["filter[pageSize]=" + JsString.IntToString(filter.pageSize.value)] else [])
    + (if filter.sorting.Some? then
         ["filter[sortingField]=" + JsString.EncodeUriComponent(filter.sorting.value.field),
          "filter[sortingOrder]=" + JsString.EncodeUriComponent(filter.sorting.value.order)]
       else [])
  }

  /** `getQueryStringFilterPart`: the parts joined by '&', behind a '?' unless there are none. */
  function QueryStringFilterPart(filter: CachedFilter): (r: string)
    ensures r == "" <==> FilterParts(filter) == []
  {
    var parts := FilterParts(filter);
    if parts == [] then "" else "?" + JsString.Join(parts, '&')
  }

  /** An encoded value never contains '&'. */
  lemma EncodedHasNoAmpersand(s: string)
    ensures '&' !in JsString.EncodeUriComponent(s)
  {
    JsString.EncodeUriComponentSafe(s);
  }

  /** No string of `parts` contains '&'. */
  predicate Separable(parts: seq<string>) {
    forall k :: 0 <= k < |parts| ==> '&' !in parts[k]
  }

  lemma SeparableConcat(a: seq<string>, b: seq<string>)
    requires Separable(a) && Separable(b)
    ensures Separable(a + b)
  {
    forall k | 0 <= k < |a + b|
      ensures '&' !in (a + b)[k]
    {
      if k >= |a| {
        assert (a + b)[k] == b[k - |a|];
      }
    }
  }

  /** The search part has no '&'. */
  lemma SearchPartSeparable(value: string)
    ensures '&' !in "filter[search]=" + JsString.EncodeUriComponent(value)
  {
    EncodedHasNoAmpersand(value);
  }

  /** The page-size part has no '&': a decimal number has none. */
  lemma SizePartSeparable(n: int)
    ensures '&' !in "filter[pageSize]=" + JsString.IntToString(n)
  {
    var m: nat := if n < 0 then -n else n;
    assert forall i :: 0 <= i < |JsString.NatToString(m)| ==> JsString.IsDigit(JsString.NatToString(m)[i]);
    assert '&' !in JsString.NatToString(m);
  }

  /** The sorting parts have no '&'. */
  lemma SortingPartsSeparable(field: string, order: string)
    ensures '&' !in "filter[sortingField]=" + JsString.EncodeUriComponent(field)
    ensures '&' !in "filter[sortingOrder]=" + JsString.EncodeUriComponent(order)
  {
    EncodedHasNoAmpersand(field);
    EncodedHasNoAmpersand(order);
  }

  /** No part of the filter contains '&'. */
  lemma FilterPartsSeparable(filter: CachedFilter)
    ensures Separable(FilterParts(filter))
  {
    var search := if Present(filter.search) then ["filter[search]=" + JsString.EncodeUriComponent(filter.search.value)] else [];
    var size := if SizeTruthy(filter.pageSize) then ["filter[pageSize]=" + JsString.IntToString(filter.pageSize.value)] else [];
    var sorting := if filter.sorting.Some? then
                     ["filter[sortingField]=" + JsString.EncodeUriComponent(filter.sorting.value.field),
                      "filter[sortingOrder]=" + JsString.EncodeUriComponent(filter.sorting.value.order)]
                   else [];
    if Present(filter.search) {
      SearchPartSeparable(filter.search.value);
    }
    if SizeTruthy(filter.pageSize) {
      SizePartSeparable(filter.pageSize.value);
    }
    if filter.sorting.Some? {
      SortingPartsSeparable(filter.sorting.value.field, filter.sorting.value.order);
    }
    SeparableConcat(search, size);
    SeparableConcat(search + size, sorting);
  }

  /** Splitting the query string (after its '?') on '&' gives back exactly the parts, in order. */
  lemma QueryStringRoundTrip(filter: CachedFilter)
    requires QueryStringFilterPart(filter) != ""
    ensures QueryStringFilterPart(filter)[0] == '?'
    ensures JsString.Split(QueryStringFilterPart(filter)[1..], '&') == FilterParts(filter)
  {
    var parts := FilterParts(filter);
    FilterPartsSeparable(filter);
    JsString.SplitJoin(parts, '&');
    assert QueryStringFilterPart(filter)[1..] == JsString.Join(parts, '&');
  }

  /** Both heads of a three-part string are prefixes of it. */
  lemma PrefixesOfAppend(a: string, b: string, c: string)
    ensures a <= a + b + c && a + b <= a + b + c
  {
    assert (a + b + c)[..|a + b|] == a + b;
    assert (a + b + c)[..|a|] == a;
  }

  /** The '/page/N' segment of `getFilteredListUrl`, for a remembered page. */
  function PagePart(filter: CachedFilter): string {
    if Present(filter.page) then "/page/" + filter.page.value else ""
  }

  /** `getFilteredListUrl`: the list URL, then '/page/N' for a remembered page, then the query string. */
  function FilteredListUrl(baseUrl: string, filter: CachedFilter): string {
    ListUrl(baseUrl) + PagePart(filter) + QueryStringFilterPart(filter)
  }

  /**
   * The filtered list URL extends the list URL, then the page segment when a
   * page is remembered; without a page it is the list URL and the query
   * string, and without any remembered filter it is the list URL itself.
   */
  lemma FilteredListUrlShape(baseUrl: string, filter: CachedFilter)
    ensures ListUrl(baseUrl) <= FilteredListUrl(baseUrl, filter)
    ensures Present(filter.page) ==> ListUrl(baseUrl) + ("/page/" + filter.page.value) <= FilteredListUrl(baseUrl, filter)
    ensures !Present(filter.page) ==> FilteredListUrl(baseUrl, filter) == ListUrl(baseUrl) + QueryStringFilterPart(filter)
    ensures filter == EmptyFilter ==> FilteredListUrl(baseUrl, filter) == ListUrl(baseUrl)
  {
    var url := ListUrl(baseUrl);
    var query := QueryStringFilterPart(filter);
    PrefixesOfAppend(url, PagePart(filter), query);
    if !Present(filter.page) {
      assert url + PagePart(filter) == url;
    }
    if filter == EmptyFilter {
      assert |FilterParts(filter)| == 0;
      assert url + PagePart(filter) + query == url;
    }
  }

  // ------------------------------------------------------------ request body

  /**
   * `getItemFromRequest(item)`: every body field is copied over the item;
   * the item's other fields stay.
   */
  method ItemFromRequest(item: map<string, Value>, body: map<string, Value>) returns (result: map<string, Value>)
    ensures forall k :: k in result <==> k in item || k in body
    ensures forall k :: k in body ==> result[k] == body[k]
    ensures forall k :: k in item && k !in body ==> result[k] == item[k]
    ensures result == item + body
  {
    result := item;
    var keys := body.Keys;
    while keys != {}
      invariant keys <= body.Keys
      invariant forall k :: k in result <==> k in item || (k in body && k !in keys)
      invariant forall k :: k in result ==> result[k] == if k in body && k !in keys then body[k] else item[k]
      decreases |keys|
    {
      var key :| key in keys;
      result := result[key := body[key]];
      keys := keys - {key};
    }
    MergedIsUnion(item, body, result);
  }

  /** A map with the body's fields over the item's is their union with the body winning. */
  lemma MergedIsUnion(item: map<string, Value>, body: map<string, Value>, result: map<string, Value>)
    requires forall k :: k in result <==> k in item || k in body
    requires forall k :: k in body ==> result[k] == body[k]
    requires forall k :: k in item && k !in body ==> result[k] == item[k]
    ensures result == item + body
  {
    assert result.Keys == (item + body).Keys;
  }
}

=== FILE: crudsheet.dfy ===
/**
 * The spreadsheet rules of the CRUD controller
 * (lib/controllers/crudcontroller.js): how the rows of an imported sheet
 * become items, and how `getSheetFromArrayOfArrays` turns rows of values into
 * typed cells and the bounding range of the sheet. File parsing and the
 * XLSX cell and range encodings are not modelled: a cell reference is its
 * (column, row) pair and the range is its four bounds.
 */
module CrudSheet {
  import opened Wrappers
  import opened Records
  import JsString

  // ------------------------------------------------------------ import rows

  /** The item key of a header cell: its first line break turned into a space, then trimmed. */
  function HeaderKey(header: string): string {
    JsString.Trim(JsString.ReplaceFirst(header, '\n', ' '))
  }

  /** `records[i][j]`: the cell, or `None` (undefined) past the end of a short row. */
  function CellAt(row: seq<string>, j: int): (r: Option<string>)
    requires 0 <= j
    ensures r.Some? <==> j < |row|
    ensures r.Some? ==> r.value == row[j]
  {
    if j < |row| then Some(row[j]) else None
  }

  /** The key each column contributes: `None` for a column whose header is empty. */
  function ColumnKeys(headers: seq<string>): (keys: seq<Option<string>>)
    ensures |keys| == |headers|
    ensures forall j :: 0 <= j < |headers| ==>
              keys[j] == if headers[j] != "" then Some(HeaderKey(headers[j])) else None
  {
    seq(|headers|, j requires 0 <= j < |headers| => if headers[j] != "" then Some(HeaderKey(headers[j])) else None)
  }

  /** The item a row yields under the first `|keys|` column keys: keyless columns are skipped, and a later column overwrites an earlier one with the same key. */
  function ItemOf(keys: seq<Option<string>>, row: seq<string>): map<string, Option<string>>
  {
    if keys == [] then map[]
    else
      var n := |keys| - 1;
      var before := ItemOf(keys[..n], row);
      if keys[n].Some? then before[keys[n].value := CellAt(row, n)] else before
  }

  /** The item of one data row of an imported sheet. */
  function RowItem(headers: seq<string>, row: seq<string>): map<string, Option<string>>
  {
    ItemOf(ColumnKeys(headers), row)
  }

  /** The keys of an item are exactly the keys of its columns. */
  lemma {:induction false} ItemKeys(keys: seq<Option<string>>, row: seq<string>)
    ensures forall k :: k in ItemOf(keys, row) <==> Some(k) in keys
  {
    if keys != [] {
      var n := |keys| - 1;
      ItemKeys(keys[..n], row);
      assert keys == keys[..n] + [keys[n]];
    }
  }

  /** A column whose key no later column repeats supplies that key's value. */
  lemma {:induction false} ItemLastWins(keys: seq<Option<string>>, row: seq<string>, j: int)
    requires 0 <= j < |keys| && keys[j].Some?
    requires forall i :: j < i < |keys| ==> keys[i] != keys[j]
    ensures keys[j].value in ItemOf(keys, row)
    ensures ItemOf(keys, row)[keys[j].value] == CellAt(row, j)
  {
    var n := |keys| - 1;
    if j < n {
      var init := keys[..n];
      assert init[j] == keys[j];
      forall i | j < i < |init|
        ensures init[i] != init[j]
      {
        assert init[i] == keys[i];
      }
      ItemLastWins(init, row, j);
    }
  }

  /** The keys of an imported item are the keys of the non-empty headers. */
  lemma RowItemKeys(headers: seq<string>, row: seq<string>)
    ensures forall k :: k in RowItem(headers, row) <==>
              exists j :: 0 <= j < |headers| && headers[j] != "" && HeaderKey(headers[j]) == k
  {
    var keys := ColumnKeys(headers);
    ItemKeys(keys, row);
    forall k
      ensures Some(k) in keys <==> exists j :: 0 <= j < |headers| && headers[j] != "" && HeaderKey(headers[j]) == k
    {
      if Some(k) in keys {
        var j :| 0 <= j < |keys| && keys[j] == Some(k);
        assert headers[j] != "" && HeaderKey(headers[j]) == k;
      }
      if exists j :: 0 <= j < |headers| && headers[j] != "" && HeaderKey(headers[j]) == k {
        var j :| 0 <= j < |headers| && headers[j] != "" && HeaderKey(headers[j]) == k;
        assert keys[j] == Some(k);
      }
    }
  }

  /** The column of a header whose key no later header repeats supplies the value under that key. */
  lemma RowItemLastWins(headers: seq<string>, row: seq<string>, j: int)
    requires 0 <= j < |headers| && headers[j] != ""
    requires forall i :: j < i < |headers| && headers[i] != "" ==> HeaderKey(headers[i]) != HeaderKey(headers[j])
    ensures HeaderKey(headers[j]) in RowItem(headers, row)
    ensures RowItem(headers, row)[HeaderKey(headers[j])] == CellAt(row, j)
  {
    var keys := ColumnKeys(headers);
    forall i | j < i < |keys|
      ensures keys[i] != keys[j]
    {
    }
    ItemLastWins(keys, row, j);
  }

  /** The item of one more column. */
  lemma ItemOfStep(keys: seq<Option<string>>, row: seq<string>, j: int)
    requires 0 <= j < |keys|
    ensures ItemOf(keys[..j + 1], row)
            == if keys[j].Some? then ItemOf(keys[..j], row)[keys[j].value := CellAt(row, j)] else ItemOf(keys[..j], row)
  {
    assert keys[..j + 1][..j] == keys[..j];
  }

  /** The inner loop of `xlsImport`: one row becomes one item, keyed by the non-empty headers. */
  method ImportRow(fields: seq<string>, row: seq<string>) returns (item: map<string, Option<string>>)
    ensures item == RowItem(fields, row)
  {
    ghost var keys := ColumnKeys(fields);
    item := map[];
    var j := 0;
    while j < |fields|
      invariant 0 <= j <= |fields|
      invariant item == ItemOf(keys[..j], row)
    {
      ItemOfStep(keys, row, j);
      if fields[j] != "" {
        item := item[HeaderKey(fields[j]) := CellAt(row, j)];
      }
      j := j + 1;
    }
    assert keys[..j] == keys;
  }

  /**
   * The mapping step of `xlsImport`: the first row holds the headers and
   * every later row becomes one item; a sheet without rows yields none.
   */
  method ImportItems(records: seq<seq<string>>) returns (items: seq<map<string, Option<string>>>)
    ensures records == [] ==> items == []
    ensures records != [] ==> |items| == |records| - 1
    ensures records != [] ==> forall i :: 0 <= i < |items| ==> items[i] == RowItem(records[0], records[i + 1])
  {
    items := [];
    if records == [] {
      return;
    }
    var fields := records[0];
    var rows := records[1..];
    var i := 0;
    while i < |rows|
      invariant 0 <= i <= |rows|
      invariant |items| == i
      invariant forall k :: 0 <= k < i ==> items[k] == RowItem(fields, rows[k])
    {
      var item := ImportRow(fields, rows[i]);
      items := items + [item];
      i := i + 1;
    }
  }

  /** The header "Contact\nPerson\nName" keeps its second line break: only the first one is replaced. */
  lemma OnlyFirstLineBreakReplaced(a: string, b: string, c: string)
    requires '\n' !in a
    ensures JsString.ReplaceFirst(a + "\n" + b + "\n" + c, '\n', ' ') == a + " " + b + "\n" + c
  {
    ReplaceFirstAfter(a, b + "\n" + c);
    assert a + "\n" + b + "\n" + c == a + "\n" + (b + "\n" + c);
    assert a + " " + (b + "\n" + c) == a + " " + b + "\n" + c;
  }

  lemma {:induction false} ReplaceFirstAfter(a: string, t: string)
    requires '\n' !in a
    ensures JsString.ReplaceFirst(a + "\n" + t, '\n', ' ') == a + " " + t
  {
    if a == [] {
      assert a + "\n" + t == ['\n'] + t;
    } else {
      ReplaceFirstAfter(a[1..], t);
      assert (a + "\n" + t)[1..] == a[1..] + "\n" + t;
      assert (a + "\n" + t)[0] == a[0];
      assert a + " " + t == [a[0]] + (a[1..] + " " + t);
    }
  }

  // ------------------------------------------------------------ exported sheets

  /** The start value of the range's lower bounds. */
  const Unset: int := 10000000

  /** The XLSX cell type: 'n' for numbers, 'b' for booleans, 's' for everything else. */
  function CellType(v: Value): (t: char)
    ensures t == 'n' <==> v.VNum?
    ensures t == 'b' <==> v.VBool?
    ensures t == 's' <==> !v.VNum? && !v.VBool?
  {
    match v
    case VNum(_) => 'n'
    case VBool(_) => 'b'
    case _ => 's'
  }

  datatype CellRef = CellRef(c: int, r: int)

  datatype Cell = Cell(v: Value, t: char)

  /** `{s: {c, r}, e: {c, r}}` */
  datatype Bounds = Bounds(sc: int, sr: int, ec: int, er: int)

  /** Some row has a cell. */
  predicate HasCells(data: seq<seq<Value>>) {
    exists r :: 0 <= r < |data| && |data[r]| > 0
  }

  /**
   * The inner loop of `getSheetFromArrayOfArrays` over one row: every
   * non-null value becomes a typed cell of that row, and a row with cells
   * lowers the start row and start column to it and raises the end row and
   * end column to it.
   */
  method SheetRow(cells: seq<Value>, row: int, ws: map<CellRef, Cell>, sc: int, sr: int, ec: int, er: int)
    returns (ws': map<CellRef, Cell>, sc': int, sr': int, ec': int, er': int)
    ensures forall c :: 0 <= c < |cells| && cells[c] != VNull ==>
              CellRef(c, row) in ws' && ws'[CellRef(c, row)] == Cell(cells[c], CellType(cells[c]))
    ensures forall k :: k in ws && k.r != row ==> k in ws' && ws'[k] == ws[k]
    ensures forall k :: k in ws' ==> k in ws || (k.r == row && 0 <= k.c < |cells| && cells[k.c] != VNull)
    ensures |cells| == 0 ==> sc' == sc && sr' == sr && ec' == ec && er' == er
    ensures |cells| > 0 ==>
              sc' == (if sc > 0 then 0 else sc) && sr' == (if sr > row then row else sr)
              && ec' == (if ec < |cells| - 1 then |cells| - 1 else ec) && er' == (if er < row then row else er)
  {
    ws', sc', sr', ec', er' := ws, sc, sr, ec, er;
    var col := 0;
    while col != |cells|
      invariant 0 <= col <= |cells|
      invariant forall c :: 0 <= c < col && cells[c] != VNull ==>
                  CellRef(c, row) in ws' && ws'[CellRef(c, row)] == Cell(cells[c], CellType(cells[c]))
      invariant forall k :: k in ws && k.r != row ==> k in ws' && ws'[k] == ws[k]
      invariant forall k :: k in ws' ==> k in ws || (k.r == row && 0 <= k.c < col && cells[k.c] != VNull)
      invariant col == 0 ==> sc' == sc && sr' == sr && ec' == ec && er' == er
      invariant col > 0 ==>
                  sc' == (if sc > 0 then 0 else sc) && sr' == (if sr > row then row else sr)
                  && ec' == (if ec < col - 1 then col - 1 else ec) && er' == (if er < row then row else er)
    {
      if sr' > row { sr' := row; }
      if sc' > col { sc' := col; }
      if er' < row { er' := row; }
      if ec' < col { ec' := col; }
      var v := cells[col];
      if v != VNull {
        ws' := ws'[CellRef(col, row) := Cell(v, CellType(v))];
      }
      col := col + 1;
    }
  }

  /**
   * `getSheetFromArrayOfArrays(data)`: one typed cell per non-null value; and
   * `'!ref'`, present exactly when some row has a cell, as the smallest box
   * that holds every cell position (null ones included): it starts at column
   * 0 and at the first row with cells (the start value 10000000 is kept for a
   * first such row beyond it), and ends at the last such row and the last
   * column of the longest row.
   */
  method SheetFromArrays(data: seq<seq<Value>>) returns (ws: map<CellRef, Cell>, ref: Option<Bounds>)
    ensures forall r, c :: 0 <= r < |data| && 0 <= c < |data[r]| && data[r][c] != VNull ==>
              CellRef(c, r) in ws && ws[CellRef(c, r)] == Cell(data[r][c], CellType(data[r][c]))
    ensures forall k :: k in ws ==> 0 <= k.r < |data| && 0 <= k.c < |data[k.r]| && data[k.r][k.c] != VNull
    ensures ref.Some? <==> HasCells(data)
    ensures ref.Some? ==> ref.value.sc == 0
    ensures ref.Some? ==> forall r :: 0 <= r < |data| && |data[r]| > 0 ==>
              ref.value.sr <= r <= ref.value.er && |data[r]| - 1 <= ref.value.ec
    ensures ref.Some? ==> ref.value.sr == Unset || (0 <= ref.value.sr < |data| && |data[ref.value.sr]| > 0)
    ensures ref.Some? ==> 0 <= ref.value.er < |data| && |data[ref.value.er]| > 0
    ensures ref.Some? ==> exists r :: 0 <= r < |data| && |data[r]| == ref.value.ec + 1
  {
    ws := map[];
    var sc, sr, ec, er := Unset, Unset, 0, 0;
    ghost var visited := false;
    ghost var widest := 0;
    var row := 0;
    while row != |data|
      invariant 0 <= row <= |data|
      invariant forall r, c :: 0 <= r < row && 0 <= c < |data[r]| && data[r][c] != VNull ==>
                  CellRef(c, r) in ws && ws[CellRef(c, r)] == Cell(data[r][c], CellType(data[r][c]))
      invariant forall k :: k in ws ==> 0 <= k.r < row && 0 <= k.c < |data[k.r]| && data[k.r][k.c] != VNull
      invariant visited <==> exists r :: 0 <= r < row && |data[r]| > 0
      invariant sc == if visited then 0 else Unset
      invariant !visited ==> sr == Unset && er == 0 && ec == 0
      invariant forall r :: 0 <= r < row && |data[r]| > 0 ==> sr <= r <= er && |data[r]| - 1 <= ec
      invariant visited ==> sr == Unset || (0 <= sr < row && |data[sr]| > 0)
      invariant visited ==> 0 <= er < row && |data[er]| > 0
      invariant visited ==> 0 <= widest < row && |data[widest]| == ec + 1
    {
      if |data[row]| > 0 && (!visited || ec < |data[row]| - 1) {
        widest := row;
      }
      ws, sc, sr, ec, er := SheetRow(data[row], row, ws, sc, sr, ec, er);
      if |data[row]| > 0 {
        visited := true;
      }
      row := row + 1;
    }
    if sc < Unset {
      ref := Some(Bounds(sc, sr, ec, er));
    } else {
      ref := None;
    }
  }
}

=== FILE: emailmessage.dfy ===
/**
 * The provider-independent e-mail message (lib/email/emailmessage.js): built
 * from a raw object with defaults, then extended with recipients, headers and
 * attachments. Reading an attached file is a parameter.
 */
module EmailMessage {
  import opened Wrappers
  import opened Records
  import JsString

  /** `{email, name}` */
  datatype Address = Address(email: string, name: Option<string>)

  datatype ReplyTo = ReplyTo(email: Option<string>, name: Option<string>)

  /**
   * A header object as callers pass it: `{name, value}`, `{key, value}` or a
   * pair `[0], [1]` (any property may be missing).
   */
  datatype Header = Header(name: Option<string>, key: Option<string>, value: Option<string>,
                           first: Option<string>, second: Option<string>)

  /** `{type, name, content}` with optional `disposition` and `contentId`. */
  datatype Attachment = Attachment(mimeType: Option<string>, name: Option<string>, content: string,
                                   disposition: Option<string>, contentId: Option<string>)

  /** The raw message object handed to the constructor; every property may be missing. */
  datatype RawMessage = RawMessage(
    from_email: Option<string>, fromEmail: Option<string>,
    from_name: Option<string>, fromName: Option<string>,
    replyTo: Option<ReplyTo>,
    to: Option<seq<Address>>, cc: Option<seq<Address>>, bcc: Option<seq<Address>>,
    html: Option<string>, text: Option<string>, subject: Option<string>,
    attachments: Option<seq<Attachment>>, headers: Option<seq<Header>>)

  /** The raw object `{}`. */
  const EmptyRaw: RawMessage :=
    RawMessage(None, None, None, None, None, None, None, None, None, None, None, None, None)

  /** `a || b` on optional strings: `a` when it is a non-empty string, `b` otherwise. */
  function OrElse(a: Option<string>, b: Option<string>): (r: Option<string>)
    ensures Present(a) ==> r == a
    ensures !Present(a) ==> r == b
  {
    if Present(a) then a else b
  }

  /** `a || null`: a non-empty string, or null. */
  function NonEmpty(a: Option<string>): (r: Option<string>)
    ensures r.Some? <==> Present(a)
    ensures r.Some? ==> r == a
  {
    if Present(a) then a else None
  }

  /** The properties of a message, as a value. */
  datatype MessageData = MessageData(
    fromEmail: Option<string>, fromName: Option<string>, replyTo: ReplyTo,
    to: seq<Address>, cc: seq<Address>, bcc: seq<Address>,
    html: Option<string>, text: Option<string>, subject: string,
    attachments: seq<Attachment>, headers: seq<Header>)

  /**
   * The properties of `new EmailMessage(message)`: the snake-case sender keys
   * win over the camel-case ones, missing lists become empty, missing or
   * empty html and text become null, a missing subject becomes '' and a
   * missing reply-to `{}`; a null message counts as `{}`.
   */
  function FromRaw(message: Option<RawMessage>): (d: MessageData)
    ensures message.None? ==> d == MessageData(None, None, ReplyTo(None, None), [], [], [], None, None, "", [], [])
    ensures message.Some? ==>
              var raw := message.value;
              (d.fromEmail == if Present(raw.from_email) then raw.from_email else raw.fromEmail)
              && (d.fromName == if Present(raw.from_name) then raw.from_name else raw.fromName)
              && (raw.replyTo.Some? ==> d.replyTo == raw.replyTo.value)
              && (raw.replyTo.None? ==> d.replyTo == ReplyTo(None, None))
              && (raw.to.Some? ==> d.to == raw.to.value) && (raw.to.None? ==> d.to == [])
              && (raw.cc.Some? ==> d.cc == raw.cc.value) && (raw.cc.None? ==> d.cc == [])
              && (raw.bcc.Some? ==> d.bcc == raw.bcc.value) && (raw.bcc.None? ==> d.bcc == [])
              && (raw.attachments.Some? ==> d.attachments == raw.attachments.value)
              && (raw.attachments.None? ==> d.attachments == [])
              && (raw.headers.Some? ==> d.headers == raw.headers.value)
              && (raw.headers.None? ==> d.headers == [])
              && (Present(raw.html) ==> d.html == raw.html) && (!Present(raw.html) ==> d.html.None?)
              && (Present(raw.text) ==> d.text == raw.text) && (!Present(raw.text) ==> d.text.None?)
              && (Present(raw.subject) ==> d.subject == raw.subject.value)
              && (!Present(raw.subject) ==> d.subject == "")
  {
    var raw := message.GetOr(EmptyRaw);
    MessageData(OrElse(raw.from_email, raw.fromEmail), OrElse(raw.from_name, raw.fromName),
                raw.replyTo.GetOr(ReplyTo(None, None)),
                raw.to.GetOr([]), raw.cc.GetOr([]), raw.bcc.GetOr([]),
                NonEmpty(raw.html), NonEmpty(raw.text),
                if Present(raw.subject) then raw.subject.value else "",
                raw.attachments.GetOr([]), raw.headers.GetOr([]))
  }

  /** What `this._logger.error(...)` throws on a message, which has no logger. */
  const MissingLogger: string := "TypeError: Cannot read property 'error' of undefined"

  /** The default MIME type of a file attachment. */
  const OctetStream: string := "application/octet-stream"

  /** The attachment `addFileAttachment` adds for a file whose base64 content is `content`. */
  function FileAttachment(filename: string, mimeType: Option<string>, name: Option<string>, content: string,
                          disposition: Option<string>, contentId: Option<string>): (r: Attachment)
    ensures r.mimeType == if Present(mimeType) then mimeType else Some(OctetStream)
    ensures r.name == if Present(name) then name else Some(JsString.Basename(filename))
    ensures r.name.Some? && r.mimeType.Some? && r.content == content
    ensures r.disposition == NonEmpty(disposition) && r.contentId == NonEmpty(contentId)
  {
    Attachment(Some(if Present(mimeType) then mimeType.value else OctetStream),
               Some(if Present(name) then name.value else JsString.Basename(filename)),
               content, NonEmpty(disposition), NonEmpty(contentId))
  }

  class EmailMessage {
    var fromEmail: Option<string>
    var fromName: Option<string>
    var replyTo: ReplyTo
    var to: seq<Address>
    var cc: seq<Address>
    var bcc: seq<Address>
    var html: Option<string>
    var text: Option<string>
    var subject: string
    var attachments: seq<Attachment>
    var headers: seq<Header>

    /** The message's properties as a value. */
    function Data(): MessageData
      reads this
    {
      MessageData(fromEmail, fromName, replyTo, to, cc, bcc, html, text, subject, attachments, headers)
    }

    /** The sender, reply-to, bodies and subject: what the `add*` methods leave alone. */
    function Envelope(): (Option<string>, Option<string>, ReplyTo, Option<string>, Option<string>, string)
      reads this
    {
      (fromEmail, fromName, replyTo, html, text, subject)
    }

    /** `new EmailMessage(message)`: the properties are the defaults `FromRaw` describes. */
    constructor (message: Option<RawMessage>)
      ensures Data() == FromRaw(message)
    {
      var raw := message.GetOr(EmptyRaw);
      fromEmail := OrElse(raw.from_email, raw.fromEmail);
      fromName := OrElse(raw.from_name, raw.fromName);
      replyTo := raw.replyTo.GetOr(ReplyTo(None, None));
      to := raw.to.GetOr([]);
      cc := raw.cc.GetOr([]);
      bcc := raw.bcc.GetOr([]);
      html := NonEmpty(raw.html);
      text := NonEmpty(raw.text);
      subject := if Present(raw.subject) then raw.subject.value else "";
      attachments := raw.attachments.GetOr([]);
      headers := raw.headers.GetOr([]);
    }

    /** `addTo`: one recipient appended unless the address is null. */
    method AddTo(email: Option<string>, name: Option<string>)
      modifies this
      ensures to == old(to) + if email.Some? then [Address(email.value, name)] else []
      ensures cc == old(cc) && bcc == old(bcc) && headers == old(headers) && attachments == old(attachments)
      ensures Envelope() == old(Envelope())
    {
      if email.Some? {
        to := to + [Address(email.value, name)];
      }
    }

    /** `addCC` */
    method AddCC(email: Option<string>, name: Option<string>)
      modifies this
      ensures cc == old(cc) + if email.Some? then [Address(email.value, name)] else []
      ensures to == old(to) && bcc == old(bcc) && headers == old(headers) && attachments == old(attachments)
      ensures Envelope() == old(Envelope())
    {
      if email.Some? {
        cc := cc + [Address(email.value, name)];
      }
    }

    /** `addBCC` */
    method AddBCC(email: Option<string>, name: Option<string>)
      modifies this
      ensures bcc == old(bcc) + if email.Some? then [Address(email.value, name)] else []
      ensures to == old(to) && cc == old(cc) && headers == old(headers) && attachments == old(attachments)
      ensures Envelope() == old(Envelope())
    {
      if email.Some? {
        bcc := bcc + [Address(email.value, name)];
      }
    }

    /** `addHeader`: appends a header unless it is null. */
    method AddHeader(header: Option<Header>)
      modifies this
      ensures headers == old(headers) + ToSeq(header)
      ensures to == old(to) && cc == old(cc) && bcc == old(bcc) && attachments == old(attachments)
      ensures Envelope() == old(Envelope())
    {
      if header.Some? {
        headers := headers + [header.value];
      }
    }

    /** `addAttachment`: always appends; disposition and content id are kept only when non-empty. */
    method AddAttachment(mimeType: Option<string>, name: Option<string>, content: string,
                         disposition: Option<string>, contentId: Option<string>)
      modifies this
      ensures attachments == old(attachments) + [Attachment(mimeType, name, content, NonEmpty(disposition), NonEmpty(contentId))]
      ensures to == old(to) && cc == old(cc) && bcc == old(bcc) && headers == old(headers)
      ensures Envelope() == old(Envelope())
    {
      var attachment := Attachment(mimeType, name, content, None, None);
      if Present(disposition) {
        attachment := attachment.(disposition := disposition);
      }
      if Present(contentId) {
        attachment := attachment.(contentId := contentId);
      }
      attachments := attachments + [attachment];
    }

    /**
     * `addFileAttachment` as its authors intended it: the MIME type defaults
     * to 'application/octet-stream' and the name to the file's base name; the
     * file's base64 content comes from `readFile`, and a file that cannot be
     * read adds nothing and yields false.
     */
    method AddFileAttachment(filename: string, mimeType: Option<string>, name: Option<string>,
                             disposition: Option<string>, contentId: Option<string>,
                             readFile: string -> Option<string>) returns (attached: bool)
      modifies this
      ensures attached <==> readFile(filename).Some?
      ensures attached ==> attachments == old(attachments) +
                              [FileAttachment(filename, mimeType, name, readFile(filename).value, disposition, contentId)]
      ensures !attached ==> attachments == old(attachments)
      ensures to == old(to) && cc == old(cc) && bcc == old(bcc) && headers == old(headers)
      ensures Envelope() == old(Envelope())
    {
      var theType := mimeType;
      if !Present(theType) {
        theType := Some(OctetStream);
      }
      var theName := name;
      if !Present(theName) {
        theName := Some(JsString.Basename(filename));
      }
      var content := readFile(filename);
      if content.None? {
        return false;
      }
      AddAttachment(theType, theName, content.value, disposition, contentId);
      return true;
    }

    /**
     * `addFileAttachment` as written: the message has no `_logger`, so the
     * handler of a failed read throws a TypeError where it means to log, and
     * the call never yields false.
     */
    method AddFileAttachmentAsWritten(filename: string, mimeType: Option<string>, name: Option<string>,
                                      disposition: Option<string>, contentId: Option<string>,
                                      readFile: string -> Option<string>) returns (r: Result<bool>)
      modifies this
      ensures readFile(filename).Some? ==> r == Ok(true)
      ensures readFile(filename).None? ==> r == Err(MissingLogger)
      ensures r != Ok(false)
      ensures readFile(filename).Some? ==>
                attachments == old(attachments) +
                               [FileAttachment(filename, mimeType, name, readFile(filename).value, disposition, contentId)]
      ensures readFile(filename).None? ==> attachments == old(attachments)
      ensures to == old(to) && cc == old(cc) && bcc == old(bcc) && headers == old(headers)
      ensures Envelope() == old(Envelope())
    {
      var attached := AddFileAttachment(filename, mimeType, name, disposition, contentId, readFile);
      if !attached {
        return Err(MissingLogger);
      }
      return Ok(true);
    }
  }
}

=== FILE: flashmessages.dfy ===
/**
 * One-shot messages kept in the session between two requests
 * (lib/flashmessages.js): a list under `session.dsc.msgs`, appended to with a
 * normalised type and read, by default, once.
 */
module FlashMessages {
  import opened Wrappers

  /** `FlashMessageType`: the type names the session stores. */
  const Info: string := "info"
  const Success: string := "success"
  const Error: string := "danger"
  const Warning: string := "warning"

  datatype FlashMessage = FlashMessage(text: string, msgType: string)

  predicate Known(t: string) {
    t == Info || t == Success || t == Error || t == Warning
  }

  /** The type stored for a requested one: an omitted type and any unknown type become INFO. */
  function NormaliseType(msgType: Option<string>): (r: string)
    ensures Known(r)
    ensures msgType.Some? && Known(msgType.value) ==> r == msgType.value
    ensures msgType.None? || !Known(msgType.value) ==> r == Info
  {
    match msgType
    case None => Info
    case Some(t) => if t == Warning || t == Success || t == Error then t else Info
  }

  /** Normalising is idempotent: a stored type is stored again unchanged. */
  lemma NormaliseTypeStable(msgType: Option<string>)
    ensures NormaliseType(Some(NormaliseType(msgType))) == NormaliseType(msgType)
  {
  }

  /**
   * The flash sink of one request. `hasRequest` is false for a sink built
   * without a request; `dsc` records whether the session's `dsc` namespace
   * exists and `msgs` is its message list (`None` while undefined).
   */
  class FlashMessages {
    const hasRequest: bool
    var dsc: bool
    var msgs: Option<seq<FlashMessage>>

    /** The list only ever lives inside the namespace. */
    predicate Valid()
      reads this
    {
      msgs.Some? ==> dsc
    }

    constructor (hasRequest: bool, dsc: bool, msgs: Option<seq<FlashMessage>>)
      requires msgs.Some? ==> dsc
      ensures Valid() && this.hasRequest == hasRequest && this.dsc == dsc && this.msgs == msgs
    {
      this.hasRequest := hasRequest;
      this.dsc := dsc;
      this.msgs := msgs;
    }

    /** The messages held, an undefined list counting as none. */
    function Stored(): (r: seq<FlashMessage>)
      reads this
      ensures msgs.Some? ==> r == msgs.value
      ensures msgs.None? ==> r == []
    {
      msgs.GetOr([])
    }

    /** `addMessage`: without a request nothing happens; otherwise exactly one message is appended, creating the list if needed. */
    method AddMessage(text: string, msgType: Option<string>)
      requires Valid()
      modifies this
      ensures Valid()
      ensures !hasRequest ==> dsc == old(dsc) && msgs == old(msgs)
      ensures hasRequest ==> dsc && msgs == Some(old(Stored()) + [FlashMessage(text, NormaliseType(msgType))])
    {
      if !hasRequest {
        return;
      }
      var t := if msgType.None? then Info else msgType.value;
      if !dsc {
        dsc := true;
      }
      if msgs.None? {
        msgs := Some([]);
      }
      if t == Warning || t == Success || t == Error {
        msgs := Some(msgs.value + [FlashMessage(text, t)]);
      } else {
        msgs := Some(msgs.value + [FlashMessage(text, Info)]);
      }
    }

    /**
     * `addMessages`, which the controllers call but lib/flashmessages.js does
     * not define: taken here to add each text, in order, with the one type.
     */
    method AddMessages(texts: Option<seq<string>>, msgType: Option<string>)
      requires Valid()
      modifies this
      ensures Valid()
      ensures !hasRequest || texts.None? || texts.value == [] ==> dsc == old(dsc) && msgs == old(msgs)
      ensures hasRequest && texts.Some? && texts.value != [] ==>
                dsc && msgs == Some(old(Stored()) + Tagged(texts.value, NormaliseType(msgType)))
    {
      if texts.None? {
        return;
      }
      var ts := texts.value;
      var i := 0;
      while i < |ts|
        invariant 0 <= i <= |ts|
        invariant Valid()
        invariant !hasRequest || i == 0 ==> dsc == old(dsc) && msgs == old(msgs)
        invariant hasRequest && i > 0 ==> dsc && msgs == Some(old(Stored()) + Tagged(ts[..i], NormaliseType(msgType)))
      {
        ghost var before := Tagged(ts[..i], NormaliseType(msgType));
        assert Tagged(ts[..i + 1], NormaliseType(msgType)) == before + [FlashMessage(ts[i], NormaliseType(msgType))];
        assert hasRequest ==> Stored() == old(Stored()) + before;
        AddMessage(ts[i], msgType);
        assert hasRequest ==> msgs.value == old(Stored()) + before + [FlashMessage(ts[i], NormaliseType(msgType))];
        assert hasRequest ==> msgs.value == old(Stored()) + Tagged(ts[..i + 1], NormaliseType(msgType));
        i := i + 1;
      }
      assert ts[..i] == ts;
    }

    /**
     * `getMessages(flush)`: null without a request or without a list;
     * otherwise the list, which is emptied unless `flush` is given and falsy.
     */
    method GetMessages(flush: Option<bool>) returns (r: Option<seq<FlashMessage>>)
      requires Valid()
      modifies this
      ensures Valid() && dsc == old(dsc)
      ensures !hasRequest || old(msgs).None? ==> r == None && msgs == old(msgs)
      ensures hasRequest && old(msgs).Some? ==> r == old(msgs)
      ensures hasRequest && old(msgs).Some? ==> msgs == if flush.GetOr(true) then Some([]) else old(msgs)
    {
      if !hasRequest {
        return None;
      }
      var doFlush := flush.GetOr(true);
      if !dsc {
        return None;
      }
      if msgs.None? {
        return None;
      }
      r := msgs;
      if doFlush {
        msgs := Some([]);
      }
    }
  }

  /** Each text with the same type. */
  function Tagged(texts: seq<string>, msgType: string): (r: seq<FlashMessage>)
    ensures |r| == |texts|
    ensures forall i :: 0 <= i < |r| ==> r[i] == FlashMessage(texts[i], msgType)
  {
    seq(|texts|, i requires 0 <= i < |texts| => FlashMessage(texts[i], msgType))
  }

  /**
   * The workflow of the library's own flash test, on a session with no
   * namespace yet: one SUCCESS message is read without flushing, a second
   * message makes two which are flushed, a second read gives none, and the
   * same again after adding two at once. Returns the lengths it reads.
   * The library defines no `addMessages`, so its test stops with a
   * TypeError at that step; here the last two reads run against the
   * stub `AddMessages`.
   */
  method FlashWorkflow() returns (lengths: seq<int>)
    ensures lengths == [1, 2, 0, 2, 0]
  {
    var flash := new FlashMessages(true, false, None);
    flash.AddMessage("First test Message!", Some(Success));
    var first := flash.GetMessages(Some(false));
    flash.AddMessage("Second test Message!", Some(Info));
    var second := flash.GetMessages(None);
    var third := flash.GetMessages(None);
    flash.AddMessages(Some(["First test Message!", "Second test Message!"]), Some(Error));
    var fourth := flash.GetMessages(None);
    var fifth := flash.GetMessages(None);
    lengths := [|first.value|, |second.value|, |third.value|, |fourth.value|, |fifth.value|];
  }
}

=== FILE: httpserver.dfy ===
/**
 * Reading a routes table (`loadRoutesFromFile` in lib/httpserver.js): each
 * key `"methods|url"` names a comma-separated list of HTTP methods and a URL,
 * and registers the controller once per method. Resolving and loading the
 * controller file is not modelled; the controller is kept by name.
 */
module HttpServer {
  import opened Wrappers
  import JsString

  /** A parsed route key: the lower-cased methods, in order, and the URL. */
  datatype RouteSpec = RouteSpec(methods: seq<string>, url: string)

  /** One handler registration `application[method](url, controller)`. */
  datatype Registration = Registration(httpMethod: string, url: string, controller: string)

  /** The routes table as an ordered list of (key, controller) pairs. */
  datatype Route = Route(key: string, controller: string)

  /** `split('|', 2)`, then lower-case and split the method list on ','; `None` for a key without two parts. */
  function ParseRouteKey(key: string): (r: Option<RouteSpec>)
    ensures r.Some? ==> |r.value.methods| >= 1
  {
    var details := JsString.SplitLimit(key, '|', 2);
    if |details| != 2 then None
    else Some(RouteSpec(JsString.Split(JsString.ToLower(details[0]), ','), details[1]))
  }

  /** The registrations one route makes: one per listed method, in order; none for an invalid key. */
  function RouteRegistrations(route: Route): (r: seq<Registration>)
  {
    match ParseRouteKey(route.key)
    case None => []
    case Some(spec) => MethodRegistrations(spec.methods, spec.url, route.controller)
  }

  /** One registration of the URL per method, in the order of the methods. */
  function MethodRegistrations(methods: seq<string>, url: string, controller: string): (r: seq<Registration>)
    ensures |r| == |methods|
    ensures forall i :: 0 <= i < |r| ==> r[i] == Registration(methods[i], url, controller)
  {
    if methods == [] then []
    else MethodRegistrations(methods[..|methods| - 1], url, controller) + [Registration(methods[|methods| - 1], url, controller)]
  }

  /** The registrations of a whole table, route after route. */
  function TableRegistrations(routes: seq<Route>): seq<Registration>
  {
    if routes == [] then [] else TableRegistrations(routes[..|routes| - 1]) + RouteRegistrations(routes[|routes| - 1])
  }

  /** The warning one route logs: one for an invalid key, none otherwise. */
  function RouteWarnings(route: Route): seq<string>
  {
    if ParseRouteKey(route.key).None? then ["Invalid route: " + route.key] else []
  }

  /** The warnings of a whole table, in order. */
  function InvalidKeys(routes: seq<Route>): seq<string>
  {
    if routes == [] then [] else InvalidKeys(routes[..|routes| - 1]) + RouteWarnings(routes[|routes| - 1])
  }

  /** The application's routing table and the warnings logged while filling it. */
  class HttpServer {
    var registered: seq<Registration>
    var warnings: seq<string>

    constructor ()
      ensures registered == [] && warnings == []
    {
      registered := [];
      warnings := [];
    }

    /** The registration loops of `loadRoutesFromFile`, route by route. */
    method LoadRoutes(routes: seq<Route>)
      modifies this
      ensures registered == old(registered) + TableRegistrations(routes)
      ensures warnings == old(warnings) + InvalidKeys(routes)
    {
      var regs, warns := [], [];
      var k := 0;
      while k < |routes|
        invariant 0 <= k <= |routes|
        invariant regs == TableRegistrations(routes[..k])
        invariant warns == InvalidKeys(routes[..k])
        invariant registered == old(registered) && warnings == old(warnings)
      {
        TableStep(routes, k);
        var routeRegs, routeWarns := LoadRoute(routes[k]);
        regs, warns := regs + routeRegs, warns + routeWarns;
        k := k + 1;
      }
      assert routes[..k] == routes;
      registered := registered + regs;
      warnings := warnings + warns;
    }
  }

  /** One entry of the table: a warning for a key without two parts, otherwise one registration per listed method. */
  method LoadRoute(route: Route) returns (regs: seq<Registration>, warns: seq<string>)
    ensures regs == RouteRegistrations(route)
    ensures warns == RouteWarnings(route)
  {
    var details := JsString.SplitLimit(route.key, '|', 2);
    if |details| != 2 {
      return [], ["Invalid route: " + route.key];
    }
    var httpMethods := JsString.Split(JsString.ToLower(details[0]), ',');
    var routeUrl := details[1];
    regs, warns := [], [];
    var i := 0;
    while i < |httpMethods|
      invariant 0 <= i <= |httpMethods|
      invariant regs == MethodRegistrations(httpMethods[..i], routeUrl, route.controller)
    {
      assert httpMethods[..i + 1][..i] == httpMethods[..i];
      regs := regs + [Registration(httpMethods[i], routeUrl, route.controller)];
      i := i + 1;
    }
    assert httpMethods[..i] == httpMethods;
  }

  /** Extending the table by one route extends its registrations and warnings by that route's. */
  lemma TableStep(routes: seq<Route>, k: int)
    requires 0 <= k < |routes|
    ensures TableRegistrations(routes[..k + 1]) == TableRegistrations(routes[..k]) + RouteRegistrations(routes[k])
    ensures InvalidKeys(routes[..k + 1]) == InvalidKeys(routes[..k]) + RouteWarnings(routes[k])
  {
    assert routes[..k + 1][..k] == routes[..k];
  }

  // ------------------------------------------------------------ properties

  /** A key is accepted exactly when it contains '|'. */
  lemma RouteKeyValid(key: string)
    ensures ParseRouteKey(key).Some? <==> '|' in key
  {
    JsString.SplitSeveral(key, '|');
  }

  /**
   * For a key `m|u`: the methods are the lower-cased `m` split on ',', and the
   * URL is `u` up to any further '|' (the rest is dropped).
   */
  lemma RouteKeyParts(m: string, u: string)
    requires '|' !in m
    ensures ParseRouteKey(m + "|" + u) ==
              Some(RouteSpec(JsString.Split(JsString.ToLower(m), ','), JsString.Split(u, '|')[0]))
  {
    JsString.SplitPrefix(m, u, '|');
    assert m + "|" + u == m + ['|'] + u;
  }

  /**
   * A key `a,b|u` with lower-case method names registers `u` for `a` and then
   * for `b`; the example application's 'get,post|/examples/:action' is one.
   */
  lemma TwoMethodRoute(a: string, b: string, u: string, controller: string)
    requires ',' !in a && ',' !in b && '|' !in a && '|' !in b && '|' !in u
    requires JsString.ToLower(a + "," + b) == a + "," + b
    ensures RouteRegistrations(Route(a + "," + b + "|" + u, controller)) ==
              [Registration(a, u, controller), Registration(b, u, controller)]
  {
    var m := a + "," + b;
    assert m + "|" + u == a + "," + b + "|" + u;
    RouteKeyParts(m, u);
    JsString.SplitNoSep(u, '|');
    JsString.SplitJoin([a, b], ',');
    assert JsString.Join([a, b], ',') == m;
  }
}

=== FILE: jsstring.dfy ===
/**
 * The JavaScript string and number builtins the library relies on, written out:
 * case mapping, `trim`, `split` on one character, `parseInt(s, 10)`, number to
 * decimal string, `replace` of a first occurrence, `path.basename` and
 * `encodeURIComponent`.
 */
module JsString {
  import opened Wrappers

  // ---------------------------------------------------------------- case

  /** `toLowerCase` on one character; only ASCII letters change case in this model. */
  function LowerChar(c: char): char {
    if 'A' <= c <= 'Z' then (c as int + 32) as char else c
  }

  /** `toUpperCase` on one character; only ASCII letters change case in this model. */
  function UpperChar(c: char): char {
    if 'a' <= c <= 'z' then (c as int - 32) as char else c
  }

  function ToLower(s: string): (r: string)
    ensures |r| == |s| && forall i :: 0 <= i < |s| ==> r[i] == LowerChar(s[i])
  {
    if s == [] then [] else [LowerChar(s[0])] + ToLower(s[1..])
  }

  function ToUpper(s: string): (r: string)
    ensures |r| == |s| && forall i :: 0 <= i < |s| ==> r[i] == UpperChar(s[i])
  {
    if s == [] then [] else [UpperChar(s[0])] + ToUpper(s[1..])
  }

  /** Upper-casing forgets an earlier lower-casing: both spellings of a name upper-case alike. */
  lemma ToUpperOfToLower(s: string)
    ensures ToUpper(ToLower(s)) == ToUpper(s)
  {
    assert forall i :: 0 <= i < |s| ==> UpperChar(LowerChar(s[i])) == UpperChar(s[i]);
  }

  // ---------------------------------------------------------------- trim

  /** The characters `String.prototype.trim` removes: white space and line terminators. */
  predicate IsWhitespace(c: char) {
    c in {' ', '\t', '\n', '\r', '\U{000B}', '\U{000C}', '\U{00A0}', '\U{FEFF}', '\U{1680}',
          '\U{2028}', '\U{2029}', '\U{202F}', '\U{205F}', '\U{3000}'}
    || '\U{2000}' <= c <= '\U{200A}'
  }

  function TrimStart(s: string): (r: string)
    ensures |r| <= |s| && r == s[|s| - |r|..]
    ensures r == [] || !IsWhitespace(r[0])
    ensures forall i :: 0 <= i < |s| - |r| ==> IsWhitespace(s[i])
  {
    if s != [] && IsWhitespace(s[0]) then TrimStart(s[1..]) else s
  }

  function TrimEnd(s: string): (r: string)
    ensures |r| <= |s| && r == s[..|r|]
    ensures r == [] || !IsWhitespace(r[|r| - 1])
    ensures forall i :: |r| <= i < |s| ==> IsWhitespace(s[i])
  {
    if s != [] && IsWhitespace(s[|s| - 1]) then TrimEnd(s[..|s| - 1]) else s
  }

  /** `s.trim()`: the longest infix that starts and ends with a non-white-space character. */
  function Trim(s: string): string {
    TrimEnd(TrimStart(s))
  }

  // ---------------------------------------------------------------- split and join

  /** `s.split(sep)` for a one-character separator. */
  function Split(s: string, sep: char): (r: seq<string>)
    ensures |r| >= 1
    ensures forall k :: 0 <= k < |r| ==> sep !in r[k]
  {
    if s == [] then [""]
    else
      var rest := Split(s[1..], sep);
      if s[0] == sep then [""] + rest else [[s[0]] + rest[0]] + rest[1..]
  }

  /** `parts.join(sep)` for a one-character separator. */
  function Join(parts: seq<string>, sep: char): string
    requires |parts| >= 1
  {
    if |parts| == 1 then parts[0] else parts[0] + [sep] + Join(parts[1..], sep)
  }

  /** Joining the pieces of a split gives the original string back. */
  lemma {:induction false} JoinSplit(s: string, sep: char)
    ensures Join(Split(s, sep), sep) == s
  {
    if s != [] {
      JoinSplit(s[1..], sep);
      var rest := Split(s[1..], sep);
      if s[0] != sep {
        if |rest| > 1 {
          assert Join(Split(s, sep), sep) == [s[0]] + rest[0] + [sep] + Join(rest[1..], sep);
        }
      }
    }
  }

  /** Splitting a join of separator-free pieces gives the pieces back. */
  lemma {:induction false} SplitJoin(parts: seq<string>, sep: char)
    requires |parts| >= 1
    requires forall k :: 0 <= k < |parts| ==> sep !in parts[k]
    ensures Split(Join(parts, sep), sep) == parts
  {
    if |parts| == 1 {
      SplitNoSep(parts[0], sep);
    } else {
      SplitJoin(parts[1..], sep);
      SplitPrefix(parts[0], Join(parts[1..], sep), sep);
      assert Join(parts, sep) == parts[0] + ([sep] + Join(parts[1..], sep));
    }
  }

  lemma {:induction false} SplitNoSep(s: string, sep: char)
    requires sep !in s
    ensures Split(s, sep) == [s]
  {
    if s != [] {
      SplitNoSep(s[1..], sep);
      assert [s[0]] + s[1..] == s;
    }
  }

  /** A separator-free prefix followed by the separator is the first piece. */
  lemma {:induction false} SplitPrefix(p: string, t: string, sep: char)
    requires sep !in p
    ensures Split(p + [sep] + t, sep) == [p] + Split(t, sep)
  {
    if p == [] {
      assert [sep] + t == p + [sep] + t;
    } else {
      SplitPrefix(p[1..], t, sep);
      var whole := p + [sep] + t;
      assert whole[0] == p[0] && whole[1..] == p[1..] + [sep] + t;
      assert [p[0]] + p[1..] == p;
    }
  }

  /** A string splits into several pieces exactly when it holds the separator. */
  lemma {:induction false} SplitSeveral(s: string, sep: char)
    ensures sep in s <==> |Split(s, sep)| >= 2
  {
    if s != [] {
      SplitSeveral(s[1..], sep);
      assert sep in s <==> s[0] == sep || sep in s[1..];
    }
  }

  /** `s.split(sep, limit)`: the first `limit` pieces of the full split. */
  function SplitLimit(s: string, sep: char, limit: nat): (r: seq<string>)
    ensures |r| <= limit
  {
    var all := Split(s, sep);
    if |all| <= limit then all else all[..limit]
  }

  // ---------------------------------------------------------------- numbers

  predicate IsDigit(c: char) {
    '0' <= c <= '9'
  }

  function DigitChar(d: nat): (c: char)
    requires d < 10
    ensures IsDigit(c)
  {
    ('0' as int + d) as char
  }

  function DigitValue(c: char): nat
    requires IsDigit(c)
  {
    c as int - '0' as int
  }

  /** The decimal form JavaScript prints for a non-negative integer. */
  function NatToString(n: nat): (r: string)
    ensures |r| >= 1 && forall i :: 0 <= i < |r| ==> IsDigit(r[i])
  {
    if n < 10 then [DigitChar(n)] else NatToString(n / 10) + [DigitChar(n % 10)]
  }

  /** The decimal form JavaScript prints for an integer (`"" + n`). */
  function IntToString(n: int): string {
    if n < 0 then "-" + NatToString(-n) else NatToString(n)
  }

  /** The leading run of decimal digits. */
  function DigitPrefix(s: string): (r: string)
    ensures r <= s && forall i :: 0 <= i < |r| ==> IsDigit(r[i])
    ensures |r| < |s| ==> !IsDigit(s[|r|])
  {
    if s != [] && IsDigit(s[0]) then [s[0]] + DigitPrefix(s[1..]) else []
  }

  function DigitsValue(ds: string): nat
    requires forall i :: 0 <= i < |ds| ==> IsDigit(ds[i])
  {
    if ds == [] then 0 else DigitsValue(ds[..|ds| - 1]) * 10 + DigitValue(ds[|ds| - 1])
  }

  /**
   * `parseInt(s, 10)`: skip leading white space, read an optional sign and the
   * longest run of digits after it; `None` stands for `NaN` (no digit at all).
   */
  function ParseInt(s: string): Option<int> {
    var t := TrimStart(s);
    var negative := |t| > 0 && t[0] == '-';
    var body := if |t| > 0 && (t[0] == '-' || t[0] == '+') then t[1..] else t;
    var ds := DigitPrefix(body);
    if ds == [] then None
    else
      var magnitude: int := DigitsValue(ds);
      Some(if negative then -magnitude else magnitude)
  }

  lemma {:induction false} DigitsValueOfNat(n: nat)
    ensures DigitsValue(NatToString(n)) == n
  {
    var s := NatToString(n);
    if n >= 10 {
      DigitsValueOfNat(n / 10);
      assert s[..|s| - 1] == NatToString(n / 10);
    }
  }

  lemma {:induction false} DigitPrefixOfDigits(s: string)
    requires forall i :: 0 <= i < |s| ==> IsDigit(s[i])
    ensures DigitPrefix(s) == s
  {
    if s != [] {
      DigitPrefixOfDigits(s[1..]);
      assert [s[0]] + s[1..] == s;
    }
  }

  /** A sign or a digit is not white space, so `parseInt` does not skip it. */
  lemma NotWhitespace(c: char)
    requires c == '-' || IsDigit(c)
    ensures !IsWhitespace(c)
  {
  }

  /** `parseInt` reads back every integer JavaScript prints. */
  lemma {:induction false} ParseIntOfIntToString(n: int)
    ensures ParseInt(IntToString(n)) == Some(n)
  {
    var m: nat := if n < 0 then -n else n;
    var digits := NatToString(m);
    DigitPrefixOfDigits(digits);
    DigitsValueOfNat(m);
    var t := IntToString(n);
    NotWhitespace(t[0]);
    assert TrimStart(t) == t;
    if n < 0 {
      assert t[0] == '-' && t[1..] == digits;
    } else {
      assert t == digits && t[0] != '-' && t[0] != '+';
    }
  }

  // ---------------------------------------------------------------- replace and paths

  /** `s.replace(c, d)` with a one-character string pattern: only the first occurrence changes. */
  function ReplaceFirst(s: string, c: char, d: char): (r: string)
    ensures |r| == |s|
  {
    if s == [] then []
    else if s[0] == c then [d] + s[1..]
    else [s[0]] + ReplaceFirst(s[1..], c, d)
  }

  /** `path.basename(p)` on POSIX paths: trailing slashes dropped, then what follows the last slash. */
  function Basename(p: string): (r: string)
    ensures '/' !in r
  {
    var q := DropTrailing(p, '/');
    AfterLast(q, '/')
  }

  function DropTrailing(s: string, c: char): string {
    if s != [] && s[|s| - 1] == c then DropTrailing(s[..|s| - 1], c) else s
  }

  function AfterLast(s: string, c: char): (r: string)
    ensures c !in r && |r| <= |s| && r == s[|s| - |r|..]
  {
    if s == [] then []
    else if s[|s| - 1] == c then []
    else AfterLast(s[..|s| - 1], c) + [s[|s| - 1]]
  }

  // ---------------------------------------------------------------- encodeURIComponent

  /** The characters `encodeURIComponent` leaves as they are. */
  predicate Unreserved(c: char) {
    'A' <= c <= 'Z' || 'a' <= c <= 'z' || '0' <= c <= '9'
    || c in {'-', '_', '.', '!', '~', '*', '\'', '(', ')'}
  }

  function HexDigit(d: nat): (c: char)
    requires d < 16
    ensures Unreserved(c)
  {
    if d < 10 then ('0' as int + d) as char else ('A' as int + d - 10) as char
  }

  /** The UTF-8 bytes of a Unicode scalar value. */
  function Utf8(cp: nat): (bytes: seq<nat>)
    requires cp < 0x11_0000
    ensures 1 <= |bytes| <= 4 && forall i :: 0 <= i < |bytes| ==> bytes[i] < 256
  {
    if cp < 0x80 then [cp]
    else if cp < 0x800 then [0xC0 + cp / 64, 0x80 + cp % 64]
    else if cp < 0x1_0000 then [0xE0 + cp / 4096, 0x80 + (cp / 64) % 64, 0x80 + cp % 64]
    else [0xF0 + cp / 262144, 0x80 + (cp / 4096) % 64, 0x80 + (cp / 64) % 64, 0x80 + cp % 64]
  }

  function Percents(bytes: seq<nat>): string
    requires forall i :: 0 <= i < |bytes| ==> bytes[i] < 256
  {
    if bytes == [] then []
    else ['%', HexDigit(bytes[0] / 16), HexDigit(bytes[0] % 16)] + Percents(bytes[1..])
  }

  function EncodeChar(c: char): string {
    if Unreserved(c) then [c] else Percents(Utf8(c as int))
  }

  /** `encodeURIComponent(s)`. */
  function EncodeUriComponent(s: string): string {
    if s == [] then [] else EncodeChar(s[0]) + EncodeUriComponent(s[1..])
  }

  /** What may appear in an encoded component: never `&`, `=`, `?`, `/`, `[` or `]`. */
  predicate UriSafe(c: char) {
    Unreserved(c) || c == '%'
  }

  lemma {:induction false} PercentsSafe(bytes: seq<nat>)
    requires forall i :: 0 <= i < |bytes| ==> bytes[i] < 256
    ensures forall i :: 0 <= i < |Percents(bytes)| ==> UriSafe(Percents(bytes)[i])
  {
    if bytes != [] {
      PercentsSafe(bytes[1..]);
    }
  }

  /** An encoded component cannot break the query string it is placed in. */
  lemma {:induction false} EncodeUriComponentSafe(s: string)
    ensures forall i :: 0 <= i < |EncodeUriComponent(s)| ==> UriSafe(EncodeUriComponent(s)[i])
  {
    if s != [] {
      EncodeUriComponentSafe(s[1..]);
      if !Unreserved(s[0]) {
        PercentsSafe(Utf8(s[0] as int));
      }
    }
  }

  /** A string made of unreserved characters is encoded as itself. */
  lemma {:induction false} EncodeUriComponentUnreserved(s: string)
    requires forall i :: 0 <= i < |s| ==> Unreserved(s[i])
    ensures EncodeUriComponent(s) == s
  {
    if s != [] {
      EncodeUriComponentUnreserved(s[1..]);
    }
  }
}

=== FILE: listquery.dfy ===
/**
 * The query a filtered list page sends to the database (`getListFiltered` in
 * lib/mongoosemodel.js): a search condition over the searchable fields, a sort
 * entry and the skip/limit window of the current page. Only the SHAPE of the
 * query is modelled; how the database evaluates a regular expression is a
 * parameter (`matches`) of the selection semantics below.
 */
module ListQuery {
  import opened Wrappers
  import opened Records
  import JsString

  /** `filters.search`: the fields to search and the text typed by the user. */
  datatype Search = Search(searchFields: seq<string>, searchValue: Option<string>)

  datatype Filters = Filters(search: Option<Search>)

  datatype Sorting = Sorting(field: Option<string>, order: Option<string>)

  /** A regular expression literal: its pattern and its flags. */
  datatype Regex = Regex(pattern: string, flags: string)

  /** `{ field: { $regex: re } }` */
  datatype Condition = Condition(field: string, regex: Regex)

  /** The selector: `{}`, a single field condition, or `{ $or: [...] }`. */
  datatype MongoFilter = MatchAll | Single(cond: Condition) | AnyOf(conds: seq<Condition>)

  /** The sort document: `{}` or `{ field: order }`. */
  datatype MongoSort = Unsorted | SortBy(field: string, order: string)

  /** `.limit(limit).skip(skip)` of the page fetch. */
  datatype FetchWindow = FetchWindow(limit: int, skip: int)

  /** A search is applied when the search object, a non-empty value and at least one field are all given. */
  predicate Searching(filters: Filters) {
    filters.search.Some? && Present(filters.search.value.searchValue)
    && |filters.search.value.searchFields| > 0
  }

  /** The case-insensitive "contains" expression built from the trimmed search text. */
  function SearchRegex(value: string): (r: Regex)
    ensures |r.pattern| == |JsString.Trim(value)| + 4
    ensures r.pattern[..2] == ".*" && r.pattern[2..|r.pattern| - 2] == JsString.Trim(value)
    ensures r.pattern[|r.pattern| - 2..] == ".*" && r.flags == "gi"
  {
    Regex(".*" + JsString.Trim(value) + ".*", "gi")
  }

  /**
   * `new RegExp(...)` throws a SyntaxError, before anything is counted or
   * fetched, when the search is applied and the trimmed text does not make
   * a valid pattern ("(", "C++", "*x"). Which patterns are valid is the
   * regular expression grammar, the parameter `validPattern` here.
   */
  predicate SearchThrows(filters: Filters, validPattern: string -> bool) {
    Searching(filters) && !validPattern(SearchRegex(filters.search.value.searchValue.value).pattern)
  }

  function SearchFilter(filters: Filters): (r: MongoFilter)
  {
    if !Searching(filters) then MatchAll
    else
      var search := filters.search.value;
      var re := SearchRegex(search.searchValue.value);
      if |search.searchFields| > 1 then
        AnyOf(seq(|search.searchFields|, i requires 0 <= i < |search.searchFields| =>
                    Condition(search.searchFields[i], re)))
      else
        Single(Condition(search.searchFields[0], re))
  }

  /** `['asc', 'desc'].indexOf(order) > -1 ? order : 'asc'` */
  function NormaliseOrder(order: string): (r: string)
    ensures r == "asc" || r == "desc"
    ensures (order == "asc" || order == "desc") ==> r == order
    ensures (order != "asc" && order != "desc") ==> r == "asc"
  {
    if order == "asc" || order == "desc" then order else "asc"
  }

  function SortEntry(sorting: Sorting): (r: MongoSort)
    ensures r.SortBy? <==> Present(sorting.field) && Present(sorting.order)
    ensures r.SortBy? ==> r.field == sorting.field.value && r.order == NormaliseOrder(sorting.order.value)
  {
    if Present(sorting.field) && Present(sorting.order) then
      SortBy(sorting.field.value, NormaliseOrder(sorting.order.value))
    else
      Unsorted
  }

  function Window(currentPage: int, pageSize: int): (r: FetchWindow)
  {
    FetchWindow(pageSize, pageSize * (currentPage - 1))
  }

  /** The query as a whole. */
  datatype Query = Query(filter: MongoFilter, sort: MongoSort, window: FetchWindow)

  function BuildQuery(filters: Filters, sorting: Sorting, currentPage: int, pageSize: int): Query {
    Query(SearchFilter(filters), SortEntry(sorting), Window(currentPage, pageSize))
  }

  // ------------------------------------------------------------ semantics

  /** A field condition holds for a document whose field exists and matches the expression. */
  predicate Holds(c: Condition, doc: map<string, Value>, matches: (Regex, Value) -> bool) {
    c.field in doc && matches(c.regex, doc[c.field])
  }

  /** Which documents a selector admits, given how the database matches one expression against one value. */
  predicate Selects(f: MongoFilter, doc: map<string, Value>, matches: (Regex, Value) -> bool) {
    match f
    case MatchAll => true
    case Single(c) => Holds(c, doc, matches)
    case AnyOf(cs) => exists i :: 0 <= i < |cs| && Holds(cs[i], doc, matches)
  }

  // ------------------------------------------------------------ properties

  /**
   * Without a search there is no condition; one field gives a single
   * condition; several give an `$or` with one condition per field, in order,
   * all carrying the expression of the trimmed value.
   */
  lemma SearchFilterShape(filters: Filters)
    ensures SearchFilter(filters) == MatchAll <==> !Searching(filters)
    ensures SearchFilter(filters).Single? <==> Searching(filters) && |filters.search.value.searchFields| == 1
    ensures SearchFilter(filters).Single? ==>
              SearchFilter(filters).cond ==
              Condition(filters.search.value.searchFields[0], SearchRegex(filters.search.value.searchValue.value))
    ensures SearchFilter(filters).AnyOf? <==> Searching(filters) && |filters.search.value.searchFields| > 1
    ensures SearchFilter(filters).AnyOf? ==>
              var fields := filters.search.value.searchFields;
              var cs := SearchFilter(filters).conds;
              |cs| == |fields|
              && forall i :: 0 <= i < |cs| ==>
                   cs[i] == Condition(fields[i], SearchRegex(filters.search.value.searchValue.value))
  {
  }

  /**
   * Whatever the number of fields, the search admits exactly the documents in
   * which at least one searched field matches the expression.
   */
  lemma SearchSelectsSomeField(filters: Filters, doc: map<string, Value>, matches: (Regex, Value) -> bool)
    requires Searching(filters)
    ensures var fields := filters.search.value.searchFields;
            var re := SearchRegex(filters.search.value.searchValue.value);
            Selects(SearchFilter(filters), doc, matches) <==>
              exists i :: 0 <= i < |fields| && fields[i] in doc && matches(re, doc[fields[i]])
  {
    var fields := filters.search.value.searchFields;
    var re := SearchRegex(filters.search.value.searchValue.value);
    if |fields| > 1 {
      var cs := SearchFilter(filters).conds;
      if Selects(SearchFilter(filters), doc, matches) {
        var i :| 0 <= i < |cs| && Holds(cs[i], doc, matches);
        assert fields[i] in doc && matches(re, doc[fields[i]]);
      }
      if exists i :: 0 <= i < |fields| && fields[i] in doc && matches(re, doc[fields[i]]) {
        var i :| 0 <= i < |fields| && fields[i] in doc && matches(re, doc[fields[i]]);
        assert Holds(cs[i], doc, matches);
      }
    } else {
      if exists i :: 0 <= i < |fields| && fields[i] in doc && matches(re, doc[fields[i]]) {
        var i :| 0 <= i < |fields| && fields[i] in doc && matches(re, doc[fields[i]]);
        assert i == 0;
      }
    }
  }

  /** Page 1 starts at the first document, and each page's window starts where the previous one ends. */
  lemma WindowsTile(currentPage: int, pageSize: int)
    ensures Window(1, pageSize).skip == 0
    ensures Window(currentPage + 1, pageSize).skip == Window(currentPage, pageSize).skip + Window(currentPage, pageSize).limit
    ensures Window(currentPage, pageSize).limit == pageSize
  {
    assert pageSize * currentPage == pageSize * (currentPage - 1) + pageSize;
  }
}

=== FILE: messaging.dfy ===
/**
 * Choosing and caching the e-mail provider (`EmailFactory` in
 * lib/messaging.js): the type name is matched without regard to case, and one
 * provider instance is kept per type name exactly as it was spelled.
 */
module Messaging {
  import opened Wrappers
  import JsString

  /** `EmailProviderType` */
  const Sendgrid: string := "SENDGRID"
  const Mandrill: string := "MANDRILL"

  datatype ProviderClass = SendgridProvider | MandrillProvider

  /** `providerClass(type)`: selected by the upper-cased type; any other type throws. */
  function ProviderClassOf(providerType: string): (r: Result<ProviderClass>)
    ensures r == Ok(SendgridProvider) <==> JsString.ToUpper(providerType) == Sendgrid
    ensures r == Ok(MandrillProvider) <==> JsString.ToUpper(providerType) == Mandrill
    ensures r.Err? <==> JsString.ToUpper(providerType) != Sendgrid && JsString.ToUpper(providerType) != Mandrill
    ensures r.Err? ==> r.message == "## MAILER ERROR # Provider for type " + JsString.ToUpper(providerType) + " is not defined"
  {
    var upper := JsString.ToUpper(providerType);
    if upper == Sendgrid then Ok(SendgridProvider)
    else if upper == Mandrill then Ok(MandrillProvider)
    else Err("## MAILER ERROR # Provider for type " + upper + " is not defined")
  }

  /** Two spellings that differ only in case select the same class. */
  lemma ProviderClassIgnoresCase(providerType: string)
    ensures ProviderClassOf(JsString.ToLower(providerType)) == ProviderClassOf(providerType)
  {
    JsString.ToUpperOfToLower(providerType);
  }

  /** One provider instance (its transport is not modelled). */
  class Provider {
    const kind: ProviderClass

    constructor (kind: ProviderClass)
      ensures this.kind == kind
    {
      this.kind := kind;
    }
  }

  /** The factory and its process-wide `_providersCache`. */
  class EmailFactory {
    var cache: map<string, Provider>

    /** Every cached instance is of the class its key selects. */
    predicate Valid()
      reads this, cache.Values
    {
      forall k :: k in cache ==> ProviderClassOf(k) == Ok(cache[k].kind)
    }

    constructor ()
      ensures Valid() && cache == map[]
    {
      cache := map[];
    }

    /**
     * `provider(type)`: an unknown type throws before the cache is touched;
     * a cached instance is returned as it is; otherwise a new instance is
     * cached under the type exactly as given.
     */
    method ProviderFor(providerType: string) returns (r: Result<Provider>)
      requires Valid()
      modifies this
      ensures Valid()
      ensures ProviderClassOf(providerType).Err? ==> r == Err(ProviderClassOf(providerType).message) && cache == old(cache)
      ensures ProviderClassOf(providerType).Ok? && providerType in old(cache) ==> r == Ok(old(cache)[providerType]) && cache == old(cache)
      ensures ProviderClassOf(providerType).Ok? && providerType !in old(cache) ==>
                r.Ok? && fresh(r.value) && r.value.kind == ProviderClassOf(providerType).value
                && cache == old(cache)[providerType := r.value]
    {
      var cls := ProviderClassOf(providerType);
      if cls.Err? {
        return Err(cls.message);
      }
      if providerType !in cache {
        var p := new Provider(cls.value);
        cache := cache[providerType := p];
      }
      r := Ok(cache[providerType]);
    }
  }

  /**
   * Asking twice for one spelling gives one instance; asking for a second
   * spelling of the same class gives a second instance of that class; an
   * unknown type throws.
   */
  method CacheScenario(spelling: string, otherSpelling: string, unknown: string)
    returns (sameInstance: bool, separateInstance: bool, sameClass: bool, unknownThrows: bool)
    requires ProviderClassOf(spelling).Ok? && ProviderClassOf(otherSpelling) == ProviderClassOf(spelling)
    requires spelling != otherSpelling && ProviderClassOf(unknown).Err?
    ensures sameInstance && separateInstance && sameClass && unknownThrows
  {
    var factory := new EmailFactory();
    var a := factory.ProviderFor(spelling);
    var b := factory.ProviderFor(spelling);
    var c := factory.ProviderFor(otherSpelling);
    var d := factory.ProviderFor(unknown);
    sameInstance := a.Ok? && b.Ok? && a.value == b.value;
    separateInstance := c.Ok? && a.Ok? && c.value != a.value;
    sameClass := c.Ok? && a.Ok? && c.value.kind == a.value.kind;
    unknownThrows := d.Err?;
  }

  /** "sendgrid" and "SENDGRID" both select the SendGrid provider, and "smtp" is unknown. */
  lemma ScenarioSpellings()
    ensures ProviderClassOf("sendgrid") == Ok(SendgridProvider)
    ensures ProviderClassOf("SENDGRID") == Ok(SendgridProvider)
    ensures ProviderClassOf("smtp").Err?
  {
    LowerSendgrid();
    UpperSendgrid();
    UnknownSmtp();
  }

  /** Lower-case "sendgrid" upper-cases to the SendGrid type name. */
  lemma LowerSendgrid()
    ensures ProviderClassOf("sendgrid") == Ok(SendgridProvider)
  {
    UpperCased("sendgrid", Sendgrid);
  }

  /** "SENDGRID" is the SendGrid type name already. */
  lemma UpperSendgrid()
    ensures ProviderClassOf("SENDGRID") == Ok(SendgridProvider)
  {
    UpperCased("SENDGRID", Sendgrid);
  }

  /** "smtp" upper-cases to "SMTP", which names no provider. */
  lemma UnknownSmtp()
    ensures ProviderClassOf("smtp").Err?
  {
    UpperCased("smtp", "SMTP");
  }

  /** Upper-casing, checked one character at a time. */
  lemma {:induction false} UpperCased(s: string, t: string)
    requires |s| == |t| && forall i :: 0 <= i < |s| ==> JsString.UpperChar(s[i]) == t[i]
    ensures JsString.ToUpper(s) == t
  {
  }
}

=== FILE: mongoosemodel.dfy ===
/**
 * The record store behind every controller (`MongooseModel` in
 * lib/mongoosemodel.js): an id-to-record map, with the database driver's
 * failures supplied by a fault oracle, and the lazily created, append-only
 * `ValidationError`.
 */
module MongooseModel {
  import opened Wrappers
  import opened Records
  import Pagination
  import ListQuery

  /** The driver calls the store makes; the oracle decides which of them fail. */
  datatype StoreOp = FindOp(id: Id) | RemoveOp(id: Id) | InsertOp | SaveOp(id: Id) | CountOp | FetchOp

  /** What a subclass's `validate` hands to its callback. */
  datatype Verdict =
    | Passed
    | Failed(error: Option<seq<string>>, messages: Option<seq<string>>)

  /** The validator of the base class: every item passes. */
  function AcceptAll(fields: map<string, Value>): (v: Verdict)
    ensures v.Passed?
  {
    Passed
  }

  /** The answer of the database to the count and to the page fetch (the regular-expression evaluation is not modelled). */
  datatype CountAnswer = CountAnswer(countError: Option<StoreError>, count: int)
  datatype FetchAnswer = FetchAnswer(fetchError: Option<StoreError>, items: seq<Record>)

  /** The `locals` object handed to the list callback. */
  datatype ListResult = ListResult(filters: ListQuery.Filters, sorting: ListQuery.Sorting, items: seq<Record>)

  /** The stored document `id` names, if any. */
  function Lookup(records: map<Id, Record>, id: Id): (r: Option<Record>)
    ensures r.Some? <==> id in records
    ensures r.Some? ==> r.value == records[id]
  {
    if id in records then Some(records[id]) else None
  }

  /** The record with one field set. */
  function SetField(item: Record, name: string, v: Value): (r: Record)
    ensures r.id == item.id && r.fields.Keys == item.fields.Keys + {name}
    ensures r.fields[name] == v
    ensures forall k :: k in item.fields && k != name ==> r.fields[k] == item.fields[k]
  {
    Record(item.id, item.fields[name := v])
  }

  class Model {
    var records: map<Id, Record>
    const fault: StoreOp -> Option<StoreError>
    const validator: map<string, Value> -> Verdict

    /** Every stored record sits under its own id. */
    predicate Valid()
      reads this
    {
      forall k :: k in records ==> records[k].id == k
    }

    constructor (records: map<Id, Record>, fault: StoreOp -> Option<StoreError>, validator: map<string, Value> -> Verdict)
      requires forall k :: k in records ==> records[k].id == k
      ensures Valid() && this.records == records && this.fault == fault && this.validator == validator
    {
      this.records := records;
      this.fault := fault;
      this.validator := validator;
    }

    /** `findById`: the driver's error, or the document (none when the id is unknown). */
    function FindById(id: Id): (r: (Option<StoreError>, Option<Record>))
      reads this
      ensures r.0 == fault(FindOp(id))
      ensures r.0.None? ==> (r.1.Some? <==> id in records) && (r.1.Some? ==> r.1.value == records[id])
      ensures r.0.Some? ==> r.1.None?
    {
      if fault(FindOp(id)).Some? then (fault(FindOp(id)), None) else (None, Lookup(records, id))
    }

    /** `validate` as the concrete model defines it. */
    function Validate(fields: map<string, Value>): (v: Verdict)
    {
      validator(fields)
    }

    /**
     * `removeById(id, last_modified_by, callback)`: a lookup error is passed
     * on; an unknown id yields neither error nor item; otherwise the item is
     * stamped with the actor and removed, and returned even when the removal
     * fails.
     */
    method RemoveById(id: Id, actor: Value) returns (err: Option<StoreError>, item: Option<Record>)
      requires Valid()
      modifies this
      ensures Valid()
      ensures fault(FindOp(id)).Some? ==> err == fault(FindOp(id)) && item == None && records == old(records)
      ensures fault(FindOp(id)).None? && id !in old(records) ==> err == None && item == None && records == old(records)
      ensures fault(FindOp(id)).None? && id in old(records) ==>
                item == Some(SetField(old(records)[id], LastModifiedBy, actor))
                && err == fault(RemoveOp(id))
                && records == if err.None? then old(records) - {id} else old(records)
    {
      var (findError, found) := FindById(id);
      if findError.Some? {
        return findError, None;
      }
      if found.Some? {
        var stamped := SetField(found.value, LastModifiedBy, actor);
        err := fault(RemoveOp(id));
        if err.None? {
          records := records - {id};
        }
        item := Some(stamped);
      } else {
        err, item := None, None;
      }
    }

    /** `insert`: a new document from the details, under an id the database assigns. */
    method Insert(details: map<string, Value>, newId: Id) returns (err: Option<StoreError>, item: Option<Record>)
      requires Valid() && newId !in records
      modifies this
      ensures Valid()
      ensures err == fault(InsertOp)
      ensures err.Some? ==> item == None && records == old(records)
      ensures err.None? ==> item == Some(Record(newId, details)) && records == old(records)[newId := Record(newId, details)]
    {
      err := fault(InsertOp);
      if err.Some? {
        item := None;
      } else {
        item := Some(Record(newId, details));
        records := records[newId := item.value];
      }
    }

    /** A document's own `save`: the record replaces the stored one unless the driver fails. */
    method Save(item: Record) returns (err: Option<StoreError>)
      requires Valid()
      modifies this
      ensures Valid()
      ensures err == fault(SaveOp(item.id))
      ensures records == if err.None? then old(records)[item.id := item] else old(records)
    {
      err := fault(SaveOp(item.id));
      if err.None? {
        records := records[item.id := item];
      }
    }

    /**
     * `getListFiltered`: builds the query, counts, fills in the pagination
     * (even when the count failed), then fetches the page; the result is
     * handed over only when neither step failed. A search text that is not
     * a valid pattern throws before any of that (`thrown`): nothing is
     * counted, the pagination is left as it was and no result is handed
     * over. `query` is the query sent to the database when nothing threw.
     */
    method GetListFiltered(filters: ListQuery.Filters, pagination: Pagination.Pagination, sorting: ListQuery.Sorting,
                           countAnswer: CountAnswer, fetchAnswer: FetchAnswer, validPattern: string -> bool)
      returns (query: ListQuery.Query, err: Option<StoreError>, result: Option<ListResult>, thrown: bool)
      requires pagination.pageSize != 0
      modifies pagination
      ensures thrown <==> ListQuery.SearchThrows(filters, validPattern)
      ensures thrown ==> unchanged(pagination) && err.None? && result.None?
      ensures !thrown ==>
                pagination.currentPage == old(pagination.currentPage) && pagination.pageSize == old(pagination.pageSize)
      ensures !thrown ==> pagination.totalItems == countAnswer.count
      ensures !thrown ==> pagination.totalPages == Some(Pagination.TotalPages(countAnswer.count, pagination.pageSize))
      ensures !thrown ==> pagination.firstPage == if pagination.currentPage > 3 then Some(1) else old(pagination.firstPage)
      ensures !thrown ==>
                pagination.lastPage == Pagination.LastPage(pagination.currentPage, Pagination.TotalPages(countAnswer.count, pagination.pageSize))
      ensures !thrown ==>
                pagination.pageRange == Pagination.PageRange(pagination.currentPage, Pagination.TotalPages(countAnswer.count, pagination.pageSize))
      ensures !thrown ==>
                pagination.counterString ==
                  if Pagination.ShowsCounter(pagination.currentPage, pagination.pageSize, countAnswer.count)
                  then Some(Pagination.CounterString(pagination.currentPage, pagination.pageSize, countAnswer.count))
                  else old(pagination.counterString)
      ensures !thrown ==> query == ListQuery.BuildQuery(filters, sorting, pagination.currentPage, pagination.pageSize)
      ensures !thrown ==> err == if countAnswer.countError.Some? then countAnswer.countError else fetchAnswer.fetchError
      ensures !thrown ==> (result.Some? <==> err.None?)
      ensures result.Some? ==> result.value == ListResult(filters, sorting, fetchAnswer.items)
    {
      var filter := ListQuery.SearchFilter(filters);
      var sort := ListQuery.SortEntry(sorting);
      query := ListQuery.Query(filter, sort, ListQuery.Window(pagination.currentPage, pagination.pageSize));
      if ListQuery.SearchThrows(filters, validPattern) {
        return query, None, None, true;
      }
      thrown := false;

      pagination.totalItems := countAnswer.count;
      pagination.Prepare();
      if countAnswer.countError.Some? {
        err := countAnswer.countError;
      } else {
        err := fetchAnswer.fetchError;
      }
      query := ListQuery.Query(filter, sort, ListQuery.Window(pagination.currentPage, pagination.pageSize));
      result := if err.None? then Some(ListResult(filters, sorting, fetchAnswer.items)) else None;
    }
  }

  // ------------------------------------------------------------ ValidationError

  /** The messages a list yields once the null entries are dropped, in order. */
  function NonNull(ms: seq<Option<string>>): seq<string>
  {
    if |ms| == 0 then [] else NonNull(ms[..|ms| - 1]) + ToSeq(ms[|ms| - 1])
  }

  /** Exactly the non-null messages are kept, none is invented, and the list never grows longer than the input. */
  lemma {:induction false} NonNullMembers(ms: seq<Option<string>>)
    ensures forall m :: m in NonNull(ms) <==> Some(m) in ms
    ensures |NonNull(ms)| <= |ms|
    ensures (forall i :: 0 <= i < |ms| ==> ms[i].Some?) ==> |NonNull(ms)| == |ms|
  {
    if |ms| > 0 {
      var init := ms[..|ms| - 1];
      NonNullMembers(init);
      assert ms == init + [ms[|ms| - 1]];
      forall m
        ensures m in NonNull(ms) <==> Some(m) in ms
      {
        assert Some(m) in ms <==> Some(m) in init || ms[|ms| - 1] == Some(m);
      }
    }
  }

  /** Without null entries the kept messages are the input, one for one and in order. */
  lemma {:induction false} NonNullIdentity(ms: seq<Option<string>>)
    requires forall i :: 0 <= i < |ms| ==> ms[i].Some?
    ensures |NonNull(ms)| == |ms|
    ensures forall i :: 0 <= i < |ms| ==> NonNull(ms)[i] == ms[i].value
  {
    if |ms| > 0 {
      NonNullIdentity(ms[..|ms| - 1]);
    }
  }

  class ValidationError {
    var messages: seq<string>

    /** `new ValidationError(message)`: the list holds the message unless it is null. */
    constructor (message: Option<string>)
      ensures messages == ToSeq(message)
    {
      messages := ToSeq(message);
    }

    /** `addMessage`: appends a non-null message, ignores null. */
    method AddMessage(message: Option<string>)
      modifies this
      ensures messages == old(messages) + ToSeq(message)
    {
      if message.Some? {
        messages := messages + [message.value];
      }
    }

    /** `attachError`: a fresh error for null, otherwise the same error with the message appended. */
    static method AttachError(error: ValidationError?, message: Option<string>) returns (r: ValidationError)
      modifies error
      ensures error == null ==> fresh(r) && r.messages == ToSeq(message)
      ensures error != null ==> r == error && r.messages == old(error.messages) + ToSeq(message)
    {
      if error == null {
        r := new ValidationError(message);
      } else {
        r := error;
        r.AddMessage(message);
      }
    }

    /** `create`: null for a missing or empty list, otherwise one new error holding the non-null messages in order. */
    static method Create(messages: Option<seq<Option<string>>>) returns (r: ValidationError?)
      ensures messages.None? || |messages.value| == 0 ==> r == null
      ensures messages.Some? && |messages.value| > 0 ==> r != null && fresh(r) && r.messages == NonNull(messages.value)
    {
      r := null;
      if messages.Some? && |messages.value| > 0 {
        var ms := messages.value;
        var i := 0;
        while i < |ms|
          invariant 0 <= i <= |ms|
          invariant i == 0 <==> r == null
          invariant r != null ==> fresh(r) && r.messages == NonNull(ms[..i])
        {
          assert ms[..i + 1][..i] == ms[..i];
          r := AttachError(r, ms[i]);
          i := i + 1;
        }
        assert ms[..i] == ms;
      }
    }
  }
}

=== FILE: pagination.dfy ===
/**
 * The pagination object of a filtered list (`preparePagination` in
 * lib/mongoosemodel.js): the caller supplies the current page, the page size
 * and the item count, and the model fills in the page count, the first/last
 * page markers, a window of at most two pages either side of the current one
 * and the "Showing s to e of t entries" summary, in place.
 */
module Pagination {
  import opened Wrappers
  import JsString

  /** How many pages the window shows on each side of the current page. */
  const Range: int := 2

  /** `Math.ceil(a / b)` for a non-zero divisor (Dafny's `/` is Euclidean). */
  function CeilDiv(a: int, b: int): int
    requires b != 0
  {
    if b > 0 then -((-a) / b) else -(a / (-b))
  }

  function TotalPages(totalItems: int, pageSize: int): int
    requires pageSize != 0
  {
    CeilDiv(totalItems, pageSize)
  }

  /** `lastPage` is the page count while the current page is more than two pages before it, `false` (None) otherwise. */
  function LastPage(currentPage: int, totalPages: int): Option<int> {
    if currentPage < totalPages - Range then Some(totalPages) else None
  }

  function LowRange(currentPage: int): int {
    if currentPage - Range < 1 then 1 else currentPage - Range
  }

  function HighRange(currentPage: int, totalPages: int): int {
    if currentPage + Range > totalPages then totalPages else currentPage + Range
  }

  /** The consecutive integers `lo`, `lo + 1`, ..., `hi` (empty when `lo > hi`). */
  function Interval(lo: int, hi: int): seq<int> {
    if lo > hi then [] else seq(hi - lo + 1, i requires 0 <= i < hi - lo + 1 => lo + i)
  }

  function PageRange(currentPage: int, totalPages: int): seq<int> {
    Interval(LowRange(currentPage), HighRange(currentPage, totalPages))
  }

  /** The first item shown: `pageSize * (currentPage - 1) + 1`, floored at 0. */
  function StartItem(currentPage: int, pageSize: int): int {
    var s := pageSize * (currentPage - 1) + 1;
    if s < 0 then 0 else s
  }

  /** The last item shown: `pageSize * currentPage`, capped at the item count. */
  function EndItem(currentPage: int, pageSize: int, totalItems: int): int {
    var e := pageSize + pageSize * (currentPage - 1);
    if e > totalItems then totalItems else e
  }

  /** The summary is written unless both the first item and the count are 0. */
  predicate ShowsCounter(currentPage: int, pageSize: int, totalItems: int) {
    StartItem(currentPage, pageSize) != 0 || totalItems != 0
  }

  function CounterString(currentPage: int, pageSize: int, totalItems: int): string {
    "Showing " + JsString.IntToString(StartItem(currentPage, pageSize))
    + " to " + JsString.IntToString(EndItem(currentPage, pageSize, totalItems))
    + " of " + JsString.IntToString(totalItems) + " entries"
  }

  /** The pagination object the list view reads. `None` stands for a property not set. */
  class Pagination {
    var currentPage: int
    var pageSize: int
    var totalItems: int
    var totalPages: Option<int>
    var firstPage: Option<int>
    /** `None` stands for `false`. */
    var lastPage: Option<int>
    var pageRange: seq<int>
    var counterString: Option<string>

    /** `{currentPage, pageSize}` as the controllers build it, before the count is known. */
    constructor (currentPage: int, pageSize: int)
      ensures this.currentPage == currentPage && this.pageSize == pageSize && totalItems == 0
      ensures totalPages == None && firstPage == None && lastPage == None
      ensures pageRange == [] && counterString == None
    {
      this.currentPage := currentPage;
      this.pageSize := pageSize;
      totalItems := 0;
      totalPages := None;
      firstPage := None;
      lastPage := None;
      pageRange := [];
      counterString := None;
    }

    /** `preparePagination`: fills in the derived properties from the three inputs. */
    method Prepare()
      requires pageSize != 0
      modifies this
      ensures currentPage == old(currentPage) && pageSize == old(pageSize) && totalItems == old(totalItems)
      ensures totalPages == Some(TotalPages(totalItems, pageSize))
      ensures firstPage == if currentPage > 3 then Some(1) else old(firstPage)
      ensures lastPage == LastPage(currentPage, TotalPages(totalItems, pageSize))
      ensures pageRange == PageRange(currentPage, TotalPages(totalItems, pageSize))
      ensures counterString == if ShowsCounter(currentPage, pageSize, totalItems)
                               then Some(CounterString(currentPage, pageSize, totalItems))
                               else old(counterString)
    {
      var pages := CeilDiv(totalItems, pageSize);
      totalPages := Some(pages);
      if currentPage > 3 {
        firstPage := Some(1);
      }

      lastPage := None;
      if currentPage < pages - Range {
        lastPage := Some(pages);
      }
      var lowRange := currentPage - Range;
      if currentPage - Range < 1 {
        lowRange := 1;
      }
      var highRange := currentPage + Range;
      if currentPage + Range > pages {
        highRange := pages;
      }
      assert lowRange == LowRange(currentPage) && highRange == HighRange(currentPage, pages);
      var range := [];
      var x := lowRange;
      while x <= highRange
        invariant lowRange <= x <= if highRange < lowRange then lowRange else highRange + 1
        invariant range == seq(x - lowRange, i requires 0 <= i < x - lowRange => lowRange + i)
      {
        range := range + [x];
        x := x + 1;
      }
      pageRange := range;

      var current := currentPage - 1;
      var listCount := pageSize + pageSize * current;
      if listCount > totalItems {
        listCount := totalItems;
      }
      var startItem := pageSize * current + 1;
      if startItem < 0 {
        startItem := 0;
      }
      assert listCount == EndItem(currentPage, pageSize, totalItems);
      assert startItem == StartItem(currentPage, pageSize);
      if startItem != 0 || totalItems != 0 {
        counterString := Some("Showing " + JsString.IntToString(startItem) + " to " + JsString.IntToString(listCount)
                              + " of " + JsString.IntToString(totalItems) + " entries");
      }
    }
  }

  // ---------------------------------------------------------------- properties

  /** The page count is the least number of pages of `pageSize` items that hold every item. */
  lemma TotalPagesIsCeiling(totalItems: int, pageSize: int)
    requires pageSize > 0
    ensures (TotalPages(totalItems, pageSize) - 1) * pageSize < totalItems <= TotalPages(totalItems, pageSize) * pageSize
    ensures totalItems >= 0 ==> TotalPages(totalItems, pageSize) >= 0
  {
    var q := (-totalItems) / pageSize;
    var r := (-totalItems) % pageSize;
    assert -totalItems == q * pageSize + r && 0 <= r < pageSize;
    assert TotalPages(totalItems, pageSize) == -q;
    assert (-q) * pageSize == totalItems + r;
    assert (-q - 1) * pageSize == totalItems + r - pageSize;
  }

  /** The window holds exactly the pages within two of the current one that exist (from 1 to the page count). */
  lemma PageRangeMembers(currentPage: int, totalPages: int, x: int)
    ensures x in PageRange(currentPage, totalPages) <==>
              1 <= x && currentPage - Range <= x && x <= currentPage + Range && x <= totalPages
  {
    var lo, hi := LowRange(currentPage), HighRange(currentPage, totalPages);
    if lo <= x <= hi {
      assert PageRange(currentPage, totalPages)[x - lo] == x;
    }
  }

  /** The window is a run of consecutive pages, at most five long, empty exactly when its bounds cross. */
  lemma PageRangeShape(currentPage: int, totalPages: int)
    ensures var r := PageRange(currentPage, totalPages);
            |r| <= 2 * Range + 1
            && (r == [] <==> LowRange(currentPage) > HighRange(currentPage, totalPages))
            && (forall i :: 0 < i < |r| ==> r[i] == r[i - 1] + 1)
            && (r != [] ==> r[0] == LowRange(currentPage) && r[|r| - 1] == HighRange(currentPage, totalPages))
  {
  }

  /** On a page that exists, the summary names a non-empty run of at most one page of items. */
  lemma CounterWithinPage(currentPage: int, pageSize: int, totalItems: int)
    requires pageSize > 0 && 1 <= currentPage
    requires pageSize * (currentPage - 1) < totalItems
    ensures StartItem(currentPage, pageSize) == pageSize * (currentPage - 1) + 1
    ensures StartItem(currentPage, pageSize) <= EndItem(currentPage, pageSize, totalItems) <= totalItems
    ensures EndItem(currentPage, pageSize, totalItems) - StartItem(currentPage, pageSize) < pageSize
    ensures ShowsCounter(currentPage, pageSize, totalItems)
  {
    assert pageSize * (currentPage - 1) >= 0;
  }

  /** Page 1 of 25 items in pages of 10: three pages, all in the window, "Showing 1 to 10 of 25 entries". */
  lemma FirstPageExample()
    ensures TotalPages(25, 10) == 3
    ensures PageRange(1, 3) == [1, 2, 3]
    ensures LastPage(1, 3) == None
    ensures CounterString(1, 10, 25) == "Showing 1 to 10 of 25 entries"
  {
    assert StartItem(1, 10) == 1 && EndItem(1, 10, 25) == 10;
    SmallNumerals();
  }

  /** The decimal forms the examples print. */
  lemma SmallNumerals()
    ensures JsString.IntToString(1) == "1"
    ensures JsString.IntToString(10) == "10"
    ensures JsString.IntToString(25) == "25"
  {
  }

  /** Page 5 of the same list lies past the end: the window is clipped to [3]. */
  lemma ClippedWindowExample()
    ensures PageRange(5, TotalPages(25, 10)) == [3]
  {
    assert TotalPages(25, 10) == 3;
  }
}

=== FILE: records.dfy ===
/**
 * The values that flow through the controllers: request-body fields, document
 * fields and spreadsheet cells, with JavaScript's notion of truthiness.
 */
module Records {
  import opened Wrappers

  /** A JavaScript value as far as the model needs it (numbers are integers). */
  datatype Value =
    | VNull
    | VBool(b: bool)
    | VNum(n: int)
    | VStr(s: string)
    | VList(items: seq<Value>)

  /** JavaScript truthiness: `null`, `false`, `0` and `""` are falsy; every array is truthy. */
  predicate Truthy(v: Value) {
    match v
    case VNull => false
    case VBool(b) => b
    case VNum(n) => n != 0
    case VStr(s) => s != ""
    case VList(_) => true
  }

  /** Truthiness of an optional string (`undefined` and `""` are falsy). */
  predicate Present(s: Option<string>) {
    s.Some? && s.value != ""
  }

  type Id = string

  /** A stored document: its identifier and its other fields. */
  datatype Record = Record(id: Id, fields: map<string, Value>)

  /** An error reported by the database driver. */
  datatype StoreError = StoreError(message: string)

  /** The audit field every create and update stamps with the acting user. */
  const LastModifiedBy: string := "last_modified_by"
}

=== FILE: sendgridprovider.dfy ===
/**
 * Turning an e-mail message into a Sendgrid mail (`send` in
 * lib/email/sendgridprovider.js): recipients are de-duplicated across to, cc
 * and bcc (the first occurrence wins), each header contributes the complete
 * name/value forms it carries, text comes before html, and the reply status
 * decides the callback's error. The Sendgrid client itself is not modelled:
 * the HTTP status it answers with is a parameter.
 */
module SendgridProvider {
  import opened Wrappers
  import opened Records
  import JsString
  import EM = EmailMessage

  /** `new Email(email, name)` of the Sendgrid helper. */
  datatype Email = Email(email: Option<string>, name: Option<string>)

  datatype HeaderEntry = HeaderEntry(key: string, value: string)

  datatype Content = Content(contentType: string, value: string)

  datatype Attachment = Attachment(mimeType: Option<string>, filename: Option<string>, content: string,
                                   disposition: Option<string>, contentId: Option<string>)

  datatype Personalization = Personalization(to: seq<EM.Address>, cc: seq<EM.Address>, bcc: seq<EM.Address>,
                                             subject: string, headers: seq<HeaderEntry>)

  datatype Mail = Mail(from: Email, subject: string, personalization: Personalization,
                       contents: seq<Content>, attachments: seq<Attachment>, replyTo: Option<Email>)

  // ------------------------------------------------------------ recipients

  /** The addresses a list mentions. */
  function Emails(list: seq<EM.Address>): set<string> {
    set a | a in list :: a.email
  }

  /** No address occurs twice. */
  predicate Distinct(list: seq<EM.Address>) {
    forall i, j :: 0 <= i < j < |list| ==> list[i].email != list[j].email
  }

  /** Entry `i` is kept: its address is neither already taken nor used earlier in the list. */
  predicate KeepsAt(list: seq<EM.Address>, seen: set<string>, i: int)
    requires 0 <= i < |list|
  {
    list[i].email !in seen && list[i].email !in Emails(list[..i])
  }

  /** The entries of `list` that survive the `emailsMap` check, given the addresses `seen` before it. */
  function Kept(list: seq<EM.Address>, seen: set<string>): seq<EM.Address>
  {
    if list == [] then []
    else
      var init := list[..|list| - 1];
      var last := list[|list| - 1];
      Kept(init, seen) + (if last.email in seen || last.email in Emails(init) then [] else [last])
  }

  /** Where the kept entries sit in `list`. */
  function KeptPositions(list: seq<EM.Address>, seen: set<string>): seq<int>
  {
    if list == [] then []
    else
      var init := list[..|list| - 1];
      var last := list[|list| - 1];
      KeptPositions(init, seen) + (if last.email in seen || last.email in Emails(init) then [] else [|list| - 1])
  }

  lemma EmailsAppend(a: seq<EM.Address>, b: seq<EM.Address>)
    ensures Emails(a + b) == Emails(a) + Emails(b)
  {
    forall e | e in Emails(a + b)
      ensures e in Emails(a) + Emails(b)
    {
      var x :| x in a + b && x.email == e;
    }
    forall e | e in Emails(a) + Emails(b)
      ensures e in Emails(a + b)
    {
      if e in Emails(a) {
        var x :| x in a && x.email == e;
        assert x in a + b;
      } else {
        var x :| x in b && x.email == e;
        assert x in a + b;
      }
    }
  }

  /**
   * The kept entries are the entries whose address was not seen before and
   * does not occur earlier in the list: each kept entry is the FIRST with its
   * address, and they appear in their original order.
   */
  lemma {:induction false} KeptAreFirstOccurrences(list: seq<EM.Address>, seen: set<string>)
    ensures var k, p := Kept(list, seen), KeptPositions(list, seen);
            |p| == |k|
            && (forall j :: 0 <= j < |p| ==> 0 <= p[j] < |list| && k[j] == list[p[j]])
            && (forall j1, j2 :: 0 <= j1 < j2 < |p| ==> p[j1] < p[j2])
            && (forall i :: 0 <= i < |list| ==> (i in p <==> KeepsAt(list, seen, i)))
  {
    if list != [] {
      var init := list[..|list| - 1];
      KeptAreFirstOccurrences(init, seen);
      forall i | 0 <= i < |init|
        ensures KeepsAt(list, seen, i) == KeepsAt(init, seen, i)
      {
        assert list[..i] == init[..i];
      }
      assert list[..|list| - 1] == init;
    }
  }

  /**
   * No kept address was seen before, none occurs twice, and every address of
   * the list not seen before is kept.
   */
  lemma {:induction false} KeptUnique(list: seq<EM.Address>, seen: set<string>)
    ensures forall a :: a in Kept(list, seen) ==> a in list && a.email !in seen
    ensures Distinct(Kept(list, seen))
    ensures Emails(Kept(list, seen)) == Emails(list) - seen
  {
    if list != [] {
      var init := list[..|list| - 1];
      var last := list[|list| - 1];
      KeptUnique(init, seen);
      assert list == init + [last];
      EmailsAppend(init, [last]);
      assert Emails([last]) == {last.email};
      var extra := if last.email in seen || last.email in Emails(init) then [] else [last];
      EmailsAppend(Kept(init, seen), extra);
      if extra != [] {
        assert Emails(extra) == {last.email};
        var k := Kept(list, seen);
        forall i, j | 0 <= i < j < |k|
          ensures k[i].email != k[j].email
        {
          if j == |k| - 1 {
            assert k[i] in Kept(init, seen);
          }
        }
      } else {
        assert Emails(extra) == {};
      }
    }
  }

  /** The three de-duplicated lists: to first, then cc, then bcc. */
  function Recipients(to: seq<EM.Address>, cc: seq<EM.Address>, bcc: seq<EM.Address>): (seq<EM.Address>, seq<EM.Address>, seq<EM.Address>)
  {
    (Kept(to, {}), Kept(cc, Emails(to)), Kept(bcc, Emails(to) + Emails(cc)))
  }

  /** Two lists without duplicates and without a common address concatenate to one without duplicates. */
  lemma DistinctConcat(a: seq<EM.Address>, b: seq<EM.Address>)
    requires Distinct(a) && Distinct(b) && Emails(a) !! Emails(b)
    ensures Distinct(a + b) && Emails(a + b) == Emails(a) + Emails(b)
  {
    EmailsAppend(a, b);
    var all := a + b;
    forall i, j | 0 <= i < j < |all|
      ensures all[i].email != all[j].email
    {
      if i < |a| && j >= |a| {
        assert all[i] == a[i] && all[j] == b[j - |a|];
        assert all[i].email in Emails(a) && all[j].email in Emails(b);
      } else if i >= |a| {
        assert all[i] == b[i - |a|] && all[j] == b[j - |a|];
      }
    }
  }

  /**
   * Across the three lists every address appears exactly once: no two
   * entries share an address, and every address of the message is there.
   */
  lemma RecipientsUnique(to: seq<EM.Address>, cc: seq<EM.Address>, bcc: seq<EM.Address>)
    ensures var (t, c, b) := Recipients(to, cc, bcc);
            Distinct(t + c + b) && Emails(t + c + b) == Emails(to) + Emails(cc) + Emails(bcc)
  {
    var (t, c, b) := Recipients(to, cc, bcc);
    KeptUnique(to, {});
    KeptUnique(cc, Emails(to));
    KeptUnique(bcc, Emails(to) + Emails(cc));
    DistinctConcat(t, c);
    DistinctConcat(t + c, b);
  }

  // ------------------------------------------------------------ headers, content, attachments

  /** The entries one header adds: one per complete form (name/value, key/value, [0]/[1]). */
  function HeaderEntries(h: EM.Header): (r: seq<HeaderEntry>)
    ensures |r| <= 3
    ensures |r| == (if Present(h.name) && Present(h.value) then 1 else 0)
                   + (if Present(h.key) && Present(h.value) then 1 else 0)
                   + (if Present(h.first) && Present(h.second) then 1 else 0)
    ensures Present(h.name) && Present(h.value) ==> r[0] == HeaderEntry(h.name.value, h.value.value)
    ensures Present(h.key) && Present(h.value) ==>
              r[if Present(h.name) then 1 else 0] == HeaderEntry(h.key.value, h.value.value)
    ensures Present(h.first) && Present(h.second) ==> r[|r| - 1] == HeaderEntry(h.first.value, h.second.value)
  {
    (if Present(h.name) && Present(h.value) then [HeaderEntry(h.name.value, h.value.value)] else [])
    + (if Present(h.key) && Present(h.value) then [HeaderEntry(h.key.value, h.value.value)] else [])
    + (if Present(h.first) && Present(h.second) then [HeaderEntry(h.first.value, h.second.value)] else [])
  }

  /** The entries of all headers, header by header. */
  function AllHeaderEntries(hs: seq<EM.Header>): (r: seq<HeaderEntry>)
    ensures |r| <= 3 * |hs|
  {
    if hs == [] then [] else AllHeaderEntries(hs[..|hs| - 1]) + HeaderEntries(hs[|hs| - 1])
  }

  /** The content parts: text/plain first, then text/html, each only when non-empty. */
  function Contents(text: Option<string>, html: Option<string>): (r: seq<Content>)
    ensures |r| == (if Present(text) then 1 else 0) + (if Present(html) then 1 else 0)
    ensures Present(text) ==> r[0] == Content("text/plain", text.value)
    ensures Present(html) ==> r[|r| - 1] == Content("text/html", html.value)
    ensures forall c :: c in r ==> c.contentType == "text/plain" || c.contentType == "text/html"
  {
    (if Present(text) then [Content("text/plain", text.value)] else [])
    + (if Present(html) then [Content("text/html", html.value)] else [])
  }

  /** One attachment as Sendgrid receives it: disposition and content id only when non-empty. */
  function ToSendgrid(a: EM.Attachment): (r: Attachment)
    ensures r.mimeType == a.mimeType && r.filename == a.name && r.content == a.content
    ensures Present(a.disposition) ==> r.disposition == a.disposition
    ensures !Present(a.disposition) ==> r.disposition.None?
    ensures Present(a.contentId) ==> r.contentId == a.contentId
    ensures !Present(a.contentId) ==> r.contentId.None?
  {
    Attachment(a.mimeType, a.name, a.content,
               if Present(a.disposition) then a.disposition else None,
               if Present(a.contentId) then a.contentId else None)
  }

  /** The attachment loop: each attachment converted, in order. */
  function AttachmentsFor(atts: seq<EM.Attachment>): (r: seq<Attachment>)
    ensures |r| == |atts| && forall i :: 0 <= i < |atts| ==> r[i] == ToSendgrid(atts[i])
  {
    seq(|atts|, i requires 0 <= i < |atts| => ToSendgrid(atts[i]))
  }

  /** The reply-to address, set only when it has a non-empty address. */
  function ReplyTarget(r: EM.ReplyTo): (e: Option<Email>)
    ensures e.Some? <==> Present(r.email)
    ensures e.Some? ==> e.value == Email(r.email, r.name)
  {
    if Present(r.email) then Some(Email(r.email, r.name)) else None
  }

  /** The whole mail built from a message. */
  function MailFor(d: EM.MessageData): Mail
  {
    var (t, c, b) := Recipients(d.to, d.cc, d.bcc);
    Mail(Email(d.fromEmail, d.fromName), d.subject,
         Personalization(t, c, b, d.subject, AllHeaderEntries(d.headers)),
         Contents(d.text, d.html),
         AttachmentsFor(d.attachments),
         ReplyTarget(d.replyTo))
  }

  /** `callback(null, …)` for a 2xx status, otherwise an error naming the status. */
  function SendOutcome(status: int): (err: Option<string>)
    ensures err.None? <==> 200 <= status < 300
    ensures err.Some? ==> err.value == "MAILER ERROR: Sendgrid error occurred: " + JsString.IntToString(status)
  {
    if 200 <= status < 300 then None
    else Some("MAILER ERROR: Sendgrid error occurred: " + JsString.IntToString(status))
  }

  // ------------------------------------------------------------ the send loops

  /** One of the three recipient loops, with `emailsMap` as the set of addresses taken so far. */
  method AddUnique(list: seq<EM.Address>, seen: set<string>) returns (kept: seq<EM.Address>, seenAfter: set<string>)
    ensures kept == Kept(list, seen)
    ensures seenAfter == seen + Emails(list)
  {
    kept, seenAfter := [], seen;
    var i := 0;
    while i < |list|
      invariant 0 <= i <= |list|
      invariant kept == Kept(list[..i], seen)
      invariant seenAfter == seen + Emails(list[..i])
    {
      KeptStep(list, seen, i);
      if list[i].email in seenAfter {
        i := i + 1;
        continue;
      }
      seenAfter := seenAfter + {list[i].email};
      kept := kept + [list[i]];
      i := i + 1;
    }
    assert list[..i] == list;
  }

  /** One more entry of the list: it is kept unless its address is already taken. */
  lemma KeptStep(list: seq<EM.Address>, seen: set<string>, i: int)
    requires 0 <= i < |list|
    ensures Emails(list[..i + 1]) == Emails(list[..i]) + {list[i].email}
    ensures Kept(list[..i + 1], seen)
            == Kept(list[..i], seen) + (if list[i].email in seen + Emails(list[..i]) then [] else [list[i]])
  {
    var prefix := list[..i + 1];
    assert prefix[..i] == list[..i] && prefix[i] == list[i];
    EmailsAppend(list[..i], [list[i]]);
    assert prefix == list[..i] + [list[i]] && Emails([list[i]]) == {list[i].email};
  }

  /** The entries `send` pushes for one header, in the order it pushes them. */
  method HeaderStep(header: EM.Header) returns (step: seq<HeaderEntry>)
    ensures step == HeaderEntries(header)
  {
    step := [];
    if Present(header.name) && Present(header.value) {
      step := step + [HeaderEntry(header.name.value, header.value.value)];
    }
    if Present(header.key) && Present(header.value) {
      step := step + [HeaderEntry(header.key.value, header.value.value)];
    }
    if Present(header.first) && Present(header.second) {
      step := step + [HeaderEntry(header.first.value, header.second.value)];
    }
  }

  /** The header loop. */
  method AddHeaders(headers: seq<EM.Header>) returns (entries: seq<HeaderEntry>)
    ensures entries == AllHeaderEntries(headers)
  {
    entries := [];
    var i := 0;
    while i < |headers|
      invariant 0 <= i <= |headers|
      invariant entries == AllHeaderEntries(headers[..i])
    {
      assert headers[..i + 1][..i] == headers[..i];
      var step := HeaderStep(headers[i]);
      entries := entries + step;
      i := i + 1;
    }
    assert headers[..i] == headers;
  }

  /** The message-assembly part of `send`. */
  method BuildMail(message: EM.EmailMessage) returns (mail: Mail)
    ensures mail == MailFor(message.Data())
  {
    var seen: set<string> := {};
    var to, cc, bcc;
    to, seen := AddUnique(message.to, seen);
    assert seen == Emails(message.to);
    cc, seen := AddUnique(message.cc, seen);
    bcc, seen := AddUnique(message.bcc, seen);
    var headers := AddHeaders(message.headers);
    var contents := [];
    if Present(message.text) {
      contents := contents + [Content("text/plain", message.text.value)];
    }
    if Present(message.html) {
      contents := contents + [Content("text/html", message.html.value)];
    }
    var rawAttachments := message.attachments;
    var attachments := [];
    var i := 0;
    while i < |rawAttachments|
      invariant 0 <= i <= |rawAttachments|
      invariant attachments == AttachmentsFor(rawAttachments[..i])
    {
      attachments := attachments + [ToSendgrid(rawAttachments[i])];
      i := i + 1;
    }
    assert rawAttachments[..i] == rawAttachments;
    var replyTo := None;
    if Present(message.replyTo.email) {
      replyTo := Some(Email(message.replyTo.email, message.replyTo.name));
    }
    assert (to, cc, bcc) == Recipients(message.to, message.cc, message.bcc);
    mail := Mail(Email(message.fromEmail, message.fromName), message.subject,
                 Personalization(to, cc, bcc, message.subject, headers), contents, attachments, replyTo);
  }

  /** What `send` is given: an `EmailMessage`, or any other (possibly null) object. */
  datatype Outgoing = Built(message: EM.EmailMessage) | Raw(raw: Option<EM.RawMessage>)

  /**
   * `send(message, callback)`: wraps a raw object into an `EmailMessage`,
   * builds the mail, and reports the outcome of the status Sendgrid answers.
   */
  method Send(message: Outgoing, status: int) returns (mail: Mail, err: Option<string>)
    ensures message.Built? ==> mail == MailFor(message.message.Data())
    ensures message.Raw? ==> mail == MailFor(EM.FromRaw(message.raw))
    ensures err == SendOutcome(status)
  {
    var emailMessage: EM.EmailMessage;
    if message.Built? {
      emailMessage := message.message;
    } else {
      emailMessage := new EM.EmailMessage(message.raw);
    }
    mail := BuildMail(emailMessage);
    if 200 <= status < 300 {
      err := None;
    } else {
      err := Some("MAILER ERROR: Sendgrid error occurred: " + JsString.IntToString(status));
    }
  }
}

=== FILE: user.dfy ===
/**
 * The example application's user document
 * (examples/nodejs-module-example/app/models/dbo/user.js): its `fullName`
 * virtual and the per-user notification switch.
 */
module User {
  import opened Wrappers
  import JsString

  /** A name part as string concatenation prints it: an absent part reads "undefined". */
  function Printed(part: Option<string>): (r: string)
    ensures part.Some? ==> r == part.value
    ensures part.None? ==> r == "undefined"
  {
    if part.Some? then part.value else "undefined"
  }

  /**
   * `name.first + ' ' + name.last`: the printed first name, one space, the
   * printed last name.
   */
  function FullName(first: Option<string>, last: Option<string>): (r: string)
    ensures |r| == |Printed(first)| + |Printed(last)| + 1
    ensures r[..|Printed(first)|] == Printed(first) && r[|Printed(first)|] == ' '
    ensures r[|Printed(first)| + 1..] == Printed(last)
  {
    Printed(first) + " " + Printed(last)
  }

  /** Names without spaces can be read back from the full name. */
  lemma FullNameSplits(first: string, last: string)
    requires ' ' !in first && ' ' !in last
    ensures JsString.Split(FullName(Some(first), Some(last)), ' ') == [first, last]
  {
    JsString.SplitJoin([first, last], ' ');
    assert JsString.Join([first, last], ' ') == FullName(Some(first), Some(last));
  }

  /** Two names are equal ignoring (ASCII) case. */
  predicate SameIgnoringCase(a: string, b: string) {
    JsString.ToLower(a) == JsString.ToLower(b)
  }

  /**
   * `isNotificationAllowed(type)`: false for a null type or a null list,
   * otherwise true exactly when some entry equals the type ignoring case.
   */
  method IsNotificationAllowed(notifications: Option<seq<string>>, notificationType: Option<string>) returns (allowed: bool)
    ensures allowed <==> notifications.Some? && notificationType.Some?
                         && exists i :: 0 <= i < |notifications.value| && SameIgnoringCase(notifications.value[i], notificationType.value)
  {
    if notificationType.Some? && notifications.Some? {
      var list := notifications.value;
      var wanted := JsString.ToLower(notificationType.value);
      var i := 0;
      while i < |list|
        invariant 0 <= i <= |list|
        invariant forall j :: 0 <= j < i ==> !SameIgnoringCase(list[j], notificationType.value)
      {
        if JsString.ToLower(list[i]) == wanted {
          return true;
        }
        i := i + 1;
      }
    }
    return false;
  }
}

=== FILE: view.dfy ===
/**
 * The view a controller hands back (lib/view.js): its type, template, data
 * and error, and the choice `render` makes between an error, an HTML page and
 * a JSON document. Template compilation and `JSON.stringify` are parameters.
 */
module View {
  import opened Wrappers
  import opened Records

  /** `ViewType` */
  const Html: string := "HTML"
  const Json: string := "JSON"
  const Xml: string := "XML"

  predicate KnownType(t: string) {
    t == Html || t == Json || t == Xml
  }

  /** The type the setter leaves behind, given the type held before and the value assigned. */
  function NextViewType(current: Option<string>, value: Option<string>): (r: Option<string>)
    ensures value.Some? && KnownType(value.value) ==> r == value
    ensures !(value.Some? && KnownType(value.value)) ==> r == if current.None? then Some(Html) else current
  {
    if value.Some? && KnownType(value.value) then value
    else if current.None? then Some(Html)
    else current
  }

  /** Once a view has a type it keeps one of the three, and assigning the same value again changes nothing. */
  lemma NextViewTypeStable(current: Option<string>, value: Option<string>)
    requires current.None? || KnownType(current.value)
    ensures NextViewType(current, value).Some? && KnownType(NextViewType(current, value).value)
    ensures NextViewType(NextViewType(current, value), value) == NextViewType(current, value)
  {
  }

  /** The `Content-Type` of a successful rendering: none for XML. */
  function ContentType(viewType: string): (r: Option<string>)
    ensures viewType == Html ==> r == Some("text/html")
    ensures viewType == Json ==> r == Some("application/json")
    ensures viewType != Html && viewType != Json ==> r == None
  {
    if viewType == Html then Some("text/html")
    else if viewType == Json then Some("application/json")
    else None
  }

  /** What `render` writes to a response it is given. */
  datatype Written = Written(status: int, contentType: Option<string>, body: string)

  class View {
    var viewType: Option<string>
    var template: Option<string>
    var data: map<string, Value>
    var error: Option<string>

    /** The type is unset or one of the three. */
    predicate Valid()
      reads this
    {
      viewType.None? || KnownType(viewType.value)
    }

    /** `new View(viewType, data, template, error)`: an unknown type becomes HTML. */
    constructor (viewType: Option<string>, data: map<string, Value>, template: Option<string>, error: Option<string>)
      ensures Valid()
      ensures this.viewType == NextViewType(None, viewType)
      ensures this.data == data && this.template == template && this.error == error
    {
      this.viewType := None;
      this.data := data;
      this.template := template;
      this.error := error;
      new;
      SetViewType(viewType);
    }

    /** The `viewType` setter: a known type is stored; anything else only fills in HTML when no type is set. */
    method SetViewType(value: Option<string>)
      requires Valid()
      modifies this
      ensures Valid()
      ensures viewType == NextViewType(old(viewType), value)
      ensures template == old(template) && data == old(data) && error == old(error)
    {
      if value.Some? && (value.value == Html || value.value == Json || value.value == Xml) {
        viewType := value;
      } else if viewType.None? {
        viewType := Some(Html);
      }
    }

    /** `htmlView(template, data, error)` */
    static method HtmlView(template: Option<string>, data: map<string, Value>, error: Option<string>) returns (v: View)
      ensures fresh(v) && v.Valid()
      ensures v.viewType == Some(Html) && v.template == template && v.data == data && v.error == error
    {
      v := new View(Some(Html), data, template, error);
    }

    /** `jsonView(data, error)`: no template. */
    static method JsonView(data: map<string, Value>, error: Option<string>) returns (v: View)
      ensures fresh(v) && v.Valid()
      ensures v.viewType == Some(Json) && v.template == None && v.data == data && v.error == error
    {
      v := new View(Some(Json), data, None, error);
    }

    /**
     * `render(response, request)`: records the logged user in the data; with
     * an error the result is null and a response gets status 500 (its content
     * type variable is still unset); without one the result is the compiled
     * template for HTML, the serialised data for JSON, and empty otherwise,
     * written with status 200 and the matching content type.
     */
    method Render(hasResponse: bool, user: Option<Value>,
                  compile: (string, map<string, Value>) -> string, stringify: map<string, Value> -> string)
      returns (result: Option<string>, written: Option<Written>)
      requires Valid() && viewType.Some?
      modifies this
      ensures viewType == old(viewType) && template == old(template) && error == old(error)
      ensures data == if user.Some? then old(data)["loggedUser" := user.value] else old(data)
      ensures error.Some? <==> result.None?
      ensures hasResponse <==> written.Some?
      ensures error.Some? && hasResponse ==> written.value == Written(500, None, error.value)
      ensures error.None? && viewType.value == Html ==> result == Some(compile(template.GetOr(""), data))
      ensures error.None? && viewType.value == Json ==> result == Some(stringify(data))
      ensures error.None? && viewType.value == Xml ==> result == Some("")
      ensures error.None? && hasResponse ==>
                written.value == Written(200, ContentType(viewType.value), result.value)
    {
      if user.Some? {
        data := data["loggedUser" := user.value];
      }
      written := None;
      if error.None? {
        var output := "";
        var contentType := None;
        if viewType.value == Html {
          output := compile(template.GetOr(""), data);
          contentType := Some("text/html");
        } else if viewType.value == Json {
          output := stringify(data);
          contentType := Some("application/json");
        }
        result := Some(output);
        if hasResponse {
          written := Some(Written(200, contentType, output));
        }
      } else {
        result := None;
        if hasResponse {
          written := Some(Written(500, None, error.value));
        }
      }
    }
  }
}

=== FILE: wrappers.dfy ===
/** Optional values: JavaScript's `null`/`undefined` become `None`. */
module Wrappers {

  datatype Option<+T> = None | Some(value: T) {

    /** The value when present, `default` otherwise. */
    function GetOr(default: T): T {
      match this
      case Some(v) => v
      case None => default
    }
  }

  /** The list a present option stands for: `[value]` or `[]`. */
  function ToSeq<T>(o: Option<T>): (r: seq<T>)
  {
    match o
    case Some(v) => [v]
    case None => []
  }

  /** The outcome of an operation that may throw: its value, or the message of the error thrown. */
  datatype Result<+T> = Ok(value: T) | Err(message: string)
}
